=== FILE: README.md ===
# Limo game client, modelled in Dafny

The modelled system is a Python 2 client for the Windward grid game. In that game, limos drive company CEOs (passengers) between company bus stops. Over a TCP connection the client:

- receives XML `setup` and `status` messages;
- keeps a roster of players, limos, passengers and companies up to date;
- asks a deliberately naive A* search for a route;
- sends back `ready` and `move` orders that carry a path and a pick-up list.

The model covers the sequential core of six files:

| Dafny module | Source file | What it models |
|---|---|---|
| `SimpleAStar` (`simple_a_star.dfy`) | `simpleAStar.py` | The path search. |
| `TcpClient` (`tcp_client.dfy`) | `tcpClient.py` | The length-prefixed framing of messages. |
| `GameMap` (`game_map.dfy`) | `api/map.py` | The map grid and its squares. |
| `Framework` (`framework.dfy`) | `framework.py` | The text of orders and status messages, and the reconnection schedule. |
| `Units` (`units.dfy`) | `api/units.py` | The bookkeeping of players and passengers. |
| `PlayerBrain` (`player_brain.dfy`) | `myPlayerBrain.py` | The sample AI. |

Three small modules support them:

- `Wrappers` defines `Option` and `Result`.
- `Text` models Python 2's `str.strip`, `str.lower`, `str.split`, `str.index`, `str()` and `int()` on byte strings (`str`). White space, digits and letter case are those of ASCII text.
- `PyList` defines first-match lookup and filtering, which model `[x for x in xs if …][0]` and `filter`.

How the model represents the source:

- **Python object references become indices.** The players, passengers and companies are sequences, and a reference to one of them is its position. `Units.GameState` is a class whose `players`, `passengers` and `companies` fields the update methods reassign, as the source updates the objects in place.
- **The A* graph is an arena.** Its `TrailPoint`s are a sequence. The `nodes` dictionary maps a tile to an index, and `notEvaluated` is a list of indices. The search threads these values through methods whose loops carry the invariants.
- **Failures are values.** Every Python exception the core can raise on bad input is a `Failure` value: an `IndexError` from `[...][0]`, a failed `assert`, or a `TypeError`/`ValueError` from a conversion.
- **XML elements are attribute records.** Each element becomes a record of its already-decoded attributes.
- **Sockets are chunk-size oracles.** A function says how many bytes each `recv`/`send` call hands over.
- **Floating-point ranking is an ordered key.** The float key used to rank passengers is a parameter `key: nat -> int`.

The header code writes and reads the length least significant byte first (little-endian), and the model follows the code.

## Model

| member | source | states |
|---|---|---|
| Text.Strip | framework.py:107 | The result neither starts nor ends with white space, and the input is white space, then the result, then white space |
| Text.StripUnique | framework.py:107 | Any split of a string into white space, an unpadded middle and white space has Strip as its middle, so Strip removes exactly the outer white space |
| Text.StripAllSpace | framework.py:107 | A string of white space only strips to the empty string |
| Text.PaddedInfix | framework.py:107 | An unpadded infix with white space on both sides starts at the first and ends at the last non-blank character |
| Text.InfixAt | framework.py:107 | An unpadded infix with only white space around it can sit in one place only: from the first to the last non-blank character |
| Text.PaddedByCons | framework.py:107 | Putting one more white-space character in front of a string keeps it white space, then the same middle, then white space |
| Text.StripUnchanged | framework.py:107 | Stripping a string that has no white space at either end returns it unchanged |
| Text.StripAll | framework.py:107 | `[s.strip() for s in pieces]`: one stripped piece per piece, in order |
| Text.StripAllAppend | framework.py:107 | Stripping every piece of a concatenation strips each part separately |
| Text.StripAllWithin | api/map.py:109 | The stripped pieces all lie in a set of names exactly when each piece, once stripped, lies in it |
| Text.Lower | api/map.py:112 | The result has the input's length; upper-case ASCII letters become lower case and every other character is kept |
| Text.LowerCharIs | api/map.py:112 | A character lower-cases to a given lower-case letter exactly when it is that letter or its upper-case form |
| Text.LowerEquals | api/map.py:112 | A string lower-cases to a lower-case word exactly when it has the word's length and each character is the word's letter in either case |
| Text.Split | framework.py:107 | `split` returns at least one piece, and no piece contains the separator |
| Text.SplitJoin | framework.py:107 | Joining the pieces of a split with the separator gives back the original string |
| Text.SplitTerminated | framework.py:118 | Splitting a run of `item;` texts, whose items have no `;`, gives the items followed by one empty piece |
| Text.IndexOf | framework.py:111 | `str.index`: the position of the first occurrence of the character, or no position exactly when the character is absent |
| Text.NatToString | framework.py:184 | `str()` of a natural number is a non-empty run of decimal digits |
| Text.IntToString | framework.py:184 | `str(i)` is non-empty and unpadded, begins with `-` exactly for negative numbers, and is otherwise decimal digits with no leading zero except for 0 itself |
| Text.ParseInt | framework.py:112-113 | For an ASCII `str`, `int(s)` succeeds only when every character is white space, a sign or a digit and some character is a digit; a plain run of digits reads as its decimal value |
| Text.ParseIntIff | framework.py:112-113 | For an ASCII `str`, `int(s)` gives `v` exactly when `s` is white space, an optional `-` or `+`, white space, at least one digit and white space, and `v` is the digits' decimal value with that sign |
| Text.ParseIntAccepts | framework.py:112-113 | Every such ASCII literal parses to its signed decimal value, white space between the sign and the digits included (`int('- 1') == -1`) |
| Text.ParseIntParts | framework.py:112-113 | A successful parse splits its argument into the five parts of such a literal |
| Text.ParseIntToString | framework.py:112-113 | `int(str(i)) == i` for every integer, negative numbers included |
| PyList.FirstWhere | api/units.py:153 | The first index whose element passes the test, with no earlier element passing; none exactly when no element passes |
| PyList.FirstWhereAgree | api/units.py:153 | Lists whose elements agree on the test have the same first match |
| PyList.Filter | myPlayerBrain.py:152-156 | A filtered list is no longer than the original |
| PyList.FilterMembers | myPlayerBrain.py:152-156 | An element is in the filtered list exactly when it is in the list and passes the test |
| PyList.FilterAppend | myPlayerBrain.py:156 | Filtering distributes over concatenation, so order is kept |
| GameMap.SumOfDistinctFlags | api/map.py:104-110 | For distinct stop-sign names, the sum of flag values equals the flag value of the set of names |
| GameMap.FlagsDetermineSides | api/map.py:39-40 | The flags are distinct powers of two: a stop-sign value is at most 15, and equal values mean the same set of sides |
| GameMap.SignalValue | api/map.py:111-112 | The signal is true exactly when the attribute is present and is `true` with each letter in either case |
| GameMap.SumFlags | api/map.py:108-110 | The reduce over stop-sign names succeeds exactly when every name is a flag |
| GameMap.StopSignsValue | api/map.py:104-110 | Without the attribute the value is 0 (NONE). With it, the value exists exactly when every comma-separated piece, stripped, names a flag |
| GameMap.IsDriveable | api/map.py:114-116 | A square is drivable exactly for the ROAD and BUS_STOP types, two of the four types that exist |
| GameMap.NewSquare | api/map.py:99-112 | A square is built exactly when the type is in TYPE and a drivable square has a valid direction and stop signs; it has road data exactly when it is drivable (ROAD or BUS_STOP), and that data is the direction, the stop-sign sum and the signal |
| GameMap.PyIndex | api/map.py:72 | Python list indexing: a valid index lies in [-n, n), and a negative index counts from the end |
| GameMap.BuildMap | api/map.py:65-75 | `Map.__init__` succeeds exactly when every tile element builds a square at an index Python accepts and every bus stop falls on a filled cell; the grid has width columns of height cells, and each cell holds the last tile written there, with the bus stop's company set |
| GameMap.PlaceTiles | api/map.py:68-72 | A width×height grid of None in which each cell holds the square of the last tile element naming it; a tile outside the grid is an error |
| GameMap.PlaceTileStep | api/map.py:72 | Writing one more tile keeps the grid equal to the "last tile naming the cell" view of the tiles written so far |
| GameMap.PlaceBusStops | api/map.py:73-74 | Each company's bus-stop square gets that company (the last one naming it wins); a bus stop on an empty or outside cell is an error |
| GameMap.SquareOrDefaultOnBuiltMap | api/map.py:65-83 | On a map BuildMap returned, `squareOrDefault` at a cell gives the square built from the last tile element naming the cell, marked with the last company whose bus stop is there |
| GameMap.SquareOrDefaultUnnamed | api/map.py:65-83 | On a map BuildMap returned, a cell on the grid that no tile element names holds no square |
| GameMap.LastSquareIsLastNaming | api/map.py:68-72 | The square placed at a cell is the one built from the last tile element naming it |
| GameMap.LastSquareUnnamed | api/map.py:68-72 | A cell no tile element names is left empty |
| GameMap.CompanyEqualsIsEquivalence | api/map.py:137-141 | Company equality is reflexive, symmetric and transitive, and ignores the bus stop and the waiting passengers |
| TcpClient.HexDigitsLength | tcpClient.py:48-49 | The hex text of n has at most k digits exactly when n < 16^k, so the 8-digit assertion holds exactly below 2^32 |
| TcpClient.ParseFormatHex | tcpClient.py:48 | Reading back a zero-padded hex text gives the number |
| TcpClient.FormatByte | tcpClient.py:110 | `"{:02x}"` of a byte is its high and low hex digit |
| TcpClient.EncodeHeader | tcpClient.py:46-52 | A header exists exactly for lengths below 2^32; it is 4 bytes and decodes back to the length |
| TcpClient.HeaderRoundTrip | tcpClient.py:110-112 | getData's decoding inverts sendMessage's encoding for every length |
| TcpClient.DecodeHeader | tcpClient.py:110-112 | The decoded length is the value of the four bytes read least significant first |
| TcpClient.DecodeLittleEndian | tcpClient.py:110-112 | Decoding the little-endian bytes of n gives n |
| TcpClient.HeaderInjective | tcpClient.py:110-112 | Two headers with the same decoded length are the same bytes |
| TcpClient.EncodeHeaderIsLittleEndian | tcpClient.py:46-52 | The hex, pair and reverse construction equals the length's bytes least significant first |
| TcpClient.RecvCount | tcpClient.py:106-108 | A `recv` returns at most the bytes asked for and available, and at least one when both are positive |
| TcpClient.GetData | tcpClient.py:103-127 | getData succeeds exactly when the stream holds a whole frame; it returns that frame's payload, having consumed 4 + length bytes, whatever the chunk sizes |
| TcpClient.RecvHeader | tcpClient.py:106-109 | The header loop ends with exactly the first 4 bytes of the stream, or fails when fewer exist |
| TcpClient.RecvPayload | tcpClient.py:115-127 | The payload loop ends with exactly the first `length` bytes, in order, or fails when fewer exist |
| TcpClient.RFind | tcpClient.py:93 | `rfind`: the index of the last occurrence of the byte, or -1 when it is absent |
| TcpClient.TrimFrame | tcpClient.py:93-95 | The trim succeeds exactly when a `>` occurs after index 0; the result is the prefix up to and including the last `>`, and no `>` follows it |
| TcpClient.TrimIdempotent | tcpClient.py:93-95 | Trimming a trimmed frame changes nothing |
| TcpClient.TrimStripsFiller | tcpClient.py:95 | A document ending in `>` followed by filler without `>` trims back to exactly the document |
| TcpClient.SendCount | tcpClient.py:55-60 | A `send` accepts at least one and at most all of the bytes offered |
| TcpClient.SendMessage | tcpClient.py:45-61 | sendMessage fails exactly for lengths of 2^32 or more; otherwise it writes what the header's one `send` accepted, then the whole payload in order |
| TcpClient.HeaderCutShort | tcpClient.py:55 | With a `send` that accepts one byte at a time, the bytes sendMessage writes are not the frame |
| TcpClient.SendFrame | tcpClient.py:45-61 | With the header sent by the resend loop as well, the bytes written are exactly header plus payload, for every send oracle |
| TcpClient.NextMessage | tcpClient.py:90-95 | One received and trimmed frame uses its 4 header bytes and its own text, no more than the stream holds; the text has at least two bytes and ends in `>` |
| TcpClient.MessagesStep | tcpClient.py:89-96 | The queued messages are this frame's trimmed text followed by the messages of the rest of the stream |
| TcpClient.Messages | tcpClient.py:84-97 | Every queued message ends in `>` and has at least two bytes, and each takes at least six bytes of the stream |
| TcpClient.ReadMessage | tcpClient.py:90-95 | One round of the receive loop reads the next message, or fails exactly when no more messages can be queued |
| TcpClient.Receiver.Run | tcpClient.py:84-97 | While running, the input queue gains exactly the trimmed messages of the stream, in order; a stopped receiver queues nothing |
| TcpClient.MessagesShift | tcpClient.py:89-97 | Taking one message off the unread stream and adding it to those read leaves the messages of the whole stream the same |
| TcpClient.Client.Close | tcpClient.py:69-71 | close clears both running flags and leaves the received queue unchanged |
| SimpleAStar.OffsetsAdjacent | simpleAStar.py:62-63 | The four offsets give four distinct tiles, each next to the current tile |
| SimpleAStar.NewTrailPoint | simpleAStar.py:162-165 | A fresh trail point has the tile, no neighbours and the given cost; its distance is the Manhattan distance to the end, and is zero exactly at the end |
| SimpleAStar.EstimateConsistent | simpleAStar.py:164 | The Manhattan estimates of two adjacent tiles differ by exactly one |
| SimpleAStar.MinDistance | simpleAStar.py:179 | `min(neighbors, key=distance).distance`: attained by some neighbour, no larger than any |
| SimpleAStar.Except | simpleAStar.py:194 | The neighbours kept are exactly those not on the caller's tile |
| SimpleAStar.PushDistance | simpleAStar.py:195-196 | Telling the neighbours changes only distances, and never touches a point without neighbours |
| SimpleAStar.RecalculateDistance | simpleAStar.py:167-202 | No neighbours or an unchanged value leaves every point as it was. A changed value past the step budget is stored without propagation. Otherwise, after propagation, the point's distance is the stepped-up minimum of its neighbours. The recursion terminates because the budget decreases |
| SimpleAStar.Propagate | simpleAStar.py:192-202 | After telling the other neighbours, the final recompute sets the distance to the stepped-up neighbour minimum, without the one-neighbour rule |
| SimpleAStar.WithDistance | simpleAStar.py:188 | Only the point's distance changes |
| SimpleAStar.RemoveTile | simpleAStar.py:78-81 | `notEvaluated.remove` of the first entry whose tile matches (TrailPoint equality is tile equality); the list is unchanged when none matches |
| SimpleAStar.RemoveTileKeeps | simpleAStar.py:80-81 | After the removal no frontier entry has that tile, and every entry left was there before |
| SimpleAStar.FirstMinimum | simpleAStar.py:116-119 | The chosen frontier entry has the minimum distance and is the first entry that does |
| SimpleAStar.MinCostAt | simpleAStar.py:138 | `min(neighbors, key=cost)`: a neighbour of minimum cost, the first such |
| SimpleAStar.Reconstruct | simpleAStar.py:131-147 | Without `end` in nodes the lookup fails. Otherwise the path ends at `end`, consecutive tiles are adjacent, each earlier tile is a neighbour of strictly smaller cost, and a path not starting at `start` stopped where the cheapest neighbour failed to decrease the cost |
| SimpleAStar.WalkBackStep | simpleAStar.py:140-145 | Prepending a cheaper neighbour keeps the walked-back path well formed |
| SimpleAStar.VisitNeighbour | simpleAStar.py:63-102 | An undrivable or off-map neighbour changes nothing. A drivable one is appended to tpOn's neighbours and is afterwards registered, queued or tpClosest. A known tile leaves the frontier and tpClosest as they were. No tile queued or chosen before is lost. The search invariants and the tpClosest candidate property are kept |
| SimpleAStar.LinkWalked | simpleAStar.py:69-73 | A registered neighbour's cost becomes min(old, tpOn.cost+1), so it never grows; it is appended to tpOn's neighbours and nothing else changes |
| SimpleAStar.Relink | simpleAStar.py:69-73 | Linking a registered neighbour keeps the search invariants and the tpClosest candidate, adds exactly that tile to tpOn's neighbours, and leaves every tile, the frontier and the known tiles as they were |
| SimpleAStar.AddNeighbour | simpleAStar.py:75-102 | A new neighbour is created with cost tpOn.cost+1 and appended. An equal-tile entry first leaves notEvaluated. The neighbour becomes tpClosest only when strictly closer than tpOn and none was chosen; otherwise it joins notEvaluated. Every tile queued or chosen before, and the new one, is still queued or chosen |
| SimpleAStar.AttachNew | simpleAStar.py:76-77 | The new trail point is appended to the arena and to tpOn's neighbours; all other points are unchanged |
| SimpleAStar.Enqueue | simpleAStar.py:78-102 | The frontier loses any equal-tile entry, then gains the neighbour unless it becomes tpClosest; the displacing branch is never taken |
| SimpleAStar.NeighbourNeverDisplacesClosest | simpleAStar.py:99-102 | A tpClosest is exactly one closer than tpOn, and no other neighbour can be closer still, so the replacement at lines 99-102 cannot happen |
| SimpleAStar.DriveableSteps | simpleAStar.py:62-67 | The tiles examined are drivable and next to the current tile |
| SimpleAStar.ExpandNeighbours | simpleAStar.py:60-102 | After the offset loop, tpOn's neighbours are exactly the drivable tiles among the four offsets, in offset order. Every drivable tile next to tpOn is registered, queued or tpClosest, and no queued tile is lost. The search invariants hold, and any tpClosest is a strictly closer candidate |
| SimpleAStar.ExpandOne | simpleAStar.py:62-102 | One offset keeps the offset loop's invariant and advances it by one offset |
| SimpleAStar.ExpandedStep | simpleAStar.py:62-102 | What visiting one offset promises moves the offset loop's invariant from that offset to the next |
| SimpleAStar.VisitedStep | simpleAStar.py:62-102 | The same step for tpOn's neighbours, the closest candidate and the tiles known, apart from the search state |
| SimpleAStar.RegisterKeeps | simpleAStar.py:58 | Registering tpOn in nodes keeps the search invariants |
| SimpleAStar.RecalculateKeeps | simpleAStar.py:104 | Recalculating distances keeps the search invariants and the tpClosest candidate |
| SimpleAStar.Walk | simpleAStar.py:58-104 | One round registers tpOn, expands its neighbours and recalculates its distance, keeping the search invariants. Every drivable tile next to tpOn ends up registered, queued or tpClosest, and every new point is next to tpOn |
| SimpleAStar.Choose | simpleAStar.py:106-126 | tpClosest is kept if chosen. Otherwise an empty notEvaluated ends the search. Otherwise the first minimum-distance entry is taken and removed. The next point is new, or is the end reached from tpOn. Every tile queued or chosen before is still queued or is the next point |
| SimpleAStar.Search | simpleAStar.py:52-129 | The main loop terminates, because each round registers a tile of the finite drivable set. It leaves a linked arena whose nodes are registered at their own tiles, with the start registered. The end is registered exactly when the search arrived. Arrival means a route from the start reaches the end. Otherwise notEvaluated emptied, and every drivable tile next to a registered tile is registered |
| SimpleAStar.Round | simpleAStar.py:58-120 | One round of the loop registers tpOn. The registered tiles stay closed under one drivable step, up to the tiles still queued and the next point. With no next point they are closed outright. Every point made can be reached from the start |
| SimpleAStar.ReachesGrown | simpleAStar.py:76-77 | The points added next to a reachable tile are reachable from the start, and so are the points already there |
| SimpleAStar.AdjacentIsStep | simpleAStar.py:62-63 | Every tile next to a tile is one of its four offsets |
| SimpleAStar.KnownSameTiles | simpleAStar.py:78-81 | The tiles queued or chosen depend only on the tiles of the points, not on their costs, distances or neighbours |
| SimpleAStar.RemoveTileTiles | simpleAStar.py:80-81 | Removing the entry at a tile loses no other queued tile |
| SimpleAStar.EnqueueKnown | simpleAStar.py:76-102 | After a new point replaces a queued one at its tile and is queued or chosen, every tile known before, and the new one, is still queued or chosen |
| SimpleAStar.RoundCloses | simpleAStar.py:58-120 | Registering tpOn keeps the registered tiles closed under one drivable step, up to what the search knows of |
| SimpleAStar.ReachesNext | simpleAStar.py:63-77 | A route to a tile extends to any drivable tile next to it |
| SimpleAStar.RouteStaysInside | simpleAStar.py:111-113 | A route starting in a set of tiles closed under one drivable step stays in it |
| SimpleAStar.NoRouteWhenClosed | simpleAStar.py:111-113 | When the search is exhausted with the start registered and the end not, no route leads from the start to the end |
| SimpleAStar.Arrive | simpleAStar.py:123-126 | Linking the end point back to tpOn and registering it keeps the arena linked and registered |
| SimpleAStar.CalculatePath | simpleAStar.py:30-147 | start == end gives [start]. Any path returned ends at end, moves between adjacent tiles, and visits only the start or drivable tiles. The `nodes[end]` KeyError (NoRoute) happens exactly when start and end differ and no route of drivable tiles joins them |
| Framework.NonEmptyStripped | framework.py:107 | The kept items are stripped and non-empty, and there are no more of them than pieces |
| Framework.NonEmptyStrippedIsComprehension | framework.py:107 | The kept items are exactly the stripped pieces that are not blank, in order |
| Framework.ParseStep | framework.py:111-113 | An item without `,` is a bad step. Otherwise the item parses exactly when the texts before and after its first `,` both parse as integers, and the tile is those two integers |
| Framework.ParseSteps | framework.py:110-113 | No more steps than items; the parse has no error exactly when every item parsed |
| Framework.ParseStepsStops | framework.py:110-113 | The steps parsed are those before the first failing item, and that item's error is reported |
| Framework.ParseStepsKept | framework.py:110-113 | Each step kept is what its item, at the same position, parses to |
| Framework.ParseStepsError | framework.py:110-113 | A reported error belongs to the item just after the steps kept |
| Framework.ParseStepsCons | framework.py:110-113 | A first item that parses puts its step in front of the steps and error of the rest |
| Framework.ParseStepsAll | framework.py:110-113 | Items that each parse to a step read back as exactly those steps, with no error |
| Framework.ParseStepText | framework.py:111-113 | Parsing a written step `x,y` gives back the tile (x, y), negative coordinates included |
| Framework.StepTextComma | framework.py:111 | In a step written as `x,y` the first `,` is the one right after `x`, with `x` before it and `y` after it |
| Framework.StepTextShape | framework.py:184 | A written step contains no `;` and has no white space at either end |
| Framework.PathText | framework.py:184-186 | The path text, split at `;`, gives the step texts, one per step in order, and one empty piece after the last `;` |
| Framework.StepTextsShape | framework.py:184 | Every step text is non-empty, contains no `;` and has no white space at either end |
| Framework.NonEmptyStrippedKeeps | framework.py:107 | Already-stripped non-empty items followed by the trailing empty piece filter back to the items |
| Framework.ParseStepSpacedSign | framework.py:111-113 | The path item `- 1,2` is the step (-1, 2) |
| Framework.ParseStepTexts | framework.py:110-113 | Parsing the written steps of a path gives the path with no error |
| Framework.PathRoundTrip | framework.py:106-113 | A path written by sendOrders and read back by incomingMessage is the same path |
| Framework.PickupText | framework.py:190-192 | The pick-up text exists exactly when every listed passenger has a name; otherwise the error names an unnamed listed passenger |
| Framework.NonEmptyThenStripped | framework.py:118-119 | No more names than pieces |
| Framework.NonEmptyThenStrippedIsComprehension | framework.py:118-119 | The names are exactly the non-empty pieces, each stripped, in order; blank pieces that are not empty are kept as empty names |
| Framework.PickupFrom | framework.py:120 | The passengers picked are exactly those whose name is in the list, in roster order, each once |
| Framework.PickupTextTerminated | framework.py:190-192 | The pick-up text is the names, each followed by `;` |
| Framework.NonEmptyThenStrippedKeeps | framework.py:118-119 | Plain names followed by the trailing empty piece filter back to the names |
| Framework.PickupNamesBack | framework.py:115-120 | The names read back from a pick-up text of plain names are the names written |
| Framework.PickupRoundTrip | framework.py:115-120 | With distinct plain names, the passengers read back from a pick-up text are exactly those sent, in roster order |
| Framework.ReplacePath | framework.py:106-113 | The limo's path becomes the steps parsed before the first bad item, and that item's error is returned; no other player or field changes |
| Framework.ReplacePickup | framework.py:115-120 | The player's pick-up list becomes the named passengers in roster order; nothing else changes |
| Framework.ApplyStatusOrders | framework.py:104-120 | A path element replaces the status player's limo path with the steps parsed before the first bad item. A pick-up element replaces its pick-up list with the named passengers, unless a path item failed. No other player or passenger changes. An error is reported exactly when a path item fails, and it is that item's error |
| Framework.SetPickup | framework.py:120 | Only the player's pick-up list changes, and the roster stays consistent |
| Framework.SetPath | framework.py:109 | Only the player's limo path changes, and the roster stays consistent |
| Framework.HandleStatus | framework.py:80-123 | Without a guid nothing changes (KnowsGuid). A missing status or player-guid attribute is an error and changes nothing. Otherwise the players become the result of the player update; an error there stops the handling. The passengers then become the result of the passenger update; an error there stops it. An unknown status guid is an error. The status player's path and pick-up list become the ones parsed from the message, the pick-up only when the path did not fail. The message is handed to the AI with its status and that player unless a path item failed, whose error is reported |
| Framework.PlayerWithGuidKeeps | framework.py:102-103 | Changing a player's limo or pick-up list does not change which player a guid finds |
| Framework.SendOrders | framework.py:179-194 | A non-empty path is stored in the limo and sent as its `x,y;` text. A non-empty pick-up list is stored and sent as its `name;` text. Empty lists send no element and leave the saved values alone. The call fails exactly when a pick-up name fails, with PickupText's error, after both lists are stored |
| Framework.UpdateTwice | framework.py:182-189 | Storing the path and then the pick-up list changes only the one player, as a single update holding both |
| Framework.TotalDelayClosedForm | framework.py:152-166 | n failed attempts wait n(n+1)/2 half seconds in total |
| Framework.Reconnect | framework.py:148-166 | Attempts run until the first in which both the TcpClient constructor and the join succeed. Failure k waits k half seconds. An attempt closes a client only when one exists: the first client, or one whose constructor succeeded in an earlier attempt |
| Framework.ClientBefore | framework.py:155-157 | A client exists when attempt j starts exactly when there was one at the outset or an earlier constructor succeeded |
| Framework.Closes | framework.py:155-156 | The attempts close a client at most once each |
| Framework.ClosesWithClient | framework.py:155-157 | With a client at the outset, every attempt closes one |
| Framework.ClosesWithoutClient | framework.py:155-157 | Without a client at the outset, no attempt up to the first successful constructor closes one, and every later attempt does |
| Framework.ReconnectWaits | framework.py:152-166 | The sleeps of the reconnect loop add up to failures·(failures+1)/2 half seconds |
| Units.RemoveFromRoute | api/units.py:197-199 | `route.remove`: without a match the route is unchanged; otherwise exactly the first company of that name is removed and the rest keep their order |
| Units.CompanyNamed | api/units.py:196 | The first company with that name; none exactly when no company has it |
| Units.PlayerWithGuid | api/units.py:153 | The first player with that guid; none exactly when no player has it |
| Units.PassengerNamed | api/units.py:162 | The first passenger with that name; none exactly when no passenger has it |
| Units.RecordDelivery | api/units.py:167-172 | An error or no last-delivered attribute leaves the players unchanged. Otherwise the player's deliveries gain the named passenger exactly when it is absent, so no duplicate appears. Nothing else of that player changes, and every other player is unchanged. An unknown name is an error |
| Units.PlayerStep | api/units.py:152-172 | An unknown guid is an error. The limo gets the new position and angle. A named passenger is linked both ways; none clears the limo's passenger. The guid, name and pick-up list stay. The deliveries are unchanged on an error, and on success are exactly the old ones plus the last-delivered passenger when it was absent. Every other player is unchanged |
| Units.PlayersAfter | api/units.py:150-172 | The update loop keeps roster sizes and duplicate-free delivery lists |
| Units.RecordDeliveryConsistent | api/units.py:167-172 | Recording a delivery keeps every reference of the roster valid |
| Units.PlayerStepConsistent | api/units.py:152-172 | One player update keeps every reference of the roster valid |
| Units.PassengerStep | api/units.py:193-214 | A destination is set and its first occurrence removed from the route; without one the destination stays, unless the status is done. lobby sets the lobby and clears car; travelling clears lobby and keeps car; done clears destination, lobby and car. An unknown status is an error after the destination was set. An unknown destination or lobby name is an error, leaving the state it had reached. Other passengers are untouched |
| Units.PassengersAfter | api/units.py:189-214 | The update loop keeps every passenger's name and enemies |
| Units.PassengerStepConsistent | api/units.py:193-214 | One passenger update keeps every reference of the roster valid |
| Units.LobbyMembersAre | api/units.py:183-186 | A company's new waiting passengers are exactly those whose lobby is that company |
| Units.LobbyMembersOrdered | api/units.py:183-186 | They are appended in roster order, each once |
| Units.LookupsUseCompanyEquals | api/units.py:183-185 | The route lookup and the lobby lookup find the first company equal by Company.__eq__, that is, with the same name |
| Units.Registered | api/units.py:183-186 | Each company's waiting list gains exactly its lobby passengers, in roster order; names are kept |
| Units.RegisteredStep | api/units.py:183-186 | One passenger with a lobby is appended to that company's list only; one without changes nothing |
| Units.JoinKeepsConsistent | api/units.py:186 | Appending a passenger to a company's waiting list keeps the references valid |
| Units.GameState.UpdatePlayer | api/units.py:152-172 | The rosters become exactly the result of the player step, and stay consistent |
| Units.GameState.RecordDelivered | api/units.py:167-172 | The players become exactly the result of recording the delivery |
| Units.GameState.UpdatePlayers | api/units.py:150-172 | The rosters become exactly the result of the whole player update loop, and stay consistent |
| Units.GameState.UpdatePassenger | api/units.py:193-214 | The passengers become exactly the result of the passenger step, and stay consistent |
| Units.GameState.UpdatePassengers | api/units.py:189-214 | The passengers become exactly the result of the whole passenger update loop, and stay consistent |
| Units.GameState.RegisterLobbies | api/units.py:182-186 | The companies' waiting lists gain their lobby passengers in roster order |
| PlayerBrain.CalculatePathPlus1 | myPlayerBrain.py:131-137 | A one-tile path is [dest]. A longer path ends with dest and then the tile before it again, so it has at least three tiles. Each tile is next to the one before it |
| PlayerBrain.CandidatesAre | myPlayerBrain.py:152-155 | The candidates are exactly the eligible passengers (not delivered, not in my limo, in no car, with lobby and destination), in roster order |
| PlayerBrain.ChosenAre | myPlayerBrain.py:156-158 | The enemy filter keeps the candidates with no enemy waiting at their destination, unless that leaves none, in which case all candidates stay |
| PlayerBrain.InsertPermutes | myPlayerBrain.py:165 | Inserting an entry adds exactly that entry |
| PlayerBrain.InsertSorted | myPlayerBrain.py:165 | Inserting into a best-first list keeps it best first |
| PlayerBrain.InsertStable | myPlayerBrain.py:165 | Inserting puts the entry ahead of the entries with its key |
| PlayerBrain.SortDescendingCorrect | myPlayerBrain.py:164-166 | `sorted(..., reverse=True)` is a permutation in non-increasing key order, and entries with equal keys keep their order |
| PlayerBrain.AllPickupsCorrect | myPlayerBrain.py:144-168 | allPickups returns exactly the chosen passengers, each once, best key first, with ties in roster order |
| PlayerBrain.AllPickupsInRange | myPlayerBrain.py:152-155 | Every pick-up is eligible, and its lobby and destination are companies that exist |
| PlayerBrain.FirstLobbyStop | myPlayerBrain.py:104-111 | An IndexError exactly when there is no pick-up. Otherwise the whole pick-up list, whose first entry is eligible, and the bus stop of that passenger's lobby |
| PlayerBrain.PassengerStop | myPlayerBrain.py:107-118 | An empty limo or a passenger without destination is an error. Otherwise the carried passenger's destination bus stop |
| PlayerBrain.DispatchStatuses | myPlayerBrain.py:94-120 | Another player's status, or UPDATE, does nothing. A status is rejected exactly when it is not one the server sends. An empty pick-up list is the only cause of NoPickup |
| PlayerBrain.DispatchPlan | myPlayerBrain.py:97-120 | Every destination chosen is a company's bus stop, and any pick-up list sent is allPickups |
| PlayerBrain.DispatchToLobby | myPlayerBrain.py:101-114 | After a delivery, an abandonment or a refusal, or with no action and an empty limo, the destination is the first pick-up's lobby bus stop; an empty list is an error |
| PlayerBrain.DispatchToDestination | myPlayerBrain.py:101-118 | After a pick-up, or with no action and a passenger aboard, the destination is that passenger's destination bus stop; pick-ups are sent only after a pick-up |
| PlayerBrain.NoActionRaisesAsWritten | myPlayerBrain.py:101-102 | As written, NO_ACTION and NO_PATH about this player raise NameError; the corrected dispatch does not |
| PlayerBrain.RefusedRaisesAsWritten | myPlayerBrain.py:112-114 | As written, REFUSED with pick-ups fails in the path search; the corrected dispatch drives to the lobby's bus stop |
| PlayerBrain.AsWrittenElsewhereAgrees | myPlayerBrain.py:94-120 | For every other case the code as written and the corrected dispatch agree |
| PlayerBrain.Drive | myPlayerBrain.py:122-125 | Drove: a failed path search is an error and changes nothing. Otherwise only my player changes. Its limo path becomes a path that moves one tile at a time, reaches the destination and steps back, and its pick-up list becomes the plan's when that is not empty. If a pick-up passenger has no name, the error is PickupText's, and both lists are stored all the same. Otherwise the order is exactly the path text and the pick-up names |
| PlayerBrain.GameStatus | myPlayerBrain.py:70-129 | A failing or empty dispatch changes nothing and sends nothing. Otherwise everything Drove states holds for the dispatched plan and a `move` order: a failed path search changes nothing; the path to the dispatched destination and the dispatched pick-up list are stored, even when a pick-up name fails; the order carries exactly that path's text and the pick-up names |
| PlayerBrain.Setup | myPlayerBrain.py:45-68 | An empty first pick-up list is an error and changes nothing. Otherwise its first passenger is eligible and has a lobby, and everything Drove states holds for a `ready` order to that lobby's bus stop with the whole list: the path and the list are stored, and the order carries the path text and the pick-up names |

## Left out

- Sockets, threads and their loops are not modelled:
  - socket creation, connect and close;
  - the `TcpClient.run` poll loop;
  - the `Receiver` thread as a thread;
  - the errno 10054 and timeout handlers, including the retry of sendMessage on timeout.
  - `recv` and `send` are chunk-size oracles. A `recv` on a closed peer, which returns nothing and makes the source loop forever, ends the read with an error.
- The try-lock in `incomingMessage` and the dropping of a status message when the lock is busy are left out, because they concern concurrency.
- `time.clock` turn timing and `time.sleep` are left out. The reconnect delays are kept as integer half seconds.
- Framework.Reconnect: requires that some attempt succeeds, because the source loops forever otherwise.
- XML parsing, `ET.tostring`, the join message and the avatar file and its base64 text are not modelled. Elements are records of their attributes.
- The `setup` branch of `incomingMessage` is not modelled. This covers `playersFromXml`, `companiesFromXml`, the `Passenger` constructor, the assignment of enemies, `Map` construction from XML, and the `my-guid` lookup. Lobby registration (lines 183-186) is modelled.
- The `exit` branch and the unknown-root branch of `incomingMessage` are not modelled.
- Text.ParseInt: covers Python 2 `str` (ASCII) text only. ElementTree returns `unicode` for attribute values and element text that are not pure ASCII, and on `unicode` `int()` also accepts Unicode decimal digits and white space (`int(u'\u0661') == 1`). Text.ParseIntIff and Text.ParseIntAccepts characterise the ASCII literals only.
- Text.Strip: white space is the six ASCII white-space characters of `str.strip()`. On `unicode`, `strip()` also removes characters such as U+3000, U+0085 and U+001C to U+001F.
- Text.Lower: lower-cases ASCII letters only, as `str.lower()` does. On `unicode`, `lower()` also folds non-ASCII letters.
- Floating-point values are not modelled:
  - The player's `score` is left out.
  - The ranking key (`100*pointsDelivered/distance`, two path searches per passenger) is an abstract integer key. A path search failing inside the key is not modelled.
- Player.__eq__ is modelled only as the NameError it raises (finding 1). `!=` on players compares identities (indices), because the class defines no `__ne__`.
- Framework.HandleStatus: the `player-guid` fallback at line 89 is not modelled, because `xml.attrib[...]` has already raised KeyError for a missing attribute and the fallback can never be used.
- Framework.ReplacePath: the parsed steps are gathered and stored once, instead of appended one at a time to the cleared list. The limo path is the same either way.
- Framework.ReplacePath: gives each limo a path list of its own. In the source every `Limo` built without a path shares the one default `path=[]` list (api/units.py:82, 95), and `del playerStatus.limo.path[:]` with the appends after it (framework.py:109-113) change that shared list, so the other limos still holding it see the new path too. The model's values do not alias.
- Framework.ApplyStatusOrders: for the same reason, it leaves the other players' limo paths unchanged, where the shared default list would change with the status player's path.
- Framework.HandleStatus: for the same reason, its "no other player changes" does not hold in the source for limos that still share the default path list.
- Units.RecordDelivery: gives each player a delivered list of its own. In the source every player built by `playersFromXml` (api/units.py:148) shares the one default `passes=[]` list (api/units.py:35, 58-59), so the append at api/units.py:172 shows in every player's list. The model's values do not alias.
- Units.PlayerStep: for the same reason, it leaves the delivered lists of the other players unchanged, where the source's shared default list would change with the update.
- SimpleAStar.CalculatePath: makes no claim that the path is shortest or that it starts at `start`, because the source disclaims both. What is proved is that the search terminates, that its path is a connected walk ending at `end`, and that it fails to find `end` exactly when no route exists.
- `easierForYou` and `sortPickUps` are not modelled, because no code path uses them.
- `debug.py`, the `__repr__`, `__str__` and `__hash__` methods, and the console printing are left out.
- The instance-field assignments of `setup` (game map, players, client) are not modelled. The model passes these values as parameters.

## Findings

| source | as written | input that shows it | evidently intended | confidence | as-written member | corrected member |
|---|---|---|---|---|---|---|
| myPlayerBrain.py:101-102 | The NO_ACTION/NO_PATH branch evaluates `playerStatus == self.me`, which calls `Player.__eq__`; that method calls the undefined `instanceof` (api/units.py:72), so NameError is raised | A `PASSENGER_NO_ACTION` or `NO_PATH` status about this player | Drive to the first pick-up's lobby, or to the carried passenger's destination | high; not executed | PlayerBrain.NoActionRaisesAsWritten | PlayerBrain.DispatchToLobby |
| myPlayerBrain.py:112-114 | `ptDest = pickup[0].lobby` hands a Company to the path search, which subscripts it as a tile (simpleAStar.py:164) and raises TypeError | A `PASSENGER_REFUSED` status about this player while some passenger is eligible | `pickup[0].lobby.busStop`, as in the other branches | high; not executed | PlayerBrain.RefusedRaisesAsWritten | PlayerBrain.DispatchToLobby |
| tcpClient.py:55 | The header is sent by one `send` whose count is ignored, while the payload is resent until complete | A `send` that accepts one byte per call | Resend the header until all four bytes are out, as for the payload | medium; not executed | TcpClient.HeaderCutShort | TcpClient.SendFrame |

=== FILE: framework.dfy ===
/**
 * The framework between the server and the AI (framework.py): the text of the path and pick-up
 * lists in orders and status messages, the handling of a status message, the orders sent back,
 * and the delay schedule of reconnection. XML elements are records of their decoded attributes,
 * and delays are counted in half seconds.
 */
module Framework {
  import opened Wrappers
  import opened PyList
  import opened Text
  import opened GameMap
  import opened Units

  /** The exceptions a status message or an order can raise inside the framework's own code. */
  datatype FrameworkError =
    | MissingAttribute(attribute: string)     // xml.attrib[...] raises KeyError
    | NoSuchStatusPlayer(guid: string)        // the [0] of an empty player list raises IndexError
    | BadStep(item: string)                   // str.index or int() raises ValueError
    | UnnamedPassenger(passenger: nat)        // None + ';' raises TypeError
    | Update(error: UpdateError)              // raised by the roster updates

  // ---------------------------------------------------------------- the path text

  /** One step of a path as sendOrders writes it, without its terminating ';'. */
  function StepText(t: Tile): string {
    IntToString(t.0) + "," + IntToString(t.1)
  }

  function StepTexts(path: seq<Tile>): (r: seq<string>)
    ensures |r| == |path| && forall i :: 0 <= i < |path| ==> r[i] == StepText(path[i])
  {
    seq(|path|, i requires 0 <= i < |path| => StepText(path[i]))
  }

  /**
   * Lines 184-186: the text of a path element, `x,y;` per step; split at its ';'s it gives the
   * step texts and one empty piece after the last ';'.
   */
  function PathText(path: seq<Tile>): (r: string)
    ensures Split(r, ';') == StepTexts(path) + [""]
  {
    StepTextsShape(path);
    SplitTerminated(StepTexts(path), ';');
    Terminated(StepTexts(path), ';')
  }

  lemma StepTextsShape(path: seq<Tile>)
    ensures forall i :: 0 <= i < |path| ==>
      var item := StepTexts(path)[i]; ';' !in item && item != [] && Unpadded(item)
  {
    forall i | 0 <= i < |path| ensures var item := StepTexts(path)[i]; ';' !in item && item != [] && Unpadded(item) {
      StepTextShape(path[i]);
    }
  }

  /** Line 107: the stripped pieces between the ';'s that are not empty once stripped, in order. */
  function NonEmptyStripped(pieces: seq<string>): (r: seq<string>)
    ensures |r| <= |pieces|
    ensures forall i :: 0 <= i < |r| ==> r[i] != [] && Unpadded(r[i])
  {
    if pieces == [] then []
    else
      var s, rest := Strip(pieces[0]), NonEmptyStripped(pieces[1..]);
      if s == [] then rest
      else
        assert forall i :: 1 <= i <= |rest| ==> ([s] + rest)[i] == rest[i - 1];
        [s] + rest
  }

  /** NonEmptyStripped is the comprehension `[x.strip() for x in pieces if len(x.strip()) > 0]`. */
  lemma {:induction false} NonEmptyStrippedIsComprehension(pieces: seq<string>)
    ensures NonEmptyStripped(pieces) == StripAll(Filter(pieces, (x: string) => Strip(x) != []))
  {
    if pieces != [] {
      var f := (x: string) => Strip(x) != [];
      var head := if f(pieces[0]) then [pieces[0]] else [];
      assert Filter(pieces, f) == head + Filter(pieces[1..], f);
      StripAllAppend(head, Filter(pieces[1..], f));
      NonEmptyStrippedIsComprehension(pieces[1..]);
    }
  }

  function PathItems(text: string): seq<string> {
    NonEmptyStripped(Split(text, ';'))
  }

  /**
   * Lines 111-113: an item `x,y` split at its first ',' into two integers; a missing ',' or a
   * part `int()` refuses is a ValueError.
   */
  function ParseStep(item: string): (r: Result<Tile, FrameworkError>)
    ensures ',' !in item ==> r == Failure(BadStep(item))
    ensures forall pos: nat :: FirstComma(item, pos) ==>
      var x, y := ParseInt(item[..pos]), ParseInt(item[pos + 1..]);
      r == if x.Some? && y.Some? then Success((x.value, y.value)) else Failure(BadStep(item))
  {
    match IndexOf(item, ',')
    case None => Failure(BadStep(item))
    case Some(pos) =>
      match (ParseInt(item[..pos]), ParseInt(item[pos + 1..]))
      case (Some(x), Some(y)) => Success((x, y))
      case _ => Failure(BadStep(item))
  }

  /** White space may stand between a coordinate's sign and its digits, as `int()` allows. */
  lemma ParseStepSpacedSign()
    ensures ParseStep("- 1,2") == Success((-1, 2))
  {
    var item := "- 1,2";
    assert FirstComma(item, 3);
    assert item[..3] == "" + "-" + " " + "1" + "" by {
      assert item[..3] == ['-', ' ', '1'];
    }
    assert item[4..] == "" + "" + "" + "2" + "" by {
      assert item[4..] == ['2'];
    }
    ParseIntAccepts("", "-", " ", "1", "");
    ParseIntAccepts("", "", "", "2", "");
    assert Horner(0, "1") == 1 && Horner(0, "2") == 2;
  }

  /** `pos` is where the first ',' of `item` is. */
  predicate FirstComma(item: string, pos: nat) {
    pos < |item| && item[pos] == ',' && forall k :: 0 <= k < pos ==> item[k] != ','
  }

  /** The steps parsed before the first item that fails, and that item's error. */
  datatype PathParse = PathParse(steps: seq<Tile>, error: Option<FrameworkError>)

  /** Lines 110-113: parse the items in order, stopping at the first that raises. */
  function ParseSteps(items: seq<string>): (r: PathParse)
    ensures |r.steps| <= |items|
    ensures r.error.None? <==> |r.steps| == |items|
  {
    if items == [] then PathParse([], None)
    else match ParseStep(items[0])
      case Failure(e) => PathParse([], Some(e))
      case Success(t) =>
        var rest := ParseSteps(items[1..]);
        PathParse([t] + rest.steps, rest.error)
  }

  /** The parse keeps every step before the first failing item, and reports that item's error. */
  lemma ParseStepsStops(items: seq<string>)
    ensures var r := ParseSteps(items);
      && (forall i :: 0 <= i < |r.steps| ==> ParseStep(items[i]) == Success(r.steps[i]))
      && (r.error.Some? ==> |r.steps| < |items| && ParseStep(items[|r.steps|]) == Failure(r.error.value))
  {
    ParseStepsKept(items);
    ParseStepsError(items);
  }

  /** Each parsed step is what its item parses to. */
  lemma {:induction false} ParseStepsKept(items: seq<string>)
    ensures var r := ParseSteps(items);
      forall i :: 0 <= i < |r.steps| ==> ParseStep(items[i]) == Success(r.steps[i])
  {
    if items != [] && ParseStep(items[0]).Success? {
      var rest := ParseSteps(items[1..]);
      ParseStepsKept(items[1..]);
      ParseStepsCons(items, ParseStep(items[0]).value);
      var r := ParseSteps(items);
      forall i | 1 <= i < |r.steps| ensures ParseStep(items[i]) == Success(r.steps[i]) {
        assert items[i] == items[1..][i - 1] && r.steps[i] == rest.steps[i - 1];
      }
    }
  }

  /** A reported error is the error of the item just after the parsed steps. */
  lemma {:induction false} ParseStepsError(items: seq<string>)
    ensures var r := ParseSteps(items);
      r.error.Some? ==> |r.steps| < |items| && ParseStep(items[|r.steps|]) == Failure(r.error.value)
  {
    if items != [] && ParseStep(items[0]).Success? {
      var rest := ParseSteps(items[1..]);
      ParseStepsError(items[1..]);
      ParseStepsCons(items, ParseStep(items[0]).value);
      if rest.error.Some? {
        assert items[1 + |rest.steps|] == items[1..][|rest.steps|];
      }
    }
  }

  lemma IntToStringShape(i: int)
    ensures IntToString(i) != [] && !IsSpace(IntToString(i)[0]) && !IsSpace(IntToString(i)[|IntToString(i)| - 1])
    ensures forall k :: 0 <= k < |IntToString(i)| ==> IntToString(i)[k] == '-' || IsDigit(IntToString(i)[k])
  {
    if i < 0 {
      var d := NatToString(-i);
      assert IntToString(i) == "-" + d;
      assert forall k :: 1 <= k < |IntToString(i)| ==> IntToString(i)[k] == d[k - 1];
    }
  }

  /** Reading a step back gives the tile that was written. */
  lemma ParseStepText(t: Tile)
    ensures ParseStep(StepText(t)) == Success(t)
  {
    StepTextComma(t);
    ParseIntToString(t.0);
    ParseIntToString(t.1);
  }

  /** The first ',' of a written step is the one after the first coordinate. */
  lemma StepTextComma(t: Tile)
    ensures FirstComma(StepText(t), |IntToString(t.0)|)
    ensures StepText(t)[..|IntToString(t.0)|] == IntToString(t.0)
    ensures StepText(t)[|IntToString(t.0)| + 1..] == IntToString(t.1)
  {
    var a, s := IntToString(t.0), StepText(t);
    IntToStringShape(t.0);
    forall k | 0 <= k < |a| ensures s[k] != ',' {
      assert s[k] == a[k];
    }
    assert s[..|a|] == a;
  }

  lemma {:induction false} NonEmptyStrippedKeeps(items: seq<string>)
    requires forall i :: 0 <= i < |items| ==> items[i] != [] && Unpadded(items[i])
    ensures NonEmptyStripped(items + [""]) == items
  {
    if items != [] {
      StripUnchanged(items[0]);
      assert (items + [""])[1..] == items[1..] + [""];
      NonEmptyStrippedKeeps(items[1..]);
    } else {
      assert NonEmptyStripped([""]) == [];
    }
  }

  /** A written step holds no ';' and neither starts nor ends with white space. */
  lemma StepTextShape(t: Tile)
    ensures ';' !in StepText(t)
    ensures StepText(t) != [] && !IsSpace(StepText(t)[0]) && !IsSpace(StepText(t)[|StepText(t)| - 1])
  {
    var a, b := IntToString(t.0), IntToString(t.1);
    IntToStringShape(t.0);
    IntToStringShape(t.1);
    var s := StepText(t);
    forall k | 0 <= k < |s| ensures s[k] != ';' {
      if k < |a| { assert s[k] == a[k]; }
      else if k > |a| { assert s[k] == b[k - |a| - 1]; }
    }
  }

  /** Parsing the written steps of a path, one by one, gives the path back. */
  lemma ParseStepTexts(path: seq<Tile>)
    ensures ParseSteps(StepTexts(path)) == PathParse(path, None)
  {
    var items := StepTexts(path);
    forall i | 0 <= i < |items| ensures ParseStep(items[i]) == Success(path[i]) {
      ParseStepText(path[i]);
    }
    ParseStepsAll(items, path);
  }

  /** Items that each parse to a step give exactly those steps and no error. */
  lemma {:induction false} ParseStepsAll(items: seq<string>, path: seq<Tile>)
    requires |items| == |path|
    requires forall i :: 0 <= i < |items| ==> ParseStep(items[i]) == Success(path[i])
    ensures ParseSteps(items) == PathParse(path, None)
  {
    if items != [] {
      forall i | 0 <= i < |items| - 1 ensures ParseStep(items[1..][i]) == Success(path[1..][i]) {
        assert items[1..][i] == items[i + 1];
      }
      ParseStepsAll(items[1..], path[1..]);
      ParseStepsCons(items, path[0]);
      assert [path[0]] + path[1..] == path;
    }
  }

  /** A first item that parses puts its step in front of the steps parsed from the rest. */
  lemma ParseStepsCons(items: seq<string>, t: Tile)
    requires items != [] && ParseStep(items[0]) == Success(t)
    ensures ParseSteps(items) == PathParse([t] + ParseSteps(items[1..]).steps, ParseSteps(items[1..]).error)
  {
  }

  /** The path a status message carries, written as sendOrders writes it, parses back to the same steps. */
  lemma PathRoundTrip(path: seq<Tile>)
    ensures ParseSteps(PathItems(PathText(path))) == PathParse(path, None)
  {
    StepTextsShape(path);
    NonEmptyStrippedKeeps(StepTexts(path));
    ParseStepTexts(path);
  }

  // ---------------------------------------------------------------- the pick-up text

  /** Lines 190-192: the text of a pick-up element, `name;` per passenger; None + ';' raises TypeError. */
  function PickupText(passengers: seq<Passenger>, pickup: seq<nat>): (r: Result<string, FrameworkError>)
    requires forall k :: 0 <= k < |pickup| ==> pickup[k] < |passengers|
    ensures r.Success? <==> forall k :: 0 <= k < |pickup| ==> passengers[pickup[k]].name.Some?
    ensures r.Failure? ==> exists k :: 0 <= k < |pickup| && r.error == UnnamedPassenger(pickup[k])
  {
    if pickup == [] then Success([])
    else match passengers[pickup[0]].name
      case None => Failure(UnnamedPassenger(pickup[0]))
      case Some(name) =>
        match PickupText(passengers, pickup[1..])
        case Failure(e) => Failure(e)
        case Success(rest) => Success(name + ";" + rest)
  }

  /** Line 118: the stripped pieces between the ';'s that are not empty before stripping, in order. */
  function NonEmptyThenStripped(pieces: seq<string>): (r: seq<string>)
    ensures |r| <= |pieces|
  {
    if pieces == [] then []
    else (if pieces[0] != [] then [Strip(pieces[0])] else []) + NonEmptyThenStripped(pieces[1..])
  }

  /** NonEmptyThenStripped is the comprehension `[x.strip() for x in pieces if len(x) > 0]`. */
  lemma {:induction false} NonEmptyThenStrippedIsComprehension(pieces: seq<string>)
    ensures NonEmptyThenStripped(pieces) == StripAll(Filter(pieces, (x: string) => x != []))
  {
    if pieces != [] {
      var f := (x: string) => x != [];
      var head := if f(pieces[0]) then [pieces[0]] else [];
      assert Filter(pieces, f) == head + Filter(pieces[1..], f);
      StripAllAppend(head, Filter(pieces[1..], f));
      NonEmptyThenStrippedIsComprehension(pieces[1..]);
    }
  }

  function PickupNames(text: string): seq<string> {
    NonEmptyThenStripped(Split(text, ';'))
  }

  predicate NameIn(p: Passenger, names: seq<string>) {
    p.name.Some? && p.name.value in names
  }

  /** Line 120: the passengers, in roster order, whose name is among the names. */
  function PickupFrom(passengers: seq<Passenger>, names: seq<string>): (r: seq<nat>)
    ensures forall p: nat :: p in r <==> p < |passengers| && NameIn(passengers[p], names)
    ensures forall i, j :: 0 <= i < j < |r| ==> r[i] < r[j]
  {
    PickupAmong(passengers, names, |passengers|)
  }

  function PickupAmong(passengers: seq<Passenger>, names: seq<string>, n: nat): (r: seq<nat>)
    requires n <= |passengers|
    ensures forall p: nat :: p in r <==> p < n && NameIn(passengers[p], names)
    ensures forall i :: 0 <= i < |r| ==> r[i] < n
    ensures forall i, j :: 0 <= i < j < |r| ==> r[i] < r[j]
  {
    if n == 0 then []
    else PickupAmong(passengers, names, n - 1) + (if NameIn(passengers[n - 1], names) then [n - 1] else [])
  }

  /** A name the pick-up text carries unchanged: not empty, no ';', no white space at either end. */
  predicate PlainName(name: Option<string>) {
    name.Some? && name.value != [] && ';' !in name.value && !IsSpace(name.value[0]) && !IsSpace(name.value[|name.value| - 1])
  }

  function PickupNamesOf(passengers: seq<Passenger>, pickup: seq<nat>): (r: seq<string>)
    requires forall k :: 0 <= k < |pickup| ==> pickup[k] < |passengers| && passengers[pickup[k]].name.Some?
    ensures |r| == |pickup| && forall k :: 0 <= k < |pickup| ==> r[k] == passengers[pickup[k]].name.value
  {
    seq(|pickup|, k requires 0 <= k < |pickup| && pickup[k] < |passengers| && passengers[pickup[k]].name.Some? =>
      passengers[pickup[k]].name.value)
  }

  lemma {:induction false} PickupTextTerminated(passengers: seq<Passenger>, pickup: seq<nat>)
    requires forall k :: 0 <= k < |pickup| ==> pickup[k] < |passengers| && passengers[pickup[k]].name.Some?
    ensures PickupText(passengers, pickup) == Success(Terminated(PickupNamesOf(passengers, pickup), ';'))
  {
    if pickup != [] {
      PickupTextTerminated(passengers, pickup[1..]);
      assert PickupNamesOf(passengers, pickup)[1..] == PickupNamesOf(passengers, pickup[1..]);
    }
  }

  lemma {:induction false} NonEmptyThenStrippedKeeps(items: seq<string>)
    requires forall i :: 0 <= i < |items| ==> items[i] != [] && !IsSpace(items[i][0]) && !IsSpace(items[i][|items[i]| - 1])
    ensures NonEmptyThenStripped(items + [""]) == items
  {
    if items != [] {
      StripUnchanged(items[0]);
      assert (items + [""])[1..] == items[1..] + [""];
      NonEmptyThenStrippedKeeps(items[1..]);
    } else {
      assert NonEmptyThenStripped([""]) == [];
    }
  }

  /** The names a pick-up element carries are read back unchanged when they are plain. */
  lemma PickupNamesBack(passengers: seq<Passenger>, pickup: seq<nat>)
    requires forall k :: 0 <= k < |pickup| ==> pickup[k] < |passengers| && PlainName(passengers[pickup[k]].name)
    ensures PickupText(passengers, pickup).Success?
    ensures PickupNames(PickupText(passengers, pickup).value) == PickupNamesOf(passengers, pickup)
  {
    var names := PickupNamesOf(passengers, pickup);
    PickupTextTerminated(passengers, pickup);
    SplitTerminated(names, ';');
    NonEmptyThenStrippedKeeps(names);
  }

  /**
   * Sending a pick-up list and reading it back from a status message: when the passengers have
   * distinct plain names, the passengers read back are exactly those sent, in roster order.
   */
  lemma PickupRoundTrip(passengers: seq<Passenger>, pickup: seq<nat>)
    requires forall k :: 0 <= k < |pickup| ==> pickup[k] < |passengers| && PlainName(passengers[pickup[k]].name)
    requires forall p, q :: 0 <= p < q < |passengers| && passengers[p].name.Some? ==> passengers[p].name != passengers[q].name
    ensures PickupText(passengers, pickup).Success?
    ensures var back := PickupFrom(passengers, PickupNames(PickupText(passengers, pickup).value));
      forall p: nat :: p in back <==> p in pickup
  {
    PickupNamesBack(passengers, pickup);
    var names := PickupNamesOf(passengers, pickup);
    forall p: nat | p < |passengers| && NameIn(passengers[p], names)
      ensures p in pickup
    {
      var k :| 0 <= k < |names| && names[k] == passengers[p].name.value;
      assert passengers[pickup[k]].name == passengers[p].name;
      assert pickup[k] == p;
    }
    forall p: nat | p in pickup
      ensures p < |passengers| && NameIn(passengers[p], names)
    {
      var k :| 0 <= k < |pickup| && pickup[k] == p;
      assert names[k] == passengers[p].name.value;
    }
  }

  // ---------------------------------------------------------------- status messages

  /** The attributes and children of a `<status>` element that incomingMessage reads. */
  datatype StatusMessage = StatusMessage(
    status: Option<string>, playerGuid: Option<string>, lastDelivered: Option<string>,
    players: seq<PlayerElement>, passengers: seq<PassengerElement>, path: Option<string>, pickup: Option<string>)

  /** What became of a status message: dropped, stopped by an exception, or handed to the AI. */
  datatype StatusOutcome = Ignored | Failed(error: FrameworkError) | Handed(status: string, player: nat)

  /** Lines 83-85: a status message is only handled once the setup message has given us a guid. */
  predicate KnowsGuid(myGuid: Option<string>) {
    myGuid.Some? && myGuid.value != []
  }

  /**
   * Lines 109-113: the limo's path is cleared, then the steps are appended in text order; an item
   * that does not parse stops the loop with the steps before it in place. The steps are gathered
   * in `path` and stored once the loop stops, which leaves the same limo path behind.
   */
  method ReplacePath(state: GameState, who: nat, text: string) returns (err: Option<FrameworkError>)
    requires state.Valid() && who < |state.players|
    modifies state`players
    ensures state.Valid()
    ensures var parsed := ParseSteps(PathItems(text));
      && err == parsed.error
      && state.players == old(state.players)[who := old(state.players)[who].(limo := old(state.players)[who].limo.(path := parsed.steps))]
  {
    var items := PathItems(text);
    ghost var parsed := ParseSteps(items);
    var path: seq<Tile> := [];
    for k := 0 to |items|
      invariant k <= |parsed.steps| && path == parsed.steps[..k]
      invariant unchanged(state)
    {
      ParseStepsNext(items, k);
      var step := ParseStep(items[k]);
      if step.Failure? {
        assert path == parsed.steps;
        SetPath(state, who, path);
        return Some(step.error);
      }
      TakeOneMore(parsed.steps, k);
      path := path + [step.value];
    }
    assert path == parsed.steps;
    SetPath(state, who, path);
    return None;
  }

  /** Lines 115-120: the player's pick-up list becomes the passengers named in the text, in roster order. */
  method ReplacePickup(state: GameState, who: nat, text: string)
    requires state.Valid() && who < |state.players|
    modifies state`players
    ensures state.Valid()
    ensures state.players == old(state.players)[who := old(state.players)[who].(pickup := PickupFrom(state.passengers, PickupNames(text)))]
  {
    var pickup := PickupFrom(state.passengers, PickupNames(text));
    forall k | 0 <= k < |pickup| ensures pickup[k] < |state.passengers| {
      assert pickup[k] in pickup;
    }
    SetPickup(state, who, pickup);
  }

  /** Assign a player's pick-up list. */
  method SetPickup(state: GameState, who: nat, pickup: seq<nat>)
    requires state.Valid() && who < |state.players|
    requires forall k :: 0 <= k < |pickup| ==> pickup[k] < |state.passengers|
    modifies state`players
    ensures state.Valid()
    ensures state.players == old(state.players)[who := old(state.players)[who].(pickup := pickup)]
  {
    var moved := state.players[who].(pickup := pickup);
    ReplacePlayerKeeps(state.players, state.passengers, state.companies, who, moved);
    state.players := state.players[who := moved];
  }

  /** Assign a player's limo path (`del path[:]` followed by appends is a sequence of these). */
  method SetPath(state: GameState, who: nat, path: seq<Tile>)
    requires state.Valid() && who < |state.players|
    modifies state`players
    ensures state.Valid()
    ensures state.players == old(state.players)[who := old(state.players)[who].(limo := old(state.players)[who].limo.(path := path))]
  {
    var moved := state.players[who].(limo := state.players[who].limo.(path := path));
    ReplacePlayerKeeps(state.players, state.passengers, state.companies, who, moved);
    state.players := state.players[who := moved];
  }

  lemma TakeOneMore<T>(s: seq<T>, k: nat)
    requires k < |s|
    ensures s[..k + 1] == s[..k] + [s[k]]
  {
  }

  /** Where the parse of the items stands at item k, when no earlier item failed. */
  lemma ParseStepsNext(items: seq<string>, k: nat)
    requires k < |items| && k <= |ParseSteps(items).steps|
    ensures var parsed := ParseSteps(items);
      && (ParseStep(items[k]).Success? ==> k < |parsed.steps| && parsed.steps[k] == ParseStep(items[k]).value)
      && (ParseStep(items[k]).Failure? ==> |parsed.steps| == k && parsed.error == Some(ParseStep(items[k]).error))
  {
    ParseStepsStops(items);
  }

  /**
   * Lines 83-123 for a status message whose player updates and lookups all succeed: the rosters
   * are updated, the named player's path and pick-up list are replaced when the message carries
   * them, and the message is handed to the AI together with that player.
   */
  method HandleStatus(state: GameState, myGuid: Option<string>, msg: StatusMessage) returns (r: StatusOutcome)
    requires state.Valid()
    modifies state`players, state`passengers
    ensures state.Valid() && state.companies == old(state.companies)
    ensures !KnowsGuid(myGuid) ==> r == Ignored && state.players == old(state.players) && state.passengers == old(state.passengers)
    ensures KnowsGuid(myGuid) && msg.status.None? ==> r == Failed(MissingAttribute("status"))
    ensures KnowsGuid(myGuid) && msg.status.Some? && msg.playerGuid.None? ==> r == Failed(MissingAttribute("player-guid"))
    ensures r.Handed? ==>
      && msg.status == Some(r.status)
      && r.player < |state.players|
      && PlayerWithGuid(state.players, msg.playerGuid) == Some(r.player)
    ensures r.Handed? && msg.path.Some? ==> state.players[r.player].limo.path == ParseSteps(PathItems(msg.path.value)).steps
    ensures r.Handed? && msg.pickup.Some? ==> state.players[r.player].pickup == PickupFrom(state.passengers, PickupNames(msg.pickup.value))
    ensures r.Handed? && msg.path.Some? ==> ParseSteps(PathItems(msg.path.value)).error.None?
    ensures r.Failed? && r.error.BadStep? ==> msg.path.Some? && ParseSteps(PathItems(msg.path.value)).error == Some(r.error)
    ensures KnowsGuid(myGuid) && (msg.status.None? || msg.playerGuid.None?) ==>
      state.players == old(state.players) && state.passengers == old(state.passengers)
    ensures KnowsGuid(myGuid) && msg.status.Some? && msg.playerGuid.Some? ==>
      var p := PlayersAfter(old(state.players), old(state.passengers), msg.players, msg.lastDelivered);
      p.error.Some? ==> r == Failed(Update(p.error.value)) && state.players == p.players && state.passengers == p.passengers
    ensures KnowsGuid(myGuid) && msg.status.Some? && msg.playerGuid.Some? ==>
      var p := PlayersAfter(old(state.players), old(state.passengers), msg.players, msg.lastDelivered);
      var q := PassengersAfter(p.passengers, state.companies, msg.passengers);
      p.error.None? ==>
        && state.passengers == q.passengers
        && (q.error.Some? ==> r == Failed(Update(q.error.value)) && state.players == p.players)
    ensures KnowsGuid(myGuid) && msg.status.Some? && msg.playerGuid.Some? ==>
      var p := PlayersAfter(old(state.players), old(state.passengers), msg.players, msg.lastDelivered);
      var q := PassengersAfter(p.passengers, state.companies, msg.passengers);
      var who := PlayerWithGuid(p.players, msg.playerGuid);
      p.error.None? && q.error.None? ==>
        && (who.None? ==> r == Failed(NoSuchStatusPlayer(msg.playerGuid.value)) && state.players == p.players)
        && (who.Some? ==> state.players == p.players[who.value := StatusPlayer(p.players[who.value], q.passengers, msg)])
        && (who.Some? ==> r == if PathFails(msg) then Failed(ParseSteps(PathItems(msg.path.value)).error.value)
                               else Handed(msg.status.value, who.value))
  {
    if !KnowsGuid(myGuid) {
      return Ignored;
    }
    if msg.status.None? {
      return Failed(MissingAttribute("status"));
    }
    if msg.playerGuid.None? {
      return Failed(MissingAttribute("player-guid"));
    }
    ghost var p := PlayersAfter(state.players, state.passengers, msg.players, msg.lastDelivered);
    var err := state.UpdatePlayers(msg.players, msg.lastDelivered);
    assert state.players == p.players && state.passengers == p.passengers && err == p.error;
    if err.Some? {
      return Failed(Update(err.value));
    }
    ghost var q := PassengersAfter(p.passengers, state.companies, msg.passengers);
    err := state.UpdatePassengers(msg.passengers);
    assert state.players == p.players && state.passengers == q.passengers && err == q.error;
    if err.Some? {
      return Failed(Update(err.value));
    }
    var who := PlayerWithGuid(state.players, msg.playerGuid);
    if who.None? {
      return Failed(NoSuchStatusPlayer(msg.playerGuid.value));
    }
    var w := who.value;
    var pathErr := ApplyStatusOrders(state, w, msg);
    if pathErr.Some? {
      return Failed(pathErr.value);
    }
    PlayerWithGuidKeeps(p.players, w, state.players[w], msg.playerGuid);
    return Handed(msg.status.value, w);
  }

  /**
   * Lines 104-120 on the status player: the path element, when present, replaces its limo path
   * (a failing item stops the handling with that item's error); otherwise, or after a path that
   * parsed, the pick-up element, when present, replaces its pick-up list.
   */
  method ApplyStatusOrders(state: GameState, w: nat, msg: StatusMessage) returns (pathErr: Option<FrameworkError>)
    requires state.Valid() && w < |state.players|
    modifies state`players
    ensures state.Valid() && state.passengers == old(state.passengers)
    ensures state.players == old(state.players)[w := StatusPlayer(old(state.players)[w], state.passengers, msg)]
    ensures pathErr.Some? <==> PathFails(msg)
    ensures pathErr.Some? ==> pathErr == ParseSteps(PathItems(msg.path.value)).error
  {
    ghost var after := StatusPlayer(state.players[w], state.passengers, msg);
    ghost var players := state.players;
    pathErr := None;
    if msg.path.Some? {
      pathErr := ReplacePath(state, w, msg.path.value);
      if pathErr.Some? {
        assert state.players == players[w := after];
        return;
      }
    }
    assert state.players == players[w := players[w].(limo := after.limo)];
    if msg.pickup.Some? {
      ReplacePickup(state, w, msg.pickup.value);
    }
    assert state.players == players[w := after];
  }

  /** The message carries a path element whose text does not parse. */
  predicate PathFails(msg: StatusMessage) {
    msg.path.Some? && ParseSteps(PathItems(msg.path.value)).error.Some?
  }

  /**
   * The status player after lines 104-120: the parsed steps (those before a failing item) become
   * its limo path when the message has a path element, and, unless that path stopped with an
   * exception, the passengers named in the pick-up element become its pick-up list.
   */
  function StatusPlayer(p: Player, passengers: seq<Passenger>, msg: StatusMessage): Player {
    var path := if msg.path.Some? then ParseSteps(PathItems(msg.path.value)).steps else p.limo.path;
    var pickup := if msg.pickup.Some? && !PathFails(msg) then PickupFrom(passengers, PickupNames(msg.pickup.value)) else p.pickup;
    p.(limo := p.limo.(path := path), pickup := pickup)
  }

  /** Updating a player's limo or pick-up list keeps its guid, so the guid lookup is unchanged. */
  lemma PlayerWithGuidKeeps(players: seq<Player>, w: nat, p: Player, guid: Option<string>)
    requires w < |players| && p.guid == players[w].guid
    ensures PlayerWithGuid(players[w := p], guid) == PlayerWithGuid(players, guid)
  {
    FirstWhereAgree(players, players[w := p], (q: Player) => q.guid == guid);
  }

  // ---------------------------------------------------------------- orders

  /** The orders sent to the server: the order's name and the text of its path and pick-up elements, if any. */
  datatype Orders = Orders(order: string, path: Option<string>, pickup: Option<string>)

  /**
   * sendOrders (lines 179-194): a non-empty path becomes the limo's saved path and a path element;
   * a non-empty pick-up list becomes the player's saved pick-up list and a pick-up element.
   */
  method SendOrders(state: GameState, me: nat, order: string, path: seq<Tile>, pickup: seq<nat>)
    returns (r: Result<Orders, FrameworkError>)
    requires state.Valid() && me < |state.players|
    requires forall k :: 0 <= k < |pickup| ==> pickup[k] < |state.passengers|
    modifies state`players
    ensures state.Valid()
    ensures var p := old(state.players)[me];
      var p' := p.(limo := if path == [] then p.limo else p.limo.(path := path), pickup := if pickup == [] then p.pickup else pickup);
      state.players == old(state.players)[me := p']
    ensures r.Success? <==> pickup == [] || PickupText(state.passengers, pickup).Success?
    ensures r.Failure? ==> PickupText(state.passengers, pickup) == Failure(r.error)
    ensures r.Success? ==> r.value.order == order
    ensures r.Success? ==> (r.value.path.Some? <==> path != []) && (path != [] ==> r.value.path == Some(PathText(path)))
    ensures r.Success? ==>
      && (r.value.pickup.Some? <==> pickup != [])
      && (pickup != [] ==> r.value.pickup == Some(PickupText(state.passengers, pickup).value))
  {
    var pathText: Option<string> := None;
    if |path| > 0 {
      SetPath(state, me, path);
      pathText := Some(PathText(path));
    }
    var pickupText: Result<Option<string>, FrameworkError> := Success(None);
    if |pickup| > 0 {
      SetPickup(state, me, pickup);
      var text := PickupText(state.passengers, pickup);
      pickupText := if text.Failure? then Failure(text.error) else Success(Some(text.value));
    }
    UpdateTwice(old(state.players), me, path, pickup);
    r := if pickupText.Failure? then Failure(pickupText.error) else Success(Orders(order, pathText, pickupText.value));
  }

  /** Setting the path and then the pick-up list of one player is one update of that player. */
  lemma UpdateTwice(players: seq<Player>, me: nat, path: seq<Tile>, pickup: seq<nat>)
    requires me < |players|
    ensures var p := players[me];
      var s1 := if path == [] then players else players[me := p.(limo := p.limo.(path := path))];
      var s2 := if pickup == [] then s1 else s1[me := s1[me].(pickup := pickup)];
      s2 == players[me := p.(limo := if path == [] then p.limo else p.limo.(path := path), pickup := if pickup == [] then p.pickup else pickup)]
  {
  }

  // ---------------------------------------------------------------- reconnecting

  /** The half seconds waited after the first n failed attempts: 1 + 2 + ... + n. */
  function TotalDelay(n: nat): nat {
    if n == 0 then 0 else TotalDelay(n - 1) + n
  }

  lemma {:induction false} TotalDelayClosedForm(n: nat)
    ensures 2 * TotalDelay(n) == n * (n + 1)
  {
    if n > 0 {
      TotalDelayClosedForm(n - 1);
    }
  }

  /**
   * Whether a client exists when attempt j starts: there was one before the first attempt, or the
   * TcpClient constructor succeeded in an earlier attempt (a failed constructor leaves the old,
   * already closed, client in place).
   */
  function ClientBefore(construct: nat -> bool, hadClient: bool, j: nat): (r: bool)
    ensures r <==> hadClient || exists k :: 0 <= k < j && construct(k)
  {
    if j == 0 then hadClient
    else
      assert (exists k :: 0 <= k < j && construct(k)) <==>
        (exists k :: 0 <= k < j - 1 && construct(k)) || construct(j - 1);
      ClientBefore(construct, hadClient, j - 1) || construct(j - 1)
  }

  /** The number of `client.close()` calls made by the first n attempts. */
  function Closes(construct: nat -> bool, hadClient: bool, n: nat): (r: nat)
    ensures r <= n
  {
    if n == 0 then 0 else Closes(construct, hadClient, n - 1) + (if ClientBefore(construct, hadClient, n - 1) then 1 else 0)
  }

  /**
   * connectionLost (lines 148-166): each attempt first closes the client there is, if any, then
   * makes a new one, starts it and joins. Failure k (counting from 1) sleeps k half seconds, so the
   * delay grows by half a second per failure; the first attempt that succeeds ends the loop.
   * `construct(j)` says whether the TcpClient constructor succeeds in attempt j, `join(j)` whether
   * starting it and sending the join message then succeed. Returns the number of failed attempts,
   * the sleeps, and the number of clients closed.
   */
  method Reconnect(construct: nat -> bool, join: nat -> bool, hadClient: bool) returns (failures: nat, sleeps: seq<nat>, closed: nat)
    requires exists j: nat :: construct(j) && join(j)
    ensures construct(failures) && join(failures)
    ensures forall j :: 0 <= j < failures ==> !(construct(j) && join(j))
    ensures |sleeps| == failures && forall k :: 0 <= k < failures ==> sleeps[k] == k + 1
    ensures closed == Closes(construct, hadClient, failures + 1)
  {
    ghost var success: nat :| construct(success) && join(success);
    var delay: nat := 1;
    failures, sleeps, closed := 0, [], 0;
    var client := hadClient;
    while true
      invariant failures <= success && delay == failures + 1
      invariant forall j :: 0 <= j < failures ==> !(construct(j) && join(j))
      invariant |sleeps| == failures && forall k :: 0 <= k < failures ==> sleeps[k] == k + 1
      invariant client == ClientBefore(construct, hadClient, failures)
      invariant closed == Closes(construct, hadClient, failures)
      decreases success - failures
    {
      if client {
        closed := closed + 1;
      }
      if construct(failures) {
        client := true;
        if join(failures) {
          return;
        }
      }
      sleeps := sleeps + [delay];
      delay := delay + 1;
      failures := failures + 1;
    }
  }

  /** With a client to begin with, every attempt closes one: failures + 1 closes in all. */
  lemma {:induction false} ClosesWithClient(construct: nat -> bool, n: nat)
    ensures Closes(construct, true, n) == n
  {
    if n > 0 {
      ClosesWithClient(construct, n - 1);
    }
  }

  /**
   * Without a client to begin with, the attempts up to and including the first whose constructor
   * succeeds close nothing, and every later attempt closes one.
   */
  lemma {:induction false} ClosesWithoutClient(construct: nat -> bool, first: nat, n: nat)
    requires construct(first) && forall k :: 0 <= k < first ==> !construct(k)
    ensures Closes(construct, false, n) == if n <= first + 1 then 0 else n - first - 1
  {
    if n > 0 {
      ClosesWithoutClient(construct, first, n - 1);
      assert ClientBefore(construct, false, n - 1) <==> n - 1 > first;
    }
  }

  /** The total time waited before the successful attempt, in half seconds. */
  lemma ReconnectWaits(sleeps: seq<nat>, failures: nat)
    requires |sleeps| == failures && forall k :: 0 <= k < failures ==> sleeps[k] == k + 1
    ensures 2 * Sum(sleeps) == failures * (failures + 1)
  {
    SumIsTotalDelay(sleeps, failures);
    TotalDelayClosedForm(failures);
  }

  function Sum(s: seq<nat>): nat {
    if s == [] then 0 else Sum(s[..|s| - 1]) + s[|s| - 1]
  }

  lemma {:induction false} SumIsTotalDelay(sleeps: seq<nat>, n: nat)
    requires |sleeps| == n && forall k :: 0 <= k < n ==> sleeps[k] == k + 1
    ensures Sum(sleeps) == TotalDelay(n)
  {
    if n > 0 {
      SumIsTotalDelay(sleeps[..n - 1], n - 1);
    }
  }
}

=== FILE: game_map.dfy ===
/**
 * The game map (api/map.py): the grid of map squares built from the `<map>` element,
 * the bounds-checked lookup the path search uses, the drivability test, the stop-sign
 * and signal attributes of a road square, and companies compared by name.
 * XML elements are abstracted as records of their attributes, with None for a missing one.
 */
module GameMap {
  import opened Wrappers
  import opened Text

  /** A tile coordinate (x, y), in tile units. */
  type Tile = (int, int)

  /** The square types; `assert self.type in TYPE` rejects any other. */
  const TYPES: set<string> := {"PARK", "ROAD", "BUS_STOP", "COMPANY"}

  /** The road directions, with the numbers the server uses for them. */
  const DIRECTION: map<string, nat> := map[
    "NORTH_SOUTH" := 0, "EAST_WEST" := 1, "INTERSECTION" := 2,
    "NORTH_UTURN" := 3, "EAST_UTURN" := 4, "SOUTH_UTURN" := 5, "WEST_UTURN" := 6,
    "T_NORTH" := 7, "T_EAST" := 8, "T_SOUTH" := 9, "T_WEST" := 10,
    "CURVE_NE" := 11, "CURVE_NW" := 12, "CURVE_SE" := 13, "CURVE_SW" := 14]

  /** The stop-sign flags of an intersection: one bit per side. */
  const STOP_SIGNS: map<string, nat> := map[
    "NONE" := 0, "STOP_NORTH" := 0x01, "STOP_EAST" := 0x02, "STOP_SOUTH" := 0x04, "STOP_WEST" := 0x08]

  datatype MapError =
    | BadSquare(tile: nat)     // a tile element MapSquare rejects (type, direction or stop-sign name)
    | TileOffGrid(tile: nat)   // `squares[x][y]` raises IndexError
    | NoBusStop(company: nat)  // a company's bus stop is off the grid or has no square

  /** A `<tile>` element: its coordinates and the attributes MapSquare reads. */
  datatype TileElement = TileElement(
    x: int, y: int,
    kind: Option<string>, direction: Option<string>, stopSign: Option<string>, signal: Option<string>)

  /** The `<map>` element: its size attributes and its tiles in document order. */
  datatype MapElement = MapElement(width: int, height: int, unitsPerTile: int, tiles: seq<TileElement>)

  /** What a drivable square carries besides its type. */
  datatype Road = Road(direction: string, stopSigns: nat, signal: bool)

  /** A MapSquare; `company` is the index, in the companies list, of the company whose bus stop it is. */
  datatype Square = Square(kind: string, road: Option<Road>, company: Option<nat>)

  /** A company: its name, its bus stop, and the indices of the passengers waiting in its lobby. */
  datatype Company = Company(name: string, busStop: Tile, passengers: seq<nat>)

  /** The game map: `squares[x][y]` is the square at tile (x, y), None where no tile element named it. */
  datatype GameMap = GameMap(width: int, height: int, unitsPerTile: int, squares: seq<seq<Option<Square>>>)

  /** `len(range(n))`. */
  function Count(n: int): nat { if n < 0 then 0 else n }

  /** `width` columns of `height` cells each, as `Map.__init__` allocates them. */
  predicate WellFormed(m: GameMap) {
    |m.squares| == Count(m.width) && forall x :: 0 <= x < |m.squares| ==> |m.squares[x]| == Count(m.height)
  }

  predicate InBounds(m: GameMap, p: Tile) {
    0 <= p.0 < m.width && 0 <= p.1 < m.height
  }

  /** Map.squareOrDefault: None off the map, otherwise the square stored there (which may be None). */
  function SquareOrDefault(m: GameMap, p: Tile): (r: Option<Square>)
    requires WellFormed(m)
    ensures !InBounds(m, p) ==> r == None
    ensures InBounds(m, p) ==> r == m.squares[p.0][p.1]
  {
    if p.0 < 0 || p.1 < 0 || p.0 >= m.width || p.1 >= m.height then None
    else m.squares[p.0][p.1]
  }

  /** MapSquare.isDriveable, on the square's type: ROAD and BUS_STOP, two of the four types. */
  predicate IsDriveable(kind: string): (r: bool)
    ensures r ==> kind in TYPES
    ensures r <==> kind in TYPES && kind != "PARK" && kind != "COMPANY"
  {
    kind == "ROAD" || kind == "BUS_STOP"
  }

  // ---------------------------------------------------------------- stop signs and signals

  /** `reduce(lambda x, y: x + STOP_SIGNS[y], names, 0)`: None where a name is not a flag (KeyError). */
  function SumFlags(names: seq<string>): (r: Option<nat>)
    ensures r.Some? <==> AllIn(names, STOP_SIGNS.Keys)
  {
    if names == [] then Some(0)
    else if names[0] !in STOP_SIGNS then None
    else match SumFlags(names[1..])
      case None => None
      case Some(rest) => Some(STOP_SIGNS[names[0]] + rest)
  }

  /**
   * The stopSigns value of a road square: 0 without the attribute, else the sum of the flags named
   * between its commas; a name that is not a flag is a KeyError. SumOfDistinctFlags gives the value.
   */
  function StopSignsValue(attr: Option<string>): (r: Option<nat>)
    ensures attr.None? ==> r == Some(0)
    ensures attr.Some? ==> (r.Some? <==> forall p :: p in Split(attr.value, ',') ==> Strip(p) in STOP_SIGNS)
  {
    if attr.None? then Some(STOP_SIGNS["NONE"])
    else
      var pieces := Split(attr.value, ',');
      StripAllWithin(pieces, STOP_SIGNS.Keys);
      SumFlags(StripAll(pieces))
  }

  /** The flag value of a set of sides: one bit per stop sign named. */
  function FlagsOf(names: set<string>): nat {
    (if "STOP_NORTH" in names then 1 else 0) + (if "STOP_EAST" in names then 2 else 0)
    + (if "STOP_SOUTH" in names then 4 else 0) + (if "STOP_WEST" in names then 8 else 0)
  }

  predicate Distinct(names: seq<string>) {
    forall i, j :: 0 <= i < j < |names| ==> names[i] != names[j]
  }

  /** A list of distinct flag names sums to the bits of the sides it names. */
  lemma {:induction false} SumOfDistinctFlags(names: seq<string>)
    requires Distinct(names) && forall i :: 0 <= i < |names| ==> names[i] in STOP_SIGNS
    ensures SumFlags(names) == Some(FlagsOf(set n | n in names))
  {
    if names != [] {
      var tail := names[1..];
      assert forall i :: 0 <= i < |tail| ==> tail[i] == names[i + 1];
      SumOfDistinctFlags(tail);
      NamesOfCons(names);
      assert forall k :: 0 <= k < |tail| ==> tail[k] != names[0];
      FlagsOfAdd(names[0], set n | n in tail);
    }
  }

  lemma NamesOfCons(names: seq<string>)
    requires names != []
    ensures (set n | n in names) == {names[0]} + (set n | n in names[1..])
  {
    assert names == [names[0]] + names[1..];
  }

  lemma FlagsOfAdd(name: string, rest: set<string>)
    requires name in STOP_SIGNS && name !in rest
    ensures FlagsOf({name} + rest) == STOP_SIGNS[name] + FlagsOf(rest)
  {
  }

  /** Distinct flag names give a value in 0..15, and the value tells which sides have a stop sign. */
  lemma FlagsDetermineSides(s: set<string>, t: set<string>)
    requires FlagsOf(s) == FlagsOf(t)
    ensures FlagsOf(s) <= 15
    ensures forall side :: side in {"STOP_NORTH", "STOP_EAST", "STOP_SOUTH", "STOP_WEST"} ==> (side in s <==> side in t)
  {
  }

  /** The signal attribute: present and, ignoring the case of each letter, the word "true". */
  function SignalValue(attr: Option<string>): (r: bool)
    ensures r <==> (attr.Some? && |attr.value| == 4 &&
      forall i :: 0 <= i < 4 ==> attr.value[i] == "true"[i] || attr.value[i] == "TRUE"[i])
  {
    if attr.None? then false
    else
      var v := attr.value;
      LowerEquals(v, "true");
      assert forall i :: 0 <= i < 4 ==> "TRUE"[i] == "true"[i] - 'a' + 'A';
      Lower(v) == "true"
  }

  // ---------------------------------------------------------------- squares

  /** The checks MapSquare's constructor makes on a tile element. */
  predicate TileAttributesValid(e: TileElement) {
    && e.kind.Some? && e.kind.value in TYPES
    && (IsDriveable(e.kind.value) ==>
          e.direction.Some? && e.direction.value in DIRECTION && StopSignsValue(e.stopSign).Some?)
  }

  /** The MapSquare constructor; None where one of its assertions or lookups fails. */
  function NewSquare(e: TileElement): (r: Option<Square>)
    ensures r.Some? <==> TileAttributesValid(e)
    ensures r.Some? ==> r.value.kind == e.kind.value && r.value.company == None
    ensures r.Some? ==> (r.value.road.Some? <==> IsDriveable(r.value.kind))
    ensures r.Some? && r.value.road.Some? ==>
      r.value.road.value == Road(e.direction.value, StopSignsValue(e.stopSign).value, SignalValue(e.signal))
  {
    if e.kind.None? || e.kind.value !in TYPES then None
    else if !IsDriveable(e.kind.value) then Some(Square(e.kind.value, None, None))
    else if e.direction.None? || e.direction.value !in DIRECTION then None
    else match StopSignsValue(e.stopSign)
      case None => None
      case Some(stops) => Some(Square(e.kind.value, Some(Road(e.direction.value, stops, SignalValue(e.signal))), None))
  }

  // ---------------------------------------------------------------- the grid

  /** Python's `lst[i]` on a list of length `n`: negative indices count from the end. */
  function PyIndex(i: int, n: nat): (r: Option<nat>)
    ensures r.Some? <==> -(n as int) <= i < n
    ensures r.Some? ==> r.value < n && (r.value == i || r.value == i + n)
  {
    if 0 <= i < n then Some(i) else if -(n as int) <= i < 0 then Some(i + n) else None
  }

  predicate Names(t: TileElement, w: nat, h: nat, x: nat, y: nat) {
    PyIndex(t.x, w) == Some(x) && PyIndex(t.y, h) == Some(y)
  }

  /** The square the last tile element naming cell (x, y) creates; None if no element names it. */
  function LastSquareAt(tiles: seq<TileElement>, w: nat, h: nat, x: nat, y: nat): Option<Square> {
    if tiles == [] then None
    else if Names(tiles[|tiles| - 1], w, h, x, y) then NewSquare(tiles[|tiles| - 1])
    else LastSquareAt(tiles[..|tiles| - 1], w, h, x, y)
  }

  predicate BusStopNames(c: Company, w: nat, h: nat, x: nat, y: nat) {
    PyIndex(c.busStop.0, w) == Some(x) && PyIndex(c.busStop.1, h) == Some(y)
  }

  /** The index of the last company whose bus stop is cell (x, y). */
  function LastCompanyAt(companies: seq<Company>, w: nat, h: nat, x: nat, y: nat): Option<nat> {
    if companies == [] then None
    else if BusStopNames(companies[|companies| - 1], w, h, x, y) then Some(|companies| - 1)
    else LastCompanyAt(companies[..|companies| - 1], w, h, x, y)
  }

  /** What `Map.__init__` leaves in cell (x, y). */
  function CellAfter(e: MapElement, companies: seq<Company>, x: nat, y: nat): Option<Square> {
    match LastSquareAt(e.tiles, Count(e.width), Count(e.height), x, y)
    case None => None
    case Some(sq) =>
      var c := LastCompanyAt(companies, Count(e.width), Count(e.height), x, y);
      Some(if c.Some? then sq.(company := c) else sq)
  }

  predicate TileValid(t: TileElement, w: nat, h: nat) {
    TileAttributesValid(t) && PyIndex(t.x, w).Some? && PyIndex(t.y, h).Some?
  }

  predicate BusStopValid(e: MapElement, c: Company) {
    var w, h := Count(e.width), Count(e.height);
    && PyIndex(c.busStop.0, w).Some? && PyIndex(c.busStop.1, h).Some?
    && LastSquareAt(e.tiles, w, h, PyIndex(c.busStop.0, w).value, PyIndex(c.busStop.1, h).value).Some?
  }

  lemma LastSquareStep(tiles: seq<TileElement>, i: nat, w: nat, h: nat, x: nat, y: nat)
    requires i < |tiles|
    ensures LastSquareAt(tiles[..i + 1], w, h, x, y)
         == if Names(tiles[i], w, h, x, y) then NewSquare(tiles[i]) else LastSquareAt(tiles[..i], w, h, x, y)
  {
    assert tiles[..i + 1][..i] == tiles[..i];
  }

  lemma LastCompanyStep(companies: seq<Company>, j: nat, w: nat, h: nat, x: nat, y: nat)
    requires j < |companies|
    ensures LastCompanyAt(companies[..j + 1], w, h, x, y)
         == if BusStopNames(companies[j], w, h, x, y) then Some(j) else LastCompanyAt(companies[..j], w, h, x, y)
  {
    assert companies[..j + 1][..j] == companies[..j];
  }

  /** The last tile element naming a cell decides the square created there. */
  lemma {:induction false} LastSquareIsLastNaming(tiles: seq<TileElement>, i: nat, w: nat, h: nat, x: nat, y: nat)
    requires i < |tiles| && Names(tiles[i], w, h, x, y)
    requires forall k :: i < k < |tiles| ==> !Names(tiles[k], w, h, x, y)
    ensures LastSquareAt(tiles, w, h, x, y) == NewSquare(tiles[i])
  {
    if i < |tiles| - 1 {
      LastSquareIsLastNaming(tiles[..|tiles| - 1], i, w, h, x, y);
    }
  }

  /** A cell no tile element names gets no square. */
  lemma {:induction false} LastSquareUnnamed(tiles: seq<TileElement>, w: nat, h: nat, x: nat, y: nat)
    requires forall k :: 0 <= k < |tiles| ==> !Names(tiles[k], w, h, x, y)
    ensures LastSquareAt(tiles, w, h, x, y) == None
  {
    if tiles != [] {
      LastSquareUnnamed(tiles[..|tiles| - 1], w, h, x, y);
    }
  }

  /** What BuildMap promises of a map it returns. */
  predicate BuiltFrom(m: GameMap, e: MapElement, companies: seq<Company>) {
    && WellFormed(m) && m.width == e.width && m.height == e.height
    && (forall k :: 0 <= k < |e.tiles| ==> TileValid(e.tiles[k], Count(e.width), Count(e.height)))
    && forall x, y :: 0 <= x < Count(e.width) && 0 <= y < Count(e.height) ==>
         m.squares[x][y] == CellAfter(e, companies, x, y)
  }

  /**
   * On a built map, squareOrDefault at a cell answers the square made from the last tile element
   * naming that cell (negative coordinates counting from the far edge), marked with the last company
   * whose bus stop is there.
   */
  lemma SquareOrDefaultOnBuiltMap(m: GameMap, e: MapElement, companies: seq<Company>, p: Tile, i: nat)
    requires BuiltFrom(m, e, companies)
    requires 0 <= p.0 && 0 <= p.1 && i < |e.tiles| && Names(e.tiles[i], Count(e.width), Count(e.height), p.0, p.1)
    requires forall k :: i < k < |e.tiles| ==> !Names(e.tiles[k], Count(e.width), Count(e.height), p.0, p.1)
    ensures SquareOrDefault(m, p) ==
      Some(NewSquare(e.tiles[i]).value.(company := LastCompanyAt(companies, Count(e.width), Count(e.height), p.0, p.1)))
  {
    assert TileValid(e.tiles[i], Count(e.width), Count(e.height));
    LastSquareIsLastNaming(e.tiles, i, Count(e.width), Count(e.height), p.0, p.1);
  }

  /** On a built map, a cell that no tile element names holds no square. */
  lemma SquareOrDefaultUnnamed(m: GameMap, e: MapElement, companies: seq<Company>, p: Tile)
    requires BuiltFrom(m, e, companies) && InBounds(m, p)
    requires forall k :: 0 <= k < |e.tiles| ==> !Names(e.tiles[k], Count(e.width), Count(e.height), p.0, p.1)
    ensures SquareOrDefault(m, p) == None
  {
    LastSquareUnnamed(e.tiles, Count(e.width), Count(e.height), p.0, p.1);
  }

  /**
   * Map.__init__: allocate `width` columns of `height` empty cells, store a square for every
   * tile element (a later element for the same cell wins), then mark each company's bus stop.
   */
  method BuildMap(e: MapElement, companies: seq<Company>) returns (r: Result<GameMap, MapError>)
    ensures r.Success? <==>
      (forall i :: 0 <= i < |e.tiles| ==> TileValid(e.tiles[i], Count(e.width), Count(e.height)))
      && (forall j :: 0 <= j < |companies| ==> BusStopValid(e, companies[j]))
    ensures r.Success? ==> BuiltFrom(r.value, e, companies) && r.value.unitsPerTile == e.unitsPerTile
  {
    var placed := PlaceTiles(e.tiles, Count(e.width), Count(e.height));
    if placed.Failure? {
      return Failure(placed.error);
    }
    var marked := PlaceBusStops(e, companies, placed.value);
    if marked.Failure? {
      return Failure(marked.error);
    }
    return Success(GameMap(e.width, e.height, e.unitsPerTile, marked.value));
  }

  /** `w` columns of `h` cells each. */
  predicate IsGrid(squares: seq<seq<Option<Square>>>, w: nat, h: nat) {
    |squares| == w && forall x :: 0 <= x < w ==> |squares[x]| == h
  }

  /** The tile loop of Map.__init__: each tile element's square is stored at its (wrapped) cell. */
  method PlaceTiles(tiles: seq<TileElement>, w: nat, h: nat) returns (r: Result<seq<seq<Option<Square>>>, MapError>)
    ensures r.Success? <==> forall i :: 0 <= i < |tiles| ==> TileValid(tiles[i], w, h)
    ensures r.Success? ==> IsGrid(r.value, w, h)
    ensures r.Success? ==> forall x, y :: 0 <= x < w && 0 <= y < h ==> r.value[x][y] == LastSquareAt(tiles, w, h, x, y)
  {
    var squares: seq<seq<Option<Square>>> := seq(w, _ => seq(h, _ => None));
    for i := 0 to |tiles|
      invariant HoldsTiles(squares, tiles[..i], w, h)
      invariant forall k :: 0 <= k < i ==> TileValid(tiles[k], w, h)
    {
      var t := tiles[i];
      var sq := NewSquare(t);
      if sq.None? {
        return Failure(BadSquare(i));
      }
      var col, row := PyIndex(t.x, w), PyIndex(t.y, h);
      if col.None? || row.None? {
        return Failure(TileOffGrid(i));
      }
      PlaceTileStep(squares, tiles, i, w, h);
      squares := squares[col.value := squares[col.value][row.value := sq]];
    }
    assert tiles[..|tiles|] == tiles;
    return Success(squares);
  }

  /** `squares` is a w by h grid holding, at each cell, the last of `tiles` that names it. */
  predicate HoldsTiles(squares: seq<seq<Option<Square>>>, tiles: seq<TileElement>, w: nat, h: nat) {
    IsGrid(squares, w, h) && forall x, y :: 0 <= x < w && 0 <= y < h ==> squares[x][y] == LastSquareAt(tiles, w, h, x, y)
  }

  /** Storing a valid tile at its cell extends the grid by that tile. */
  lemma PlaceTileStep(squares: seq<seq<Option<Square>>>, tiles: seq<TileElement>, i: nat, w: nat, h: nat)
    requires i < |tiles| && TileValid(tiles[i], w, h) && HoldsTiles(squares, tiles[..i], w, h)
    ensures var col, row := PyIndex(tiles[i].x, w).value, PyIndex(tiles[i].y, h).value;
      HoldsTiles(squares[col := squares[col][row := NewSquare(tiles[i])]], tiles[..i + 1], w, h)
  {
    forall x, y | 0 <= x < w && 0 <= y < h {
      LastSquareStep(tiles, i, w, h, x, y);
    }
  }

  /** The company loop of Map.__init__: the square at each company's bus stop gets that company. */
  method PlaceBusStops(e: MapElement, companies: seq<Company>, squares: seq<seq<Option<Square>>>)
    returns (r: Result<seq<seq<Option<Square>>>, MapError>)
    requires IsGrid(squares, Count(e.width), Count(e.height))
    requires forall x, y :: 0 <= x < Count(e.width) && 0 <= y < Count(e.height) ==>
      squares[x][y] == LastSquareAt(e.tiles, Count(e.width), Count(e.height), x, y)
    ensures r.Success? <==> forall j :: 0 <= j < |companies| ==> BusStopValid(e, companies[j])
    ensures r.Success? ==> IsGrid(r.value, Count(e.width), Count(e.height))
    ensures r.Success? ==> forall x, y :: 0 <= x < Count(e.width) && 0 <= y < Count(e.height) ==>
      r.value[x][y] == CellAfter(e, companies, x, y)
  {
    var w, h := Count(e.width), Count(e.height);
    var cells := squares;
    assert companies[..0] == [];
    for j := 0 to |companies|
      invariant IsGrid(cells, w, h)
      invariant forall k :: 0 <= k < j ==> BusStopValid(e, companies[k])
      invariant forall x, y :: 0 <= x < w && 0 <= y < h ==> cells[x][y] == CellAfter(e, companies[..j], x, y)
    {
      var stop := companies[j].busStop;
      var col, row := PyIndex(stop.0, w), PyIndex(stop.1, h);
      if col.None? || row.None? || cells[col.value][row.value].None? {
        return Failure(NoBusStop(j));
      }
      var sq := cells[col.value][row.value].value;
      forall x, y | 0 <= x < w && 0 <= y < h
        ensures LastCompanyAt(companies[..j + 1], w, h, x, y)
             == if x == col.value && y == row.value then Some(j) else LastCompanyAt(companies[..j], w, h, x, y)
      {
        LastCompanyStep(companies, j, w, h, x, y);
      }
      cells := cells[col.value := cells[col.value][row.value := Some(sq.(company := Some(j)))]];
    }
    assert companies[..|companies|] == companies;
    return Success(cells);
  }


  /** Company.__eq__: equal to another Company with the same name, never to None. */
  function CompanyEquals(c: Company, other: Option<Company>): (r: bool)
    ensures r <==> other.Some? && other.value.name == c.name
  {
    other.Some? && other.value.name == c.name
  }

  /** Company equality is an equivalence on companies that ignores bus stops and lobbies. */
  lemma CompanyEqualsIsEquivalence(a: Company, b: Company, c: Company)
    ensures CompanyEquals(a, Some(a))
    ensures CompanyEquals(a, Some(b)) ==> CompanyEquals(b, Some(a))
    ensures CompanyEquals(a, Some(b)) && CompanyEquals(b, Some(c)) ==> CompanyEquals(a, Some(c))
    ensures CompanyEquals(a, Some(a.(busStop := b.busStop, passengers := b.passengers)))
  {
  }
}

=== FILE: player_brain.dfy ===
/**
 * The sample AI (myPlayerBrain.py): choosing which passengers to offer to pick up, choosing
 * where to drive when a status message arrives about this player, and the path it asks for.
 *
 * The ranking key of a passenger (100 * pointsDelivered divided by the length of two path
 * searches, a float) is a parameter `key`: only its order matters here.
 */
module PlayerBrain {
  import opened Wrappers
  import opened PyList
  import opened GameMap
  import opened Units
  import opened SimpleAStar
  import opened Framework

  // ---------------------------------------------------------------- calculatePathPlus1

  /** Each tile of the path is next to the one before it. */
  predicate Chain(path: seq<Tile>) {
    forall k :: 0 <= k < |path| - 1 ==> Adjacent(path[k], path[k + 1])
  }

  /**
   * calculatePathPlus1 (lines 131-137): the path from the limo to `dest`, plus, when it has more
   * than one tile, a step back off the bus stop to the tile the limo arrived from.
   */
  method CalculatePathPlus1(m: GameMap, from: Tile, dest: Tile) returns (r: Result<seq<Tile>, PathError>)
    requires WellFormed(m)
    ensures from == dest ==> r == Success([dest])
    ensures r.Success? ==> Chain(r.value) && (|r.value| == 1 || |r.value| >= 3)
    ensures r.Success? && |r.value| == 1 ==> r.value == [dest]
    ensures r.Success? && |r.value| >= 3 ==>
      r.value[|r.value| - 2] == dest && r.value[|r.value| - 1] == r.value[|r.value| - 3]
    ensures r.Success? ==> forall k :: 0 <= k < |r.value| ==> r.value[k] == from || DriveableAt(m, r.value[k])
  {
    r := CalculatePath(m, from, dest);
    if r.Failure? {
      return;
    }
    var path := r.value;
    if |path| > 1 {
      path := path + [path[|path| - 2]];
    }
    return Success(path);
  }

  // ---------------------------------------------------------------- allPickups

  /** Lines 152-155: a passenger this player may offer to pick up. */
  predicate Eligible(me: Player, passengers: seq<Passenger>, q: nat) {
    && q < |passengers|
    && q !in me.delivered
    && me.limo.passenger != Some(q)
    && passengers[q].car.None?
    && passengers[q].lobby.Some?
    && passengers[q].destination.Some?
  }

  /** Line 156: none of the passenger's enemies waits at the passenger's destination. */
  predicate NoEnemyWaiting(passengers: seq<Passenger>, companies: seq<Company>, q: nat) {
    && q < |passengers| && passengers[q].destination.Some? && passengers[q].destination.value < |companies|
    && var waiting := companies[passengers[q].destination.value].passengers;
       forall j :: 0 <= j < |passengers[q].enemies| ==> passengers[q].enemies[j] !in waiting
  }

  /** The positions 0 .. n-1 of a list, in order. */
  function Indices(n: nat): (r: seq<nat>)
    ensures |r| == n && forall i :: 0 <= i < n ==> r[i] == i
  {
    seq(n, i => i)
  }

  /** Lines 152-155: the passengers that pass the eligibility test, in roster order. */
  function Candidates(me: Player, passengers: seq<Passenger>): seq<nat> {
    Filter(Indices(|passengers|), (q: nat) => Eligible(me, passengers, q))
  }

  /** Some eligible passenger has no enemy waiting at its destination. */
  ghost predicate SomeFree(me: Player, passengers: seq<Passenger>, companies: seq<Company>) {
    exists q: nat :: Eligible(me, passengers, q) && NoEnemyWaiting(passengers, companies, q)
  }

  /** Lines 156-158: the candidates with no enemy at their destination, unless there are none. */
  function Chosen(me: Player, passengers: seq<Passenger>, companies: seq<Company>): seq<nat> {
    var pickup := Candidates(me, passengers);
    var free := Filter(pickup, (q: nat) => NoEnemyWaiting(passengers, companies, q));
    if |free| > 0 then free else pickup
  }

  /** allPickups (lines 144-168): the chosen passengers, best key first. */
  function AllPickups(me: Player, passengers: seq<Passenger>, companies: seq<Company>, key: nat -> int): seq<nat> {
    SortDescending(Chosen(me, passengers, companies), key)
  }

  /** Strictly increasing, as a list of positions taken in order is. */
  predicate Ascending(s: seq<nat>) {
    forall i, j :: 0 <= i < j < |s| ==> s[i] < s[j]
  }

  lemma {:induction false} FilterAscending(s: seq<nat>, f: nat -> bool)
    requires Ascending(s)
    ensures Ascending(Filter(s, f))
  {
    if s != [] {
      FilterAscending(s[1..], f);
      FilterMembers(s[1..], f);
      var rest := Filter(s[1..], f);
      forall j | 0 <= j < |rest| ensures s[0] < rest[j] {
        assert rest[j] in s[1..];
      }
    }
  }

  /** The candidates are exactly the eligible passengers, each once, in roster order. */
  lemma CandidatesAre(me: Player, passengers: seq<Passenger>)
    ensures forall q: nat :: q in Candidates(me, passengers) <==> Eligible(me, passengers, q)
    ensures Ascending(Candidates(me, passengers))
  {
    var f := (q: nat) => Eligible(me, passengers, q);
    FilterMembers(Indices(|passengers|), f);
    FilterAscending(Indices(|passengers|), f);
    forall q: nat | Eligible(me, passengers, q) ensures q in Indices(|passengers|) {
      assert Indices(|passengers|)[q] == q;
    }
  }

  /**
   * Lines 152-158: a passenger is chosen exactly when eligible and, if any eligible passenger
   * has no enemy waiting at its destination, has none either; each at most once, in roster order.
   */
  lemma ChosenAre(me: Player, passengers: seq<Passenger>, companies: seq<Company>)
    ensures forall q: nat :: q in Chosen(me, passengers, companies) <==>
      Eligible(me, passengers, q) && (SomeFree(me, passengers, companies) ==> NoEnemyWaiting(passengers, companies, q))
    ensures Ascending(Chosen(me, passengers, companies))
  {
    var pickup := Candidates(me, passengers);
    var f := (q: nat) => NoEnemyWaiting(passengers, companies, q);
    var free := Filter(pickup, f);
    CandidatesAre(me, passengers);
    FilterMembers(pickup, f);
    FilterAscending(pickup, f);
    if free != [] {
      assert free[0] in free;
    }
    if SomeFree(me, passengers, companies) {
      var q: nat :| Eligible(me, passengers, q) && NoEnemyWaiting(passengers, companies, q);
      assert q in free;
    }
  }

  // ---------------------------------------------------------------- sorted(..., reverse=True)

  /** Every entry has a key no smaller than any entry after it. */
  predicate NonIncreasing(s: seq<nat>, key: nat -> int) {
    forall i, j :: 0 <= i < j < |s| ==> key(s[i]) >= key(s[j])
  }

  /** The entries of `s` whose key is k, in their order in `s`. */
  function WithKey(s: seq<nat>, key: nat -> int, k: int): seq<nat> {
    Filter(s, (x: nat) => key(x) == k)
  }

  /** Place x in a list sorted best first, ahead of every entry whose key is not greater. */
  function Insert(x: nat, t: seq<nat>, key: nat -> int): seq<nat> {
    if t == [] || key(t[0]) <= key(x) then [x] + t else [t[0]] + Insert(x, t[1..], key)
  }

  /** `sorted(s, key=key, reverse=True)`: best key first, equal keys in their original order. */
  function SortDescending(s: seq<nat>, key: nat -> int): seq<nat> {
    if s == [] then [] else Insert(s[0], SortDescending(s[1..], key), key)
  }

  lemma {:induction false} InsertPermutes(x: nat, t: seq<nat>, key: nat -> int)
    ensures multiset(Insert(x, t, key)) == multiset{x} + multiset(t)
  {
    if t != [] && key(t[0]) > key(x) {
      InsertPermutes(x, t[1..], key);
      assert t == [t[0]] + t[1..];
    }
  }

  lemma {:induction false} InsertSorted(x: nat, t: seq<nat>, key: nat -> int)
    requires NonIncreasing(t, key)
    ensures NonIncreasing(Insert(x, t, key), key)
  {
    if t != [] && key(t[0]) > key(x) {
      InsertSorted(x, t[1..], key);
      InsertPermutes(x, t[1..], key);
      var rest := Insert(x, t[1..], key);
      forall j | 0 <= j < |rest| ensures key(t[0]) >= key(rest[j]) {
        assert rest[j] in multiset(rest);
        if rest[j] != x {
          assert rest[j] in t[1..];
        }
      }
    }
  }

  lemma {:induction false} InsertStable(x: nat, t: seq<nat>, key: nat -> int, k: int)
    requires NonIncreasing(t, key)
    ensures WithKey(Insert(x, t, key), key, k) == (if key(x) == k then [x] else []) + WithKey(t, key, k)
  {
    var f := (y: nat) => key(y) == k;
    if t == [] || key(t[0]) <= key(x) {
      assert ([x] + t)[1..] == t;
    } else {
      InsertStable(x, t[1..], key, k);
      assert ([t[0]] + Insert(x, t[1..], key))[1..] == Insert(x, t[1..], key);
    }
  }

  /**
   * Python's sort is stable also with reverse=True: the result is a permutation of the input,
   * best key first, and the entries sharing a key keep their order.
   */
  lemma {:induction false} SortDescendingCorrect(s: seq<nat>, key: nat -> int)
    ensures multiset(SortDescending(s, key)) == multiset(s)
    ensures NonIncreasing(SortDescending(s, key), key)
    ensures forall k :: WithKey(SortDescending(s, key), key, k) == WithKey(s, key, k)
  {
    if s != [] {
      var rest := SortDescending(s[1..], key);
      SortDescendingCorrect(s[1..], key);
      InsertPermutes(s[0], rest, key);
      InsertSorted(s[0], rest, key);
      assert s == [s[0]] + s[1..];
      forall k ensures WithKey(SortDescending(s, key), key, k) == WithKey(s, key, k) {
        InsertStable(s[0], rest, key, k);
      }
    }
  }

  /** A list taken in strictly increasing order holds each entry once. */
  lemma {:induction false} AscendingCountsOnce(s: seq<nat>, x: nat)
    requires Ascending(s)
    ensures multiset(s)[x] <= 1
  {
    if s != [] {
      AscendingCountsOnce(s[1..], x);
      assert s == [s[0]] + s[1..];
      if x == s[0] {
        assert x !in s[1..];
      }
    }
  }

  lemma PermutationOfOnce(r: seq<nat>, s: seq<nat>)
    requires multiset(r) == multiset(s) && Ascending(s)
    ensures NoDuplicates(r)
  {
    forall i, j | 0 <= i < j < |r| ensures r[i] != r[j] {
      if r[i] == r[j] {
        assert r == r[..j] + r[j..];
        assert r[i] in r[..j] && r[j] in r[j..];
        assert multiset(r)[r[i]] == multiset(r[..j])[r[i]] + multiset(r[j..])[r[i]];
        AscendingCountsOnce(s, r[i]);
        assert false;
      }
    }
  }

  /**
   * allPickups (lines 144-168): the passengers it returns are exactly the chosen ones, each once,
   * best key first, with ties in roster order.
   */
  lemma AllPickupsCorrect(me: Player, passengers: seq<Passenger>, companies: seq<Company>, key: nat -> int)
    ensures var r := AllPickups(me, passengers, companies, key);
      && (forall q: nat :: q in r <==>
            Eligible(me, passengers, q) && (SomeFree(me, passengers, companies) ==> NoEnemyWaiting(passengers, companies, q)))
      && NoDuplicates(r)
      && NonIncreasing(r, key)
      && multiset(r) == multiset(Chosen(me, passengers, companies))
      && forall k :: WithKey(r, key, k) == WithKey(Chosen(me, passengers, companies), key, k)
  {
    var chosen := Chosen(me, passengers, companies);
    var r := AllPickups(me, passengers, companies, key);
    ChosenAre(me, passengers, companies);
    SortDescendingCorrect(chosen, key);
    PermutationOfOnce(r, chosen);
    forall q: nat ensures q in r <==> q in chosen {
      assert q in r <==> q in multiset(r);
    }
  }

  /** Every passenger in the pick-up list is eligible and refers to a company that exists. */
  lemma AllPickupsInRange(players: seq<Player>, passengers: seq<Passenger>, companies: seq<Company>, me: nat, key: nat -> int)
    requires Consistent(players, passengers, companies) && me < |players|
    ensures var r := AllPickups(players[me], passengers, companies, key);
      forall i :: 0 <= i < |r| ==>
        Eligible(players[me], passengers, r[i]) && passengers[r[i]].lobby.value < |companies|
        && passengers[r[i]].destination.value < |companies|
  {
    AllPickupsCorrect(players[me], passengers, companies, key);
    var r := AllPickups(players[me], passengers, companies, key);
    forall i | 0 <= i < |r| ensures Eligible(players[me], passengers, r[i]) {
      assert r[i] in r;
    }
  }

  // ---------------------------------------------------------------- gameStatus

  /** The exceptions gameStatus and setup let escape. */
  datatype BrainError =
    | UndefinedName                   // Player.__eq__ calls the undefined `instanceof`: NameError
    | NoPickup                        // pickup[0] of an empty list: IndexError
    | NoPassenger                     // None.destination on an empty limo: AttributeError
    | NoDestination                   // None.busStop for a passenger without destination: AttributeError
    | UnknownStatus(status: string)   // raised on purpose for a status it does not know: TypeError
    | NotATile                        // a company subscripted as a tile by calculatePath: TypeError
    | PathFailed(pathError: PathError)
    | OrdersFailed(ordersError: FrameworkError)

  /** Where to drive and the pick-up list to send; an empty list means "no pick-up element". */
  datatype Plan = Plan(dest: Tile, pickup: seq<nat>)

  /**
   * `pickup[0].lobby.busStop` for the freshly chosen pick-up list: an IndexError when the list is
   * empty, otherwise the bus stop of the best pick-up's lobby, with the whole list.
   */
  function FirstLobbyStop(players: seq<Player>, passengers: seq<Passenger>, companies: seq<Company>, me: nat, key: nat -> int)
    : (r: Result<Option<Plan>, BrainError>)
    requires Consistent(players, passengers, companies) && me < |players|
    ensures r.Failure? <==> AllPickups(players[me], passengers, companies, key) == []
    ensures r.Failure? ==> r.error == NoPickup
    ensures r.Success? ==>
      var pickup := AllPickups(players[me], passengers, companies, key);
      && r.value.Some? && r.value.value.pickup == pickup
      && Eligible(players[me], passengers, pickup[0]) && passengers[pickup[0]].lobby.value < |companies|
      && r.value.value.dest == companies[passengers[pickup[0]].lobby.value].busStop
  {
    var pickup := AllPickups(players[me], passengers, companies, key);
    AllPickupsInRange(players, passengers, companies, me, key);
    if pickup == [] then Failure(NoPickup)
    else Success(Some(Plan(companies[passengers[pickup[0]].lobby.value].busStop, pickup)))
  }

  /**
   * `limo.passenger.destination.busStop`: an AttributeError on an empty limo or a passenger without
   * destination, otherwise the bus stop of the carried passenger's destination.
   */
  function PassengerStop(players: seq<Player>, passengers: seq<Passenger>, companies: seq<Company>, me: nat, pickup: seq<nat>)
    : (r: Result<Option<Plan>, BrainError>)
    requires Consistent(players, passengers, companies) && me < |players|
    ensures players[me].limo.passenger.None? ==> r == Failure(NoPassenger)
    ensures players[me].limo.passenger.Some? ==>
      var q := players[me].limo.passenger.value;
      && q < |passengers|
      && (passengers[q].destination.None? ==> r == Failure(NoDestination))
      && (passengers[q].destination.Some? ==>
            passengers[q].destination.value < |companies|
            && r == Success(Some(Plan(companies[passengers[q].destination.value].busStop, pickup))))
  {
    match players[me].limo.passenger
    case None => Failure(NoPassenger)
    case Some(q) =>
      match passengers[q].destination
      case None => Failure(NoDestination)
      case Some(c) => Success(Some(Plan(companies[c].busStop, pickup)))
  }

  predicate IsNoAction(status: string) { status == "PASSENGER_NO_ACTION" || status == "NO_PATH" }
  predicate IsFreed(status: string) { status == "PASSENGER_DELIVERED" || status == "PASSENGER_ABANDONED" }
  predicate IsPickedUp(status: string) { status == "PASSENGER_DELIVERED_AND_PICKED_UP" || status == "PASSENGER_PICKED_UP" }

  /**
   * The choice of gameStatus (lines 94-120), as intended: nothing for another player or an
   * UPDATE, otherwise a destination and pick-up list by status. `about` is playerStatus.
   */
  function Dispatch(players: seq<Player>, passengers: seq<Passenger>, companies: seq<Company>,
                    me: nat, about: nat, status: string, key: nat -> int): (r: Result<Option<Plan>, BrainError>)
    requires Consistent(players, passengers, companies) && me < |players| && about < |players|
  {
    if about != me || status == "UPDATE" then Success(None)
    else if IsNoAction(status) then
      if players[me].limo.passenger.None? then FirstLobbyStop(players, passengers, companies, me, key)
      else PassengerStop(players, passengers, companies, me, [])
    else if IsFreed(status) || status == "PASSENGER_REFUSED" then FirstLobbyStop(players, passengers, companies, me, key)
    else if IsPickedUp(status) then PassengerStop(players, passengers, companies, me, AllPickups(players[me], passengers, companies, key))
    else Failure(UnknownStatus(status))
  }

  /** The same choice as the code writes it (see the findings in the README). */
  function DispatchAsWritten(players: seq<Player>, passengers: seq<Passenger>, companies: seq<Company>,
                             me: nat, about: nat, status: string, key: nat -> int): (r: Result<Option<Plan>, BrainError>)
    requires Consistent(players, passengers, companies) && me < |players| && about < |players|
  {
    if about != me || status == "UPDATE" then Success(None)
    // `playerStatus == self.me` calls Player.__eq__
    else if IsNoAction(status) then Failure(UndefinedName)
    else if IsFreed(status) then FirstLobbyStop(players, passengers, companies, me, key)
    // ptDest is the lobby company itself; calculatePath fails on `end[0]`
    else if status == "PASSENGER_REFUSED" then
      if AllPickups(players[me], passengers, companies, key) == [] then Failure(NoPickup) else Failure(NotATile)
    else if IsPickedUp(status) then PassengerStop(players, passengers, companies, me, AllPickups(players[me], passengers, companies, key))
    else Failure(UnknownStatus(status))
  }

  /**
   * The dispatch does nothing for other players and UPDATE, and treats as unknown exactly the
   * statuses outside the server's list.
   */
  lemma DispatchStatuses(players: seq<Player>, passengers: seq<Passenger>, companies: seq<Company>,
                         me: nat, about: nat, status: string, key: nat -> int)
    requires Consistent(players, passengers, companies) && me < |players| && about < |players|
    ensures var r := Dispatch(players, passengers, companies, me, about, status, key);
      && (about != me || status == "UPDATE" ==> r == Success(None))
      && (r.Failure? && r.error.UnknownStatus? <==> about == me && status !in STATUS)
      && (r == Failure(NoPickup) ==> AllPickups(players[me], passengers, companies, key) == [])
  {
  }

  /** Every destination chosen is a company's bus stop, and a pick-up list sent is always allPickups. */
  lemma DispatchPlan(players: seq<Player>, passengers: seq<Passenger>, companies: seq<Company>,
                     me: nat, about: nat, status: string, key: nat -> int)
    requires Consistent(players, passengers, companies) && me < |players| && about < |players|
    ensures var r := Dispatch(players, passengers, companies, me, about, status, key);
      r.Success? && r.value.Some? ==>
        && (exists c :: 0 <= c < |companies| && r.value.value.dest == companies[c].busStop)
        && (r.value.value.pickup == [] || r.value.value.pickup == AllPickups(players[me], passengers, companies, key))
  {
    AllPickupsInRange(players, passengers, companies, me, key);
    var r := Dispatch(players, passengers, companies, me, about, status, key);
    if r.Success? && r.value.Some? {
      var pickup := AllPickups(players[me], passengers, companies, key);
      if pickup != [] && r.value.value == Plan(companies[passengers[pickup[0]].lobby.value].busStop, pickup) {
        assert r.value.value.dest == companies[passengers[pickup[0]].lobby.value].busStop;
      } else {
        var q := players[me].limo.passenger.value;
        assert r.value.value.dest == companies[passengers[q].destination.value].busStop;
      }
    }
  }

  /** After a delivery, an abandonment, a refusal, or no action with an empty limo: the first pick-up's lobby. */
  lemma DispatchToLobby(players: seq<Player>, passengers: seq<Passenger>, companies: seq<Company>,
                        me: nat, status: string, key: nat -> int)
    requires Consistent(players, passengers, companies) && me < |players|
    requires IsFreed(status) || status == "PASSENGER_REFUSED" || (IsNoAction(status) && players[me].limo.passenger.None?)
    ensures var r := Dispatch(players, passengers, companies, me, me, status, key);
      var pickup := AllPickups(players[me], passengers, companies, key);
      && (pickup == [] <==> r == Failure(NoPickup))
      && (pickup != [] ==>
            && Eligible(players[me], passengers, pickup[0]) && passengers[pickup[0]].lobby.value < |companies|
            && r == Success(Some(Plan(companies[passengers[pickup[0]].lobby.value].busStop, pickup))))
  {
    AllPickupsInRange(players, passengers, companies, me, key);
  }

  /** After a pick-up, or no action with a passenger aboard: the carried passenger's destination. */
  lemma DispatchToDestination(players: seq<Player>, passengers: seq<Passenger>, companies: seq<Company>,
                              me: nat, status: string, key: nat -> int)
    requires Consistent(players, passengers, companies) && me < |players|
    requires IsPickedUp(status) || (IsNoAction(status) && players[me].limo.passenger.Some?)
    ensures var r := Dispatch(players, passengers, companies, me, me, status, key);
      && (players[me].limo.passenger.None? <==> r == Failure(NoPassenger))
      && (players[me].limo.passenger.Some? ==>
            var q := players[me].limo.passenger.value;
            && q < |passengers|
            && (passengers[q].destination.None? <==> r == Failure(NoDestination))
            && (passengers[q].destination.Some? ==>
                  && passengers[q].destination.value < |companies|
                  && r.Success? && r.value.Some?
                  && r.value.value.dest == companies[passengers[q].destination.value].busStop
                  && r.value.value.pickup == (if IsPickedUp(status) then AllPickups(players[me], passengers, companies, key) else [])))
  {
  }

  /** Finding: for NO_PATH and PASSENGER_NO_ACTION about this player the code raises NameError. */
  lemma NoActionRaisesAsWritten(players: seq<Player>, passengers: seq<Passenger>, companies: seq<Company>,
                                me: nat, status: string, key: nat -> int)
    requires Consistent(players, passengers, companies) && me < |players| && IsNoAction(status)
    ensures DispatchAsWritten(players, passengers, companies, me, me, status, key) == Failure(UndefinedName)
    ensures Dispatch(players, passengers, companies, me, me, status, key) != Failure(UndefinedName)
    ensures players[me].limo.passenger.None? && AllPickups(players[me], passengers, companies, key) != [] ==>
      Dispatch(players, passengers, companies, me, me, status, key).Success?
  {
  }

  /** Finding: for PASSENGER_REFUSED the code hands the lobby company, not its bus stop, to the path search. */
  lemma RefusedRaisesAsWritten(players: seq<Player>, passengers: seq<Passenger>, companies: seq<Company>,
                               me: nat, key: nat -> int)
    requires Consistent(players, passengers, companies) && me < |players|
    requires AllPickups(players[me], passengers, companies, key) != []
    ensures DispatchAsWritten(players, passengers, companies, me, me, "PASSENGER_REFUSED", key) == Failure(NotATile)
    ensures var pickup := AllPickups(players[me], passengers, companies, key);
      && Eligible(players[me], passengers, pickup[0]) && passengers[pickup[0]].lobby.value < |companies|
      && Dispatch(players, passengers, companies, me, me, "PASSENGER_REFUSED", key)
        == Success(Some(Plan(companies[passengers[pickup[0]].lobby.value].busStop, pickup)))
  {
    AllPickupsInRange(players, passengers, companies, me, key);
  }

  /** Apart from those two statuses the code does what is intended. */
  lemma AsWrittenElsewhereAgrees(players: seq<Player>, passengers: seq<Passenger>, companies: seq<Company>,
                                 me: nat, about: nat, status: string, key: nat -> int)
    requires Consistent(players, passengers, companies) && me < |players| && about < |players|
    requires about != me || !(IsNoAction(status) || status == "PASSENGER_REFUSED")
    ensures DispatchAsWritten(players, passengers, companies, me, about, status, key)
         == Dispatch(players, passengers, companies, me, about, status, key)
  {
  }

  /**
   * What driving to `plan` did, `before` and `after` being the players: it fails only for want of
   * a path, and then changes nothing, or for a pick-up name, and then the path and the pick-up
   * list are stored all the same (sendOrders sets both before it names the passengers). Otherwise
   * the order carries the path, which runs one step at a time to the destination and back, and
   * the names of the pick-up list.
   */
  ghost predicate Drove(before: seq<Player>, after: seq<Player>, passengers: seq<Passenger>, me: nat,
                        order: string, plan: Plan, r: Result<Orders, BrainError>)
  {
    && me < |before| && |after| == |before|
    && (forall k :: 0 <= k < |plan.pickup| ==> plan.pickup[k] < |passengers|)
    && (r.Failure? ==> r.error.PathFailed? || r.error.OrdersFailed?)
    && (r.Failure? && r.error.PathFailed? ==> after == before)
    && (r.Failure? && r.error.OrdersFailed? ==>
          plan.pickup != [] && PickupText(passengers, plan.pickup) == Failure(r.error.ordersError))
    && (!(r.Failure? && r.error.PathFailed?) ==>
          var p, path := before[me], after[me].limo.path;
          && after == before[me := p.(limo := p.limo.(path := path),
                                      pickup := if plan.pickup == [] then p.pickup else plan.pickup)]
          && |path| >= 1 && Chain(path) && (|path| == 1 ==> path == [plan.dest])
          && (|path| >= 3 ==> path[|path| - 2] == plan.dest && path[|path| - 1] == path[|path| - 3]))
    && (r.Success? ==>
          && (plan.pickup == [] || PickupText(passengers, plan.pickup).Success?)
          && r.value == Orders(order, Some(PathText(after[me].limo.path)),
                               if plan.pickup == [] then None else Some(PickupText(passengers, plan.pickup).value)))
  }

  /** Ask for the path to the plan's destination and send it with the plan's pick-up list. */
  method Drive(state: GameState, m: GameMap, me: nat, order: string, plan: Plan) returns (r: Result<Orders, BrainError>)
    requires state.Valid() && WellFormed(m) && me < |state.players|
    requires forall k :: 0 <= k < |plan.pickup| ==> plan.pickup[k] < |state.passengers|
    modifies state`players
    ensures state.Valid()
    ensures Drove(old(state.players), state.players, state.passengers, me, order, plan, r)
  {
    var path := CalculatePathPlus1(m, state.players[me].limo.tilePosition, plan.dest);
    if path.Failure? {
      r := Failure(PathFailed(path.error));
      NoPathDrove(state.players, state.passengers, me, order, plan, r);
      return;
    }
    ghost var before := state.players;
    var sent := SendOrders(state, me, order, path.value, plan.pickup);
    r := if sent.Failure? then Failure(OrdersFailed(sent.error)) else Success(sent.value);
    SentDrove(before, state.players, state.passengers, me, order, plan, path.value, sent, r);
  }

  /** Without a path nothing is stored and nothing is sent. */
  lemma NoPathDrove(players: seq<Player>, passengers: seq<Passenger>, me: nat, order: string, plan: Plan,
                    r: Result<Orders, BrainError>)
    requires me < |players| && forall k :: 0 <= k < |plan.pickup| ==> plan.pickup[k] < |passengers|
    requires r.Failure? && r.error.PathFailed?
    ensures Drove(players, players, passengers, me, order, plan, r)
  {
  }

  /** The orders sendOrders built from a path CalculatePathPlus1 found are what Drove says. */
  lemma SentDrove(before: seq<Player>, after: seq<Player>, passengers: seq<Passenger>, me: nat, order: string,
                  plan: Plan, path: seq<Tile>, sent: Result<Orders, FrameworkError>, r: Result<Orders, BrainError>)
    requires me < |before| && forall k :: 0 <= k < |plan.pickup| ==> plan.pickup[k] < |passengers|
    requires Chain(path) && (|path| == 1 || |path| >= 3)
    requires |path| == 1 ==> path == [plan.dest]
    requires |path| >= 3 ==> path[|path| - 2] == plan.dest && path[|path| - 1] == path[|path| - 3]
    requires var p := before[me];
      var p' := p.(limo := if path == [] then p.limo else p.limo.(path := path),
                   pickup := if plan.pickup == [] then p.pickup else plan.pickup);
      after == before[me := p']
    requires sent.Success? <==> plan.pickup == [] || PickupText(passengers, plan.pickup).Success?
    requires sent.Failure? ==> PickupText(passengers, plan.pickup) == Failure(sent.error)
    requires sent.Success? ==> sent.value.order == order
    requires sent.Success? ==> (sent.value.path.Some? <==> path != []) && (path != [] ==> sent.value.path == Some(PathText(path)))
    requires sent.Success? ==>
      && (sent.value.pickup.Some? <==> plan.pickup != [])
      && (plan.pickup != [] ==> sent.value.pickup == Some(PickupText(passengers, plan.pickup).value))
    requires r == if sent.Failure? then Failure(OrdersFailed(sent.error)) else Success(sent.value)
    ensures Drove(before, after, passengers, me, order, plan, r)
  {
    assert after[me].limo.path == path;
  }

  /**
   * gameStatus (lines 70-129) with both findings corrected: the dispatch, then the path and the
   * "move" order. Nothing changes and nothing is sent when the dispatch chooses nothing or fails.
   */
  method GameStatus(state: GameState, m: GameMap, me: nat, about: nat, status: string, key: nat -> int)
    returns (r: Result<Option<Orders>, BrainError>)
    requires state.Valid() && WellFormed(m) && me < |state.players| && about < |state.players|
    modifies state`players
    ensures state.Valid() && |state.players| == |old(state.players)|
    ensures var d := Dispatch(old(state.players), state.passengers, state.companies, me, about, status, key);
      && (d.Failure? ==> r == Failure(d.error) && state.players == old(state.players))
      && (d == Success(None) ==> r == Success(None) && state.players == old(state.players))
      && (d.Success? && d.value.Some? ==>
            && (r.Success? ==> r.value.Some?)
            && Drove(old(state.players), state.players, state.passengers, me, "move", d.value.value,
                     if r.Failure? then Failure(r.error) else Success(r.value.value)))
  {
    var d := Dispatch(state.players, state.passengers, state.companies, me, about, status, key);
    if d.Failure? {
      return Failure(d.error);
    }
    if d.value.None? {
      return Success(None);
    }
    var plan := d.value.value;
    assert forall k :: 0 <= k < |plan.pickup| ==> plan.pickup[k] < |state.passengers| by {
      AllPickupsInRange(state.players, state.passengers, state.companies, me, key);
      DispatchPlan(state.players, state.passengers, state.companies, me, about, status, key);
    }
    var sent := Drive(state, m, me, "move", plan);
    if sent.Failure? {
      return Failure(sent.error);
    }
    return Success(Some(sent.value));
  }

  /**
   * setup (lines 45-68): the first pick-up list, the path to the first passenger's lobby and the
   * "ready" order.
   */
  method Setup(state: GameState, m: GameMap, me: nat, key: nat -> int) returns (r: Result<Orders, BrainError>)
    requires state.Valid() && WellFormed(m) && me < |state.players|
    modifies state`players
    ensures state.Valid() && |state.players| == |old(state.players)|
    ensures var pickup := AllPickups(old(state.players)[me], state.passengers, state.companies, key);
      && (pickup == [] ==> r == Failure(NoPickup) && state.players == old(state.players))
      && (pickup != [] ==>
            && Eligible(old(state.players)[me], state.passengers, pickup[0])
            && state.passengers[pickup[0]].lobby.value < |state.companies|
            && var stop := state.companies[state.passengers[pickup[0]].lobby.value].busStop;
               Drove(old(state.players), state.players, state.passengers, me, "ready", Plan(stop, pickup), r))
  {
    var plan := FirstLobbyStop(state.players, state.passengers, state.companies, me, key);
    if plan.Failure? {
      return Failure(plan.error);
    }
    AllPickupsInRange(state.players, state.passengers, state.companies, me, key);
    r := Drive(state, m, me, "ready", plan.value.value);
  }
}

=== FILE: pylist.dfy ===
/** List idioms of the Python source that several modules share. */
module PyList {
  import opened Wrappers

  /** `[x for x in s if f(x)][0]`, as an index; None where the list comprehension is empty. */
  function FirstWhere<T>(s: seq<T>, f: T -> bool): (r: Option<nat>)
    ensures r.Some? ==> r.value < |s| && f(s[r.value]) && forall k :: 0 <= k < r.value ==> !f(s[k])
    ensures r.None? ==> forall k :: 0 <= k < |s| ==> !f(s[k])
  {
    if s == [] then None
    else if f(s[0]) then Some(0)
    else match FirstWhere(s[1..], f)
      case None => None
      case Some(i) => Some(i + 1)
  }

  /** Two lists on which `f` agrees position by position have the same first match. */
  lemma FirstWhereAgree<T>(s: seq<T>, t: seq<T>, f: T -> bool)
    requires |s| == |t| && forall k :: 0 <= k < |s| ==> f(s[k]) == f(t[k])
    ensures FirstWhere(s, f) == FirstWhere(t, f)
  {
    if s != [] {
      FirstWhereAgree(s[1..], t[1..], f);
    }
  }

  /** Two tests that agree on every element find the same first match. */
  lemma FirstWhereAgreeFunctions<T>(s: seq<T>, f: T -> bool, g: T -> bool)
    requires forall i :: 0 <= i < |s| ==> f(s[i]) == g(s[i])
    ensures FirstWhere(s, f) == FirstWhere(s, g)
  {
    if s != [] {
      FirstWhereAgreeFunctions(s[1..], f, g);
    }
  }

  /** Python 2's `filter(f, s)` and `[x for x in s if f(x)]`: the elements passing `f`, in order. */
  function Filter<T>(s: seq<T>, f: T -> bool): (r: seq<T>)
    ensures |r| <= |s|
  {
    if s == [] then [] else (if f(s[0]) then [s[0]] else []) + Filter(s[1..], f)
  }

  /** An element survives the filter exactly when it is in the list and passes the test. */
  lemma {:induction false} FilterMembers<T>(s: seq<T>, f: T -> bool)
    ensures forall x :: x in Filter(s, f) <==> x in s && f(x)
  {
    if s != [] {
      FilterMembers(s[1..], f);
      assert s == [s[0]] + s[1..];
    }
  }

  /** Filtering a concatenation filters each part. */
  lemma {:induction false} FilterAppend<T>(s: seq<T>, t: seq<T>, f: T -> bool)
    ensures Filter(s + t, f) == Filter(s, f) + Filter(t, f)
  {
    if s != [] {
      assert (s + t)[1..] == s[1..] + t;
      FilterAppend(s[1..], t, f);
    } else {
      assert s + t == t;
    }
  }

}

=== FILE: simple_a_star.dfy ===
/**
 * The sample path search (simpleAStar.py). TrailPoint objects live in an arena: a sequence
 * of records whose neighbour lists hold arena indices, so a field update of a TrailPoint is
 * an update of one arena entry. `nodes` maps a tile to the index of the point walked there,
 * and the frontier (notEvaluated) is a list of indices.
 */
module SimpleAStar {
  import opened Wrappers
  import opened PyList
  import opened GameMap

  /** The four axis-aligned steps a limo can take. */
  const OFFSETS: seq<Tile> := [(-1, 0), (1, 0), (0, -1), (0, 1)]
  /** The distance a dead end reports. */
  const DEAD_END: int := 10000
  /** The caller tile of the first recalculation: no point has it unless the start is off the map. */
  const POINT_OFF_MAP: Tile := (-1, -1)

  /** The exceptions the search raises: `nodes[end]` (KeyError) and `min` of no neighbours (ValueError). */
  datatype PathError = NoRoute | NoNeighbours

  /** A TrailPoint: its tile, the arena indices of its neighbours, its estimate to the end, its cost from the start. */
  datatype TrailPoint = TrailPoint(tile: Tile, neighbors: seq<nat>, distance: int, cost: int)

  function Abs(x: int): nat { if x < 0 then -x else x }

  function Manhattan(p: Tile, q: Tile): nat { Abs(p.0 - q.0) + Abs(p.1 - q.1) }

  predicate Adjacent(p: Tile, q: Tile) { Manhattan(p, q) == 1 }

  function Shift(p: Tile, d: Tile): Tile { (p.0 + d.0, p.1 + d.1) }

  /** The four offsets lead to four different tiles, each adjacent to the one left. */
  lemma OffsetsAdjacent(p: Tile)
    ensures forall k :: 0 <= k < |OFFSETS| ==> Adjacent(Shift(p, OFFSETS[k]), p)
    ensures forall j, k :: 0 <= j < k < |OFFSETS| ==> Shift(p, OFFSETS[j]) != Shift(p, OFFSETS[k])
  {
  }

  /** TrailPoint.__init__: no neighbours yet, the given cost, and the Manhattan distance to the end. */
  function NewTrailPoint(point: Tile, end: Tile, cost: int): (r: TrailPoint)
    ensures r.tile == point && r.neighbors == [] && r.cost == cost
    ensures r.distance == Manhattan(point, end)
    ensures r.distance == 0 <==> point == end
  {
    TrailPoint(point, [], Abs(point.0 - end.0) + Abs(point.1 - end.1), cost)
  }

  /** The fresh estimate is consistent: one step changes it by exactly one. */
  lemma EstimateConsistent(p: Tile, q: Tile, end: Tile)
    requires Adjacent(p, q)
    ensures NewTrailPoint(p, end, 0).distance == NewTrailPoint(q, end, 0).distance + 1
         || NewTrailPoint(p, end, 0).distance + 1 == NewTrailPoint(q, end, 0).distance
  {
  }

  // ---------------------------------------------------------------- the arena

  /** Every neighbour index is in the arena, and each neighbour's tile is adjacent. */
  predicate Linked(points: seq<TrailPoint>) {
    forall k, j :: 0 <= k < |points| && 0 <= j < |points[k].neighbors| ==>
      points[k].neighbors[j] < |points| && Adjacent(points[points[k].neighbors[j]].tile, points[k].tile)
  }

  /** Only distances differ: same tiles, same neighbour lists, same costs. */
  predicate SameGraph(a: seq<TrailPoint>, b: seq<TrailPoint>) {
    |a| == |b| && forall k :: 0 <= k < |a| ==> a[k].tile == b[k].tile && a[k].neighbors == b[k].neighbors && a[k].cost == b[k].cost
  }

  lemma LinkedSameGraph(a: seq<TrailPoint>, b: seq<TrailPoint>)
    requires Linked(a) && SameGraph(a, b)
    ensures Linked(b)
  {
    forall k, j | 0 <= k < |b| && 0 <= j < |b[k].neighbors|
      ensures b[k].neighbors[j] < |b| && Adjacent(b[b[k].neighbors[j]].tile, b[k].tile)
    {
      assert b[k].neighbors[j] == a[k].neighbors[j];
    }
  }

  predicate IndicesIn(points: seq<TrailPoint>, s: seq<nat>) {
    forall j :: 0 <= j < |s| ==> s[j] < |points|
  }

  /** `min(s, key=lambda n: n.distance).distance`. */
  function MinDistance(points: seq<TrailPoint>, s: seq<nat>): (d: int)
    requires |s| > 0 && IndicesIn(points, s)
    ensures exists j :: 0 <= j < |s| && d == points[s[j]].distance
    ensures forall j :: 0 <= j < |s| ==> d <= points[s[j]].distance
  {
    if |s| == 1 then points[s[0]].distance
    else
      var rest := MinDistance(points, s[1..]);
      assert forall j :: 1 <= j < |s| ==> s[j] == s[1..][j - 1];
      if points[s[0]].distance <= rest then points[s[0]].distance else rest
  }

  lemma MinDistanceAgree(a: seq<TrailPoint>, b: seq<TrailPoint>, s: seq<nat>)
    requires |s| > 0 && IndicesIn(a, s) && IndicesIn(b, s)
    requires forall j :: 0 <= j < |s| ==> a[s[j]].distance == b[s[j]].distance
    ensures MinDistance(a, s) == MinDistance(b, s)
  {
    var x, y := MinDistance(a, s), MinDistance(b, s);
    var i :| 0 <= i < |s| && x == a[s[i]].distance;
    var j :| 0 <= j < |s| && y == b[s[j]].distance;
    assert x <= a[s[j]].distance && y <= b[s[i]].distance;
  }

  /** "One more than the lowest neighbour, unless that is a dead end." */
  function StepUp(d: int): (r: int)
    ensures d == DEAD_END ==> r == DEAD_END
    ensures d != DEAD_END ==> r == d + 1
  {
    if d == DEAD_END then d else d + 1
  }

  /** The first estimate recalculateDistance computes for a point with neighbours. */
  function Shortest(points: seq<TrailPoint>, self: nat): (d: int)
    requires self < |points| && |points[self].neighbors| > 0 && IndicesIn(points, points[self].neighbors)
    ensures |points[self].neighbors| == 1 ==> d == DEAD_END
    ensures |points[self].neighbors| > 1 ==> d == StepUp(MinDistance(points, points[self].neighbors))
  {
    if |points[self].neighbors| == 1 then DEAD_END else StepUp(MinDistance(points, points[self].neighbors))
  }

  /** `[n for n in s if n.mapTile != caller]`. */
  function Except(points: seq<TrailPoint>, s: seq<nat>, caller: Tile): (r: seq<nat>)
    requires IndicesIn(points, s)
    ensures IndicesIn(points, r)
    ensures forall n :: n in r <==> n in s && points[n].tile != caller
  {
    if s == [] then []
    else if points[s[0]].tile != caller then [s[0]] + Except(points, s[1..], caller)
    else Except(points, s[1..], caller)
  }

  lemma LinkedIndices(points: seq<TrailPoint>, k: nat)
    requires Linked(points) && k < |points|
    ensures IndicesIn(points, points[k].neighbors)
    ensures k !in points[k].neighbors
  {
  }

  /** The loop of recalculateDistance: recalculate each of `targets` in turn, `caller` being the point that changed. */
  method PushDistance(points: seq<TrailPoint>, targets: seq<nat>, caller: Tile, remainingSteps: int) returns (after: seq<TrailPoint>)
    requires Linked(points) && forall i :: 0 <= i < |targets| ==> targets[i] < |points|
    ensures SameGraph(points, after)
    ensures forall k :: 0 <= k < |points| && points[k].neighbors == [] ==> after[k] == points[k]
    decreases if remainingSteps < 0 then 0 else remainingSteps + 1, 3
  {
    after := points;
    for i := 0 to |targets|
      invariant SameGraph(points, after)
      invariant forall k :: 0 <= k < |points| && points[k].neighbors == [] ==> after[k] == points[k]
    {
      LinkedSameGraph(points, after);
      after := RecalculateDistance(after, targets[i], caller, remainingSteps);
    }
  }

  /**
   * TrailPoint.recalculateDistance: re-estimate one point from its neighbours and, when the
   * estimate changed and the step budget is not exhausted, push the change to every neighbour
   * except the caller, then re-estimate once more.
   */
  method RecalculateDistance(points: seq<TrailPoint>, self: nat, caller: Tile, remainingSteps: int) returns (after: seq<TrailPoint>)
    requires Linked(points) && self < |points|
    ensures SameGraph(points, after)
    ensures forall k :: 0 <= k < |points| && points[k].neighbors == [] ==> after[k] == points[k]
    ensures points[self].neighbors == [] ==> after == points
    ensures points[self].neighbors != [] ==> IndicesIn(points, points[self].neighbors) && IndicesIn(after, points[self].neighbors)
    ensures points[self].neighbors != [] && Shortest(points, self) == points[self].distance ==> after == points
    ensures points[self].neighbors != [] && Shortest(points, self) != points[self].distance && remainingSteps < 0 ==>
      after == points[self := points[self].(distance := Shortest(points, self))]
    ensures points[self].neighbors != [] && Shortest(points, self) != points[self].distance && remainingSteps >= 0 ==>
      after[self].distance == StepUp(MinDistance(after, points[self].neighbors))
    decreases if remainingSteps < 0 then 0 else remainingSteps + 1, 2
  {
    var neighbors := points[self].neighbors;
    if |neighbors| == 0 {
      return points;
    }
    LinkedIndices(points, self);
    var shortestDistance := Shortest(points, self);
    if shortestDistance == points[self].distance {
      return points;
    }
    after := WithDistance(points, self, shortestDistance);
    if remainingSteps < 0 {
      return;
    }
    LinkedSameGraph(points, after);
    after := Propagate(after, self, caller, remainingSteps);
  }

  /** Lines 191-201 of recalculateDistance: push the new estimate of `self` to its neighbours, then re-estimate it. */
  method Propagate(points: seq<TrailPoint>, self: nat, caller: Tile, remainingSteps: int) returns (after: seq<TrailPoint>)
    requires Linked(points) && self < |points| && points[self].neighbors != [] && remainingSteps >= 0
    ensures SameGraph(points, after)
    ensures forall k :: 0 <= k < |points| && points[k].neighbors == [] ==> after[k] == points[k]
    ensures IndicesIn(after, points[self].neighbors)
    ensures after[self].distance == StepUp(MinDistance(after, points[self].neighbors))
    decreases remainingSteps + 1, 1
  {
    var neighbors := points[self].neighbors;
    LinkedIndices(points, self);
    after := PushDistance(points, Except(points, neighbors, caller), points[self].tile, remainingSteps - 1);
    var before := after;
    after := WithDistance(after, self, StepUp(MinDistance(after, neighbors)));
    MinDistanceAgree(before, after, neighbors);
  }

  /** `self.distance = d` on point `self`. */
  function WithDistance(points: seq<TrailPoint>, self: nat, d: int): (r: seq<TrailPoint>)
    requires self < |points|
    ensures SameGraph(points, r) && r[self].distance == d
    ensures forall k :: 0 <= k < |points| && k != self ==> r[k] == points[k]
  {
    points[self := points[self].(distance := d)]
  }

  // ---------------------------------------------------------------- the frontier

  /** The position of the first frontier entry equal, by TrailPoint.__eq__ (same tile), to a point at `t`. */
  function TileIndex(points: seq<TrailPoint>, frontier: seq<nat>, t: Tile): Option<nat> {
    FirstWhere(frontier, (n: nat) => n < |points| && points[n].tile == t)
  }

  /** `notEvaluated.remove(tp)`, guarded by `tp in notEvaluated`: the first entry with tp's tile goes. */
  function RemoveTile(points: seq<TrailPoint>, frontier: seq<nat>, t: Tile): (r: seq<nat>)
    ensures TileIndex(points, frontier, t).None? ==> r == frontier
    ensures TileIndex(points, frontier, t).Some? ==>
      var k := TileIndex(points, frontier, t).value;
      |r| == |frontier| - 1 && r[..k] == frontier[..k] && r[k..] == frontier[k + 1..]
  {
    match TileIndex(points, frontier, t)
    case None => frontier
    case Some(k) => frontier[..k] + frontier[k + 1..]
  }

  /** Removal by tile depends only on the tiles of the queued points. */
  lemma RemoveTileSameTiles(points: seq<TrailPoint>, points': seq<TrailPoint>, frontier: seq<nat>, t: Tile)
    requires IndicesIn(points, frontier) && |points| <= |points'|
    requires forall k :: 0 <= k < |points| ==> points'[k].tile == points[k].tile
    ensures RemoveTile(points', frontier, t) == RemoveTile(points, frontier, t)
  {
    FirstWhereAgree(frontier, frontier, (k: nat) => k < |points| && points[k].tile == t);
    var f := (k: nat) => k < |points| && points[k].tile == t;
    var f' := (k: nat) => k < |points'| && points'[k].tile == t;
    forall i | 0 <= i < |frontier| ensures f(frontier[i]) == f'(frontier[i]) {
    }
    FirstWhereAgreeFunctions(frontier, f, f');
  }

  /** The tiles of the queued points. */
  ghost function QueuedTiles(points: seq<TrailPoint>, frontier: seq<nat>): set<Tile>
    requires IndicesIn(points, frontier)
  {
    set i | 0 <= i < |frontier| :: points[frontier[i]].tile
  }

  /** The tiles the search has a point for but has not walked to: the queued ones and tpClosest's. */
  ghost function Known(points: seq<TrailPoint>, frontier: seq<nat>, closest: Option<nat>): set<Tile>
    requires IndicesIn(points, frontier) && (closest.Some? ==> closest.value < |points|)
  {
    QueuedTiles(points, frontier) + (if closest.Some? then {points[closest.value].tile} else {})
  }

  /** Queued tiles depend only on the tiles of the queued points. */
  lemma KnownSameTiles(points: seq<TrailPoint>, points': seq<TrailPoint>, frontier: seq<nat>, closest: Option<nat>)
    requires IndicesIn(points, frontier) && (closest.Some? ==> closest.value < |points|) && |points| <= |points'|
    requires forall k :: 0 <= k < |points| ==> points'[k].tile == points[k].tile
    ensures Known(points', frontier, closest) == Known(points, frontier, closest)
  {
    assert QueuedTiles(points', frontier) == QueuedTiles(points, frontier);
  }

  /** Removing by tile `t` loses no queued tile other than `t`. */
  lemma RemoveTileTiles(points: seq<TrailPoint>, frontier: seq<nat>, t: Tile)
    requires IndicesIn(points, frontier)
    ensures IndicesIn(points, RemoveTile(points, frontier, t))
    ensures QueuedTiles(points, frontier) - {t} <= QueuedTiles(points, RemoveTile(points, frontier, t))
  {
    var r := RemoveTile(points, frontier, t);
    match TileIndex(points, frontier, t)
    case None =>
    case Some(k) =>
      assert points[frontier[k]].tile == t;
      forall i | 0 <= i < |r| ensures r[i] == frontier[Skip(i, k)] {
        if i < k { assert r[i] == r[..k][i]; } else { assert r[i] == r[k..][i - k]; }
      }
      forall x | x in QueuedTiles(points, frontier) - {t} ensures x in QueuedTiles(points, r) {
        var i :| 0 <= i < |frontier| && points[frontier[i]].tile == x;
        if i < k { assert r[i] == frontier[i]; } else { assert r[i - 1] == frontier[i]; }
      }
  }

  /**
   * Lines 76-102 as a whole: after a new point `n` at tile `p` replaces any queued point at `p`
   * and becomes tpClosest or is queued, every tile known before, and `p`, is still known.
   */
  lemma EnqueueKnown(points: seq<TrailPoint>, points': seq<TrailPoint>, frontier: seq<nat>, frontier': seq<nat>,
                     closest: Option<nat>, closest': Option<nat>, p: Tile, n: nat)
    requires IndicesIn(points, frontier) && (closest.Some? ==> closest.value < |points|)
    requires |points| <= |points'| && forall k :: 0 <= k < |points| ==> points'[k].tile == points[k].tile
    requires n < |points'| && points'[n].tile == p
    requires IndicesIn(points', frontier') && (closest'.Some? ==> closest'.value < |points'|)
    requires var removed := RemoveTile(points, frontier, p);
      && (closest.Some? ==> closest' == closest && frontier' == removed + [n])
      && (closest.None? ==> (closest' == Some(n) && frontier' == removed) || (closest' == None && frontier' == removed + [n]))
    ensures Known(points, frontier, closest) + {p} <= Known(points', frontier', closest')
  {
    var removed := RemoveTile(points, frontier, p);
    RemoveTileTiles(points, frontier, p);
    assert QueuedTiles(points', removed) == QueuedTiles(points, removed);
    assert QueuedTiles(points', removed) <= QueuedTiles(points', frontier') by {
      forall x | x in QueuedTiles(points', removed) ensures x in QueuedTiles(points', frontier') {
        var i :| 0 <= i < |removed| && points'[removed[i]].tile == x;
        assert frontier'[i] == removed[i];
      }
    }
    if frontier' == removed + [n] {
      assert frontier'[|removed|] == n;
    }
  }

  /** The loop at lines 116-119: the first frontier entry of least distance. */
  method FirstMinimum(points: seq<TrailPoint>, frontier: seq<nat>) returns (j: nat)
    requires |frontier| > 0 && IndicesIn(points, frontier)
    ensures j < |frontier|
    ensures forall i :: 0 <= i < |frontier| ==> points[frontier[j]].distance <= points[frontier[i]].distance
    ensures forall i :: 0 <= i < j ==> points[frontier[i]].distance > points[frontier[j]].distance
  {
    j := 0;
    for i := 0 to |frontier|
      invariant j < |frontier| && (i == 0 ==> j == 0) && (i > 0 ==> j < i)
      invariant forall t :: 0 <= t < i ==> points[frontier[j]].distance <= points[frontier[t]].distance
      invariant forall t :: 0 <= t < j ==> points[frontier[t]].distance > points[frontier[j]].distance
    {
      if points[frontier[i]].distance < points[frontier[j]].distance {
        j := i;
      }
    }
  }

  /** `min(s, key=lambda n: n.cost)`, as a position in `s`: the first entry of least cost. */
  function MinCostAt(points: seq<TrailPoint>, s: seq<nat>): (i: nat)
    requires |s| > 0 && IndicesIn(points, s)
    ensures i < |s|
    ensures forall j :: 0 <= j < |s| ==> points[s[i]].cost <= points[s[j]].cost
    ensures forall j :: 0 <= j < i ==> points[s[j]].cost > points[s[i]].cost
  {
    if |s| == 1 then 0
    else
      var rest := MinCostAt(points, s[1..]) + 1;
      assert forall j :: 1 <= j < |s| ==> s[j] == s[1..][j - 1];
      if points[s[0]].cost <= points[s[rest]].cost then 0 else rest
  }

  // ---------------------------------------------------------------- path reconstruction

  /** Every tile in `nodes` maps to a point at that tile. */
  predicate Registered(points: seq<TrailPoint>, nodes: map<Tile, nat>) {
    forall t :: t in nodes ==> nodes[t] < |points| && points[nodes[t]].tile == t
  }

  predicate CostsNonNegative(points: seq<TrailPoint>) {
    forall k :: 0 <= k < |points| ==> points[k].cost >= 0
  }

  /**
   * Lines 132-147: from the end node, step to the cheapest neighbour while that lowers the cost,
   * prepending each tile, until the start is reached. `trail` holds the arena indices walked.
   */
  method Reconstruct(points: seq<TrailPoint>, nodes: map<Tile, nat>, start: Tile, end: Tile)
    returns (r: Result<seq<Tile>, PathError>, ghost trail: seq<nat>)
    requires Linked(points) && Registered(points, nodes) && CostsNonNegative(points)
    ensures end !in nodes ==> r == Failure(NoRoute)
    ensures end in nodes && r.Failure? ==> r == Failure(NoNeighbours)
    ensures r.Success? ==> end in nodes && |r.value| == |trail| >= 1 && trail[|trail| - 1] == nodes[end]
    ensures r.Success? ==> forall k :: 0 <= k < |trail| ==> trail[k] < |points| && points[trail[k]].tile == r.value[k]
    ensures r.Success? ==> forall k :: 0 <= k < |trail| - 1 ==>
      trail[k] in points[trail[k + 1]].neighbors && points[trail[k]].cost < points[trail[k + 1]].cost
    ensures r.Success? ==> r.value[|r.value| - 1] == end
    ensures r.Success? ==> forall k :: 0 <= k < |r.value| - 1 ==> Adjacent(r.value[k], r.value[k + 1])
    ensures r.Success? && r.value[0] != start ==>
      var first := points[trail[0]];
      first.neighbors != [] && points[first.neighbors[MinCostAt(points, first.neighbors)]].cost >= first.cost
  {
    trail := [];
    if end !in nodes {
      return Failure(NoRoute), trail;
    }
    var cur := nodes[end];
    var path := [points[cur].tile];
    trail := [cur];
    while points[cur].tile != start
      invariant cur < |points| && WalkedBack(points, trail, path, end) && trail[0] == cur && trail[|trail| - 1] == nodes[end]
      decreases points[cur].cost
    {
      var neighbors := points[cur].neighbors;
      if |neighbors| == 0 {
        return Failure(NoNeighbours), trail;
      }
      LinkedIndices(points, cur);
      var cost := points[cur].cost;
      var at := MinCostAt(points, neighbors);
      var next := neighbors[at];
      if points[next].cost >= cost {
        return Success(path), trail;
      }
      WalkBackStep(points, trail, path, end, next);
      path := [points[next].tile] + path;
      trail := [next] + trail;
      cur := next;
    }
    return Success(path), trail;
  }

  /**
   * The walk back so far: `trail` indexes the points whose tiles are `path`, which ends at `end`;
   * each point is a strictly cheaper neighbour of the next, and consecutive tiles are adjacent.
   */
  predicate WalkedBack(points: seq<TrailPoint>, trail: seq<nat>, path: seq<Tile>, end: Tile) {
    && |path| == |trail| >= 1 && path[|path| - 1] == end
    && (forall k :: 0 <= k < |trail| ==> trail[k] < |points| && points[trail[k]].tile == path[k])
    && (forall k :: 0 <= k < |trail| - 1 ==>
          trail[k] in points[trail[k + 1]].neighbors && points[trail[k]].cost < points[trail[k + 1]].cost)
    && (forall k :: 0 <= k < |path| - 1 ==> Adjacent(path[k], path[k + 1]))
  }

  /** Lines 143-146: prepending a cheaper linked neighbour extends the walk back. */
  lemma WalkBackStep(points: seq<TrailPoint>, trail: seq<nat>, path: seq<Tile>, end: Tile, next: nat)
    requires Linked(points) && WalkedBack(points, trail, path, end)
    requires next in points[trail[0]].neighbors && points[next].cost < points[trail[0]].cost
    ensures WalkedBack(points, [next] + trail, [points[next].tile] + path, end)
  {
    LinkedIndices(points, trail[0]);
    var trail', path' := [next] + trail, [points[next].tile] + path;
    forall k | 0 <= k < |trail'| - 1
      ensures trail'[k] in points[trail'[k + 1]].neighbors && points[trail'[k]].cost < points[trail'[k + 1]].cost
    {
      if k > 0 { assert trail'[k] == trail[k - 1] && trail'[k + 1] == trail[k]; }
    }
    forall k | 0 <= k < |path'| - 1 ensures Adjacent(path'[k], path'[k + 1]) {
      if k > 0 { assert path'[k] == path[k - 1] && path'[k + 1] == path[k]; }
    }
  }

  // ---------------------------------------------------------------- the search state

  /** A tile a limo may drive on: on the map and a road or bus stop. */
  predicate DriveableAt(m: GameMap, p: Tile)
    requires WellFormed(m)
  {
    SquareOrDefault(m, p).Some? && IsDriveable(SquareOrDefault(m, p).value.kind)
  }

  /** What holds of every point made: its tile is the start or drivable, its cost is not negative,
      and while it has no neighbours its distance is still the fresh Manhattan estimate. */
  predicate Placed(m: GameMap, start: Tile, end: Tile, points: seq<TrailPoint>)
    requires WellFormed(m)
  {
    forall k :: 0 <= k < |points| ==>
      && (points[k].tile == start || DriveableAt(m, points[k].tile))
      && points[k].cost >= 0
      && (points[k].neighbors == [] ==> points[k].distance == Manhattan(points[k].tile, end))
  }

  /** The frontier holds points not yet walked to, never at the end, with no neighbours and distinct tiles. */
  predicate Pending(points: seq<TrailPoint>, nodes: map<Tile, nat>, frontier: seq<nat>, end: Tile) {
    && IndicesIn(points, frontier)
    && (forall i :: 0 <= i < |frontier| ==>
          points[frontier[i]].tile !in nodes && points[frontier[i]].tile != end && points[frontier[i]].neighbors == [])
    && (forall i, j :: 0 <= i < j < |frontier| ==> points[frontier[i]].tile != points[frontier[j]].tile)
  }

  /** The state between rounds. */
  predicate Searching(m: GameMap, start: Tile, end: Tile, points: seq<TrailPoint>, nodes: map<Tile, nat>, frontier: seq<nat>)
    requires WellFormed(m)
  {
    Linked(points) && Placed(m, start, end, points) && Registered(points, nodes) && Pending(points, nodes, frontier, end)
    && end !in nodes
  }

  /** The point being walked from, once registered and before its estimate is recalculated. */
  predicate Walking(end: Tile, points: seq<TrailPoint>, nodes: map<Tile, nat>, on: nat) {
    on < |points| && points[on].tile in nodes && nodes[points[on].tile] == on && points[on].tile != end
    && points[on].distance == Manhattan(points[on].tile, end)
  }

  /** A candidate for the next point: new, not queued, no neighbours, next to the current one. */
  predicate Candidate(points: seq<TrailPoint>, nodes: map<Tile, nat>, frontier: seq<nat>, on: nat, c: nat)
    requires on < |points| && IndicesIn(points, frontier)
  {
    c < |points| && points[c].tile !in nodes && points[c].neighbors == []
    && (forall i :: 0 <= i < |frontier| ==> points[frontier[i]].tile != points[c].tile)
    && Adjacent(points[c].tile, points[on].tile)
  }

  lemma RemoveTileKeeps(points: seq<TrailPoint>, nodes: map<Tile, nat>, frontier: seq<nat>, end: Tile, t: Tile)
    requires Pending(points, nodes, frontier, end)
    ensures var r := RemoveTile(points, frontier, t);
      && Pending(points, nodes, r, end)
      && (forall i :: 0 <= i < |r| ==> points[r[i]].tile != t)
      && (forall i :: 0 <= i < |r| ==> r[i] in frontier)
  {
    var r := RemoveTile(points, frontier, t);
    match TileIndex(points, frontier, t)
    case None =>
      assert forall i :: 0 <= i < |r| ==> points[r[i]].tile != t;
    case Some(k) =>
      assert points[frontier[k]].tile == t;
      forall i | 0 <= i < |r| ensures r[i] == frontier[Skip(i, k)] {
        if i < k { assert r[i] == r[..k][i]; } else { assert r[i] == r[k..][i - k]; }
      }
      forall i, j | 0 <= i < j < |r| ensures points[r[i]].tile != points[r[j]].tile {
        assert Skip(i, k) < Skip(j, k);
      }
      forall i | 0 <= i < |r| ensures points[r[i]].tile != t && r[i] in frontier {
        assert Skip(i, k) != k;
      }
  }

  /** The position in the old list of entry i once entry k is removed. */
  function Skip(i: nat, k: nat): nat { if i < k then i else i + 1 }

  /**
   * One offset of the neighbour loop (lines 63-102): a tile off the map or not drivable is
   * skipped, an already walked tile is linked, any other tile gets a new point.
   */
  method VisitNeighbour(m: GameMap, start: Tile, end: Tile, points: seq<TrailPoint>, nodes: map<Tile, nat>,
                        frontier: seq<nat>, on: nat, closest: Option<nat>, offset: Tile)
    returns (points': seq<TrailPoint>, frontier': seq<nat>, closest': Option<nat>)
    requires WellFormed(m) && Searching(m, start, end, points, nodes, frontier) && Walking(end, points, nodes, on)
    requires Adjacent(Shift(points[on].tile, offset), points[on].tile)
    requires closest.Some? ==>
      && Candidate(points, nodes, frontier, on, closest.value)
      && points[closest.value].distance < points[on].distance
      && points[closest.value].tile != Shift(points[on].tile, offset)
    ensures Searching(m, start, end, points', nodes, frontier') && Walking(end, points', nodes, on)
    ensures closest'.Some? ==>
      && Candidate(points', nodes, frontier', on, closest'.value)
      && points'[closest'.value].distance < points'[on].distance
      && (closest' == closest || points'[closest'.value].tile == Shift(points[on].tile, offset))
    ensures |points| <= |points'| && forall k :: 0 <= k < |points| ==> points'[k].tile == points[k].tile
    ensures !DriveableAt(m, Shift(points[on].tile, offset)) ==>
      points' == points && frontier' == frontier && closest' == closest
    ensures DriveableAt(m, Shift(points[on].tile, offset)) && Shift(points[on].tile, offset) in nodes ==>
      frontier' == frontier && closest' == closest
    ensures DriveableAt(m, Shift(points[on].tile, offset)) ==>
      && |points'[on].neighbors| == |points[on].neighbors| + 1
      && points'[on].neighbors[..|points[on].neighbors|] == points[on].neighbors
      && points'[points'[on].neighbors[|points[on].neighbors|]].tile == Shift(points[on].tile, offset)
    ensures forall k :: |points| <= k < |points'| ==> points'[k].tile == Shift(points[on].tile, offset)
    ensures Known(points, frontier, closest) <= Known(points', frontier', closest')
    ensures DriveableAt(m, Shift(points[on].tile, offset)) ==>
      Shift(points[on].tile, offset) in nodes || Shift(points[on].tile, offset) in Known(points', frontier', closest')
  {
    var pointNeighbor := Shift(points[on].tile, offset);
    var square := SquareOrDefault(m, pointNeighbor);
    if square.None? || !IsDriveable(square.value.kind) {
      return points, frontier, closest;
    }
    if pointNeighbor in nodes {
      points' := Relink(m, start, end, points, nodes, frontier, on, closest, pointNeighbor);
      return points', frontier, closest;
    }
    points', frontier', closest' := AddNeighbour(m, start, end, points, nodes, frontier, on, closest, pointNeighbor);
  }

  /** VisitNeighbour's branch for a drivable neighbour `p` that has already been walked to. */
  method Relink(m: GameMap, start: Tile, end: Tile, points: seq<TrailPoint>, nodes: map<Tile, nat>,
                frontier: seq<nat>, on: nat, closest: Option<nat>, p: Tile)
    returns (points': seq<TrailPoint>)
    requires WellFormed(m) && Searching(m, start, end, points, nodes, frontier) && Walking(end, points, nodes, on)
    requires p in nodes && Adjacent(p, points[on].tile)
    requires closest.Some? ==>
      && Candidate(points, nodes, frontier, on, closest.value)
      && points[closest.value].distance < points[on].distance
    ensures Searching(m, start, end, points', nodes, frontier) && Walking(end, points', nodes, on)
    ensures closest.Some? ==>
      && Candidate(points', nodes, frontier, on, closest.value)
      && points'[closest.value].distance < points'[on].distance
    ensures |points'| == |points| && forall k :: 0 <= k < |points| ==> points'[k].tile == points[k].tile
    ensures |points'[on].neighbors| == |points[on].neighbors| + 1
    ensures points'[on].neighbors[..|points[on].neighbors|] == points[on].neighbors
    ensures points'[points'[on].neighbors[|points[on].neighbors|]].tile == p
    ensures Known(points, frontier, closest) == Known(points', frontier, closest)
  {
    var n := nodes[p];
    points' := LinkWalked(m, start, end, points, nodes, frontier, on, n);
    KnownSameTiles(points, points', frontier, closest);
    assert points'[on].neighbors == points[on].neighbors + [n];
  }

  /** Lines 69-73: a neighbour already walked to keeps its point, whose cost becomes min(cost, tpOn.cost + 1). */
  method LinkWalked(m: GameMap, start: Tile, end: Tile, points: seq<TrailPoint>, nodes: map<Tile, nat>,
                    frontier: seq<nat>, on: nat, n: nat)
    returns (points': seq<TrailPoint>)
    requires WellFormed(m) && Searching(m, start, end, points, nodes, frontier) && Walking(end, points, nodes, on)
    requires n < |points| && points[n].tile in nodes && Adjacent(points[n].tile, points[on].tile)
    ensures Searching(m, start, end, points', nodes, frontier) && Walking(end, points', nodes, on)
    ensures forall c: nat :: Candidate(points, nodes, frontier, on, c) ==>
      Candidate(points', nodes, frontier, on, c) && points'[c].distance == points[c].distance
    ensures |points'| == |points| && forall k :: 0 <= k < |points| ==> points'[k].tile == points[k].tile
    ensures points'[n].cost <= points[n].cost && points'[n].cost <= points[on].cost + 1
    ensures points'[n].cost == points[n].cost || points'[n].cost == points[on].cost + 1
    ensures points'[n] == points[n].(cost := points'[n].cost)
    ensures points'[on] == points[on].(neighbors := points[on].neighbors + [n])
    ensures forall k :: 0 <= k < |points| && k != on && k != n ==> points'[k] == points[k]
  {
    var cost := if points[n].cost <= points[on].cost + 1 then points[n].cost else points[on].cost + 1;
    points' := points[n := points[n].(cost := cost)];
    points' := points'[on := points'[on].(neighbors := points'[on].neighbors + [n])];
    LinkedAppend(points, points', on, n);
    Reshaped(m, start, end, points, points', nodes, frontier, on);
  }

  /**
   * Lines 76-102: a new point for the neighbour, costing one more than tpOn, after any queued point
   * at the same tile is dropped. It becomes `closest` if there is none yet and it is strictly nearer
   * the end than tpOn; otherwise it is queued. The branch where a strictly nearer neighbour would
   * displace `closest` (lines 99-102) cannot be taken: see NeighbourNeverDisplacesClosest.
   */
  method AddNeighbour(m: GameMap, start: Tile, end: Tile, points: seq<TrailPoint>, nodes: map<Tile, nat>,
                      frontier: seq<nat>, on: nat, closest: Option<nat>, p: Tile)
    returns (points': seq<TrailPoint>, frontier': seq<nat>, closest': Option<nat>)
    requires WellFormed(m) && Searching(m, start, end, points, nodes, frontier) && Walking(end, points, nodes, on)
    requires DriveableAt(m, p) && p !in nodes && Adjacent(p, points[on].tile)
    requires closest.Some? ==>
      && Candidate(points, nodes, frontier, on, closest.value)
      && points[closest.value].distance < points[on].distance
      && points[closest.value].tile != p
    ensures Searching(m, start, end, points', nodes, frontier') && Walking(end, points', nodes, on)
    ensures closest'.Some? ==>
      && Candidate(points', nodes, frontier', on, closest'.value)
      && points'[closest'.value].distance < points'[on].distance
      && (closest' == closest || points'[closest'.value].tile == p)
    ensures |points'| == |points| + 1 && points'[|points|] == NewTrailPoint(p, end, points[on].cost + 1)
    ensures points'[on] == points[on].(neighbors := points[on].neighbors + [|points|])
    ensures forall k :: 0 <= k < |points| && k != on ==> points'[k] == points[k]
    ensures forall k :: 0 <= k < |points| ==> points'[k].tile == points[k].tile
    ensures forall k :: |points| <= k < |points'| ==> points'[k].tile == p
    ensures |points'[on].neighbors| == |points[on].neighbors| + 1
    ensures points'[on].neighbors[..|points[on].neighbors|] == points[on].neighbors
    ensures points'[points'[on].neighbors[|points[on].neighbors|]].tile == p
    ensures var n, removed := |points|, RemoveTile(points, frontier, p);
      && (closest.None? && points'[n].distance < points[on].distance ==> closest' == Some(n) && frontier' == removed)
      && (closest.None? && points'[n].distance >= points[on].distance ==> closest' == None && frontier' == removed + [n])
      && (closest.Some? ==> closest' == closest && frontier' == removed + [n])
    ensures Known(points, frontier, closest) + {p} <= Known(points', frontier', closest')
  {
    var n := |points|;
    points' := AttachNew(m, start, end, points, nodes, frontier, on, p);
    RemoveTileSameTiles(points, points', frontier, p);
    frontier', closest' := Enqueue(end, points', nodes, frontier, on, closest, n);
    EnqueueKnown(points, points', frontier, frontier', closest, closest', p, n);
  }

  /** Lines 76-77: the new point for neighbour `p`, appended to the arena and to tpOn's neighbours. */
  method AttachNew(m: GameMap, start: Tile, end: Tile, points: seq<TrailPoint>, nodes: map<Tile, nat>,
                   frontier: seq<nat>, on: nat, p: Tile)
    returns (points': seq<TrailPoint>)
    requires WellFormed(m) && Searching(m, start, end, points, nodes, frontier) && Walking(end, points, nodes, on)
    requires DriveableAt(m, p) && p !in nodes && Adjacent(p, points[on].tile)
    ensures Searching(m, start, end, points', nodes, frontier) && Walking(end, points', nodes, on)
    ensures forall c: nat :: Candidate(points, nodes, frontier, on, c) ==>
      Candidate(points', nodes, frontier, on, c) && points'[c].distance == points[c].distance
    ensures |points'| == |points| + 1 && points'[|points|] == NewTrailPoint(p, end, points[on].cost + 1)
    ensures points'[on] == points[on].(neighbors := points[on].neighbors + [|points|])
    ensures forall k :: 0 <= k < |points| && k != on ==> points'[k] == points[k]
    ensures forall k :: 0 <= k < |points| ==> points'[k].tile == points[k].tile
    ensures forall k :: |points| <= k < |points'| ==> points'[k].tile == p
    ensures |points'[on].neighbors| == |points[on].neighbors| + 1
    ensures points'[on].neighbors[..|points[on].neighbors|] == points[on].neighbors
    ensures points'[points'[on].neighbors[|points[on].neighbors|]].tile == p
  {
    var n := |points|;
    points' := points + [NewTrailPoint(p, end, points[on].cost + 1)];
    points' := points'[on := points'[on].(neighbors := points'[on].neighbors + [n])];
    LinkedAppend(points, points', on, n);
    Reshaped(m, start, end, points, points', nodes, frontier, on);
    assert points'[on].neighbors == points[on].neighbors + [n];
  }

  /**
   * Lines 80-102: any queued point at the new point's tile is dropped; the new point `n` then
   * becomes `closest` or is queued.
   */
  method Enqueue(end: Tile, points: seq<TrailPoint>, nodes: map<Tile, nat>, frontier: seq<nat>, on: nat, closest: Option<nat>, n: nat)
    returns (frontier': seq<nat>, closest': Option<nat>)
    requires Pending(points, nodes, frontier, end) && Walking(end, points, nodes, on)
    requires n < |points| && points[n].tile !in nodes && points[n].neighbors == [] && Adjacent(points[n].tile, points[on].tile)
    requires points[n].distance == Manhattan(points[n].tile, end)
    requires closest.Some? ==>
      && Candidate(points, nodes, frontier, on, closest.value)
      && points[closest.value].distance < points[on].distance
      && points[closest.value].tile != points[n].tile
      && points[closest.value].distance == Manhattan(points[closest.value].tile, end)
    ensures Pending(points, nodes, frontier', end)
    ensures closest'.Some? ==>
      && Candidate(points, nodes, frontier', on, closest'.value)
      && points[closest'.value].distance < points[on].distance
      && (closest' == closest || closest' == Some(n))
    ensures var removed := RemoveTile(points, frontier, points[n].tile);
      && (closest.None? && points[n].distance < points[on].distance ==> closest' == Some(n) && frontier' == removed)
      && (closest.None? && points[n].distance >= points[on].distance ==> closest' == None && frontier' == removed + [n])
      && (closest.Some? ==> closest' == closest && frontier' == removed + [n])
  {
    var p := points[n].tile;
    RemoveTileKeeps(points, nodes, frontier, end, p);
    frontier' := RemoveTile(points, frontier, p);
    if closest.Some? && points[n].distance < points[closest.value].distance {
      // lines 99-102
      assert false;
    }
    if closest.None? && points[n].distance < points[on].distance {
      closest' := Some(n);
    } else {
      closest' := closest;
      PendingAppend(points, nodes, frontier', end, n);
      frontier' := frontier' + [n];
    }
  }

  /**
   * While tpOn still has its fresh estimate, a neighbour nearer the end than tpOn is exactly one
   * step nearer, so no later neighbour can be strictly nearer than it.
   */
  lemma NeighbourNeverDisplacesClosest(on: Tile, closest: Tile, p: Tile, end: Tile)
    requires Adjacent(closest, on) && Adjacent(p, on)
    requires Manhattan(closest, end) < Manhattan(on, end)
    ensures Manhattan(closest, end) == Manhattan(on, end) - 1
    ensures Manhattan(closest, end) <= Manhattan(p, end)
  {
  }

  /**
   * A change to the arena that only lowers costs, adds neighbours to `on` and appends fresh
   * drivable points keeps the search state, and keeps every candidate a candidate.
   */
  lemma Reshaped(m: GameMap, start: Tile, end: Tile, points: seq<TrailPoint>, points': seq<TrailPoint>,
                 nodes: map<Tile, nat>, frontier: seq<nat>, on: nat)
    requires WellFormed(m) && Searching(m, start, end, points, nodes, frontier) && Walking(end, points, nodes, on)
    requires Linked(points') && |points| <= |points'|
    requires points'[on].tile == points[on].tile && points'[on].distance == points[on].distance && points'[on].cost == points[on].cost
    requires forall k :: 0 <= k < |points| ==> points'[k].tile == points[k].tile && points'[k].cost >= 0
    requires forall k :: 0 <= k < |points| && k != on ==>
      points'[k].neighbors == points[k].neighbors && points'[k].distance == points[k].distance
    requires forall k :: |points| <= k < |points'| ==>
      DriveableAt(m, points'[k].tile) && points'[k].neighbors == [] && points'[k].cost >= 0
      && points'[k].distance == Manhattan(points'[k].tile, end)
    ensures Searching(m, start, end, points', nodes, frontier) && Walking(end, points', nodes, on)
    ensures forall c: nat :: Candidate(points, nodes, frontier, on, c) ==>
      Candidate(points', nodes, frontier, on, c) && points'[c].distance == points[c].distance
  {
    forall i | 0 <= i < |frontier| ensures frontier[i] != on {
      assert points[frontier[i]].tile !in nodes;
    }
    forall c: nat | Candidate(points, nodes, frontier, on, c)
      ensures Candidate(points', nodes, frontier, on, c) && points'[c].distance == points[c].distance
    {
      assert c != on;
    }
  }

  /** Queueing a new point that is not walked to, not at the end, has no neighbours and a new tile. */
  lemma PendingAppend(points: seq<TrailPoint>, nodes: map<Tile, nat>, frontier: seq<nat>, end: Tile, x: nat)
    requires Pending(points, nodes, frontier, end) && x < |points|
    requires points[x].tile !in nodes && points[x].tile != end && points[x].neighbors == []
    requires forall i :: 0 <= i < |frontier| ==> points[frontier[i]].tile != points[x].tile
    ensures Pending(points, nodes, frontier + [x], end)
  {
  }

  /** Adding neighbour n to point `on` keeps the arena linked when n's tile is next to on's. */
  lemma LinkedAppend(points: seq<TrailPoint>, points': seq<TrailPoint>, on: nat, n: nat)
    requires Linked(points) && on < |points| <= |points'| && n < |points'| && n != on
    requires Adjacent(points'[n].tile, points[on].tile)
    requires points'[on] == points[on].(neighbors := points[on].neighbors + [n])
    requires forall k :: 0 <= k < |points| && k != on ==> points'[k].tile == points[k].tile && points'[k].neighbors == points[k].neighbors
    requires forall k :: |points| <= k < |points'| ==> points'[k].neighbors == []
    ensures Linked(points')
  {
    forall k, j | 0 <= k < |points'| && 0 <= j < |points'[k].neighbors|
      ensures points'[k].neighbors[j] < |points'| && Adjacent(points'[points'[k].neighbors[j]].tile, points'[k].tile)
    {
      if k == on && j == |points[on].neighbors| {
      } else {
        assert points'[k].neighbors[j] == points[k].neighbors[j];
      }
    }
  }

  // ---------------------------------------------------------------- one round

  /** The drivable tiles among the first k steps from t, in the order of OFFSETS. */
  ghost function DriveableSteps(m: GameMap, t: Tile, k: nat): (r: seq<Tile>)
    requires WellFormed(m) && k <= |OFFSETS|
    ensures |r| <= k
    ensures forall i :: 0 <= i < |r| ==> DriveableAt(m, r[i]) && Adjacent(r[i], t)
  {
    OffsetsAdjacent(t);
    if k == 0 then []
    else DriveableSteps(m, t, k - 1) + (if DriveableAt(m, Shift(t, OFFSETS[k - 1])) then [Shift(t, OFFSETS[k - 1])] else [])
  }

  /** The tiles of the points at the indices in s. */
  predicate TilesAre(points: seq<TrailPoint>, s: seq<nat>, tiles: seq<Tile>) {
    |s| == |tiles| && forall i :: 0 <= i < |s| ==> s[i] < |points| && points[s[i]].tile == tiles[i]
  }

  /**
   * Lines 61-102: visit the four neighbours of tpOn. Afterwards tpOn's neighbours are exactly its
   * drivable adjacent tiles in the order of OFFSETS, and `closest`, if any, is a new point strictly
   * nearer the end than tpOn.
   */
  method ExpandNeighbours(m: GameMap, start: Tile, end: Tile, points: seq<TrailPoint>, nodes: map<Tile, nat>,
                          frontier: seq<nat>, on: nat)
    returns (points': seq<TrailPoint>, frontier': seq<nat>, closest: Option<nat>)
    requires WellFormed(m) && Searching(m, start, end, points, nodes, frontier) && Walking(end, points, nodes, on)
    requires points[on].neighbors == []
    ensures Searching(m, start, end, points', nodes, frontier') && Walking(end, points', nodes, on)
    ensures TilesAre(points', points'[on].neighbors, DriveableSteps(m, points[on].tile, |OFFSETS|))
    ensures closest.Some? ==>
      Candidate(points', nodes, frontier', on, closest.value) && points'[closest.value].distance < points'[on].distance
    ensures |points| <= |points'| && forall k :: 0 <= k < |points| ==> points'[k].tile == points[k].tile
    ensures forall k :: |points| <= k < |points'| ==> Adjacent(points'[k].tile, points[on].tile)
    ensures QueuedTiles(points, frontier) <= Known(points', frontier', closest)
    ensures forall u :: Adjacent(u, points[on].tile) && DriveableAt(m, u) ==> u in nodes || u in Known(points', frontier', closest)
  {
    var t := points[on].tile;
    points', frontier', closest := points, frontier, None;
    for k := 0 to |OFFSETS|
      invariant Expanded(m, start, end, points, frontier, points', nodes, frontier', on, closest, k)
    {
      points', frontier', closest := ExpandOne(m, start, end, points, frontier, points', nodes, frontier', on, closest, k);
    }
    forall u | Adjacent(u, t) && DriveableAt(m, u) ensures u in nodes || u in Known(points', frontier', closest) {
      AdjacentIsStep(t, u);
    }
  }

  /** The four offsets reach every adjacent tile. */
  lemma AdjacentIsStep(t: Tile, u: Tile)
    requires Adjacent(u, t)
    ensures exists j :: 0 <= j < |OFFSETS| && u == Shift(t, OFFSETS[j])
  {
    if u.0 < t.0 {
      assert u == Shift(t, OFFSETS[0]);
    } else if u.0 > t.0 {
      assert u == Shift(t, OFFSETS[1]);
    } else if u.1 < t.1 {
      assert u == Shift(t, OFFSETS[2]);
    } else {
      assert u == Shift(t, OFFSETS[3]);
    }
  }

  /** The state of the neighbour loop once the first k offsets have been visited. */
  ghost predicate Expanded(m: GameMap, start: Tile, end: Tile, points0: seq<TrailPoint>, frontier0: seq<nat>,
                           points: seq<TrailPoint>, nodes: map<Tile, nat>, frontier: seq<nat>, on: nat,
                           closest: Option<nat>, k: nat)
    requires WellFormed(m) && on < |points0|
  {
    && k <= |OFFSETS|
    && Searching(m, start, end, points, nodes, frontier) && Walking(end, points, nodes, on)
    && Visited(m, points0, frontier0, points, nodes, frontier, on, closest, k)
  }

  /** What the first k offsets added to the trail: tpOn's neighbours, the candidate and the known tiles. */
  ghost predicate Visited(m: GameMap, points0: seq<TrailPoint>, frontier0: seq<nat>, points: seq<TrailPoint>,
                          nodes: map<Tile, nat>, frontier: seq<nat>, on: nat, closest: Option<nat>, k: nat)
    requires WellFormed(m) && on < |points0| && k <= |OFFSETS| && on < |points| && IndicesIn(points, frontier)
  {
    && |points0| <= |points| && (forall i :: 0 <= i < |points0| ==> points[i].tile == points0[i].tile)
    && TilesAre(points, points[on].neighbors, DriveableSteps(m, points0[on].tile, k))
    && (closest.Some? ==>
        && Candidate(points, nodes, frontier, on, closest.value)
        && points[closest.value].distance < points[on].distance
        && forall j :: k <= j < |OFFSETS| ==> points[closest.value].tile != Shift(points0[on].tile, OFFSETS[j]))
    && (forall i :: |points0| <= i < |points| ==> Adjacent(points[i].tile, points0[on].tile))
    && IndicesIn(points0, frontier0) && QueuedTiles(points0, frontier0) <= Known(points, frontier, closest)
    && (forall j :: 0 <= j < k && DriveableAt(m, Shift(points0[on].tile, OFFSETS[j])) ==>
          Shift(points0[on].tile, OFFSETS[j]) in nodes || Shift(points0[on].tile, OFFSETS[j]) in Known(points, frontier, closest))
  }

  /** One turn of the neighbour loop. */
  method ExpandOne(m: GameMap, start: Tile, end: Tile, points0: seq<TrailPoint>, frontier0: seq<nat>,
                   points: seq<TrailPoint>, nodes: map<Tile, nat>, frontier: seq<nat>, on: nat, closest: Option<nat>, k: nat)
    returns (points': seq<TrailPoint>, frontier': seq<nat>, closest': Option<nat>)
    requires WellFormed(m) && on < |points0| && k < |OFFSETS|
    requires Expanded(m, start, end, points0, frontier0, points, nodes, frontier, on, closest, k)
    ensures Expanded(m, start, end, points0, frontier0, points', nodes, frontier', on, closest', k + 1)
  {
    var t := points0[on].tile;
    assert points[on].tile == t;
    OffsetsAdjacent(t);
    points', frontier', closest' := VisitNeighbour(m, start, end, points, nodes, frontier, on, closest, OFFSETS[k]);
    ExpandedStep(m, start, end, points0, frontier0, points, nodes, frontier, on, closest, k, points', frontier', closest');
  }

  /** What VisitNeighbour promises for offset `k` carries the neighbour loop's invariant from `k` to `k + 1`. */
  lemma ExpandedStep(m: GameMap, start: Tile, end: Tile, points0: seq<TrailPoint>, frontier0: seq<nat>,
                     points: seq<TrailPoint>, nodes: map<Tile, nat>, frontier: seq<nat>, on: nat, closest: Option<nat>, k: nat,
                     points': seq<TrailPoint>, frontier': seq<nat>, closest': Option<nat>)
    requires WellFormed(m) && on < |points0| && k < |OFFSETS|
    requires Expanded(m, start, end, points0, frontier0, points, nodes, frontier, on, closest, k)
    requires Searching(m, start, end, points', nodes, frontier') && Walking(end, points', nodes, on)
    requires var p := Shift(points0[on].tile, OFFSETS[k]);
      && (closest'.Some? ==>
          && Candidate(points', nodes, frontier', on, closest'.value)
          && points'[closest'.value].distance < points'[on].distance
          && (closest' == closest || points'[closest'.value].tile == p))
      && |points| <= |points'| && (forall i :: 0 <= i < |points| ==> points'[i].tile == points[i].tile)
      && (!DriveableAt(m, p) ==> points' == points && frontier' == frontier && closest' == closest)
      && (DriveableAt(m, p) ==>
          && |points'[on].neighbors| == |points[on].neighbors| + 1
          && points'[on].neighbors[..|points[on].neighbors|] == points[on].neighbors
          && points'[points'[on].neighbors[|points[on].neighbors|]].tile == p)
      && (forall i :: |points| <= i < |points'| ==> points'[i].tile == p)
      && Known(points, frontier, closest) <= Known(points', frontier', closest')
      && (DriveableAt(m, p) ==> p in nodes || p in Known(points', frontier', closest'))
    ensures Expanded(m, start, end, points0, frontier0, points', nodes, frontier', on, closest', k + 1)
  {
    VisitedStep(m, points0, frontier0, points, nodes, frontier, on, closest, k, points', frontier', closest');
  }

  /** The same step for the part of the invariant that does not depend on the search state. */
  lemma VisitedStep(m: GameMap, points0: seq<TrailPoint>, frontier0: seq<nat>,
                    points: seq<TrailPoint>, nodes: map<Tile, nat>, frontier: seq<nat>, on: nat, closest: Option<nat>, k: nat,
                    points': seq<TrailPoint>, frontier': seq<nat>, closest': Option<nat>)
    requires WellFormed(m) && on < |points0| && k < |OFFSETS|
    requires on < |points| && IndicesIn(points, frontier) && on < |points'| && IndicesIn(points', frontier')
    requires Linked(points')
    requires Visited(m, points0, frontier0, points, nodes, frontier, on, closest, k)
    requires var p := Shift(points0[on].tile, OFFSETS[k]);
      && (closest'.Some? ==>
          && Candidate(points', nodes, frontier', on, closest'.value)
          && points'[closest'.value].distance < points'[on].distance
          && (closest' == closest || points'[closest'.value].tile == p))
      && |points| <= |points'| && (forall i :: 0 <= i < |points| ==> points'[i].tile == points[i].tile)
      && (!DriveableAt(m, p) ==> points' == points && frontier' == frontier && closest' == closest)
      && (DriveableAt(m, p) ==>
          && |points'[on].neighbors| == |points[on].neighbors| + 1
          && points'[on].neighbors[..|points[on].neighbors|] == points[on].neighbors
          && points'[points'[on].neighbors[|points[on].neighbors|]].tile == p)
      && (forall i :: |points| <= i < |points'| ==> points'[i].tile == p)
      && Known(points, frontier, closest) <= Known(points', frontier', closest')
      && (DriveableAt(m, p) ==> p in nodes || p in Known(points', frontier', closest'))
    ensures Visited(m, points0, frontier0, points', nodes, frontier', on, closest', k + 1)
  {
    var t := points0[on].tile;
    OffsetsAdjacent(t);
    NeighboursGrow(m, t, k, points, points', on);
  }

  /** One offset of the neighbour loop extends tpOn's neighbour tiles by that step when it is drivable. */
  lemma NeighboursGrow(m: GameMap, t: Tile, k: nat, points: seq<TrailPoint>, points': seq<TrailPoint>, on: nat)
    requires WellFormed(m) && k < |OFFSETS| && on < |points| <= |points'|
    requires TilesAre(points, points[on].neighbors, DriveableSteps(m, t, k))
    requires forall i :: 0 <= i < |points| ==> points'[i].tile == points[i].tile
    requires !DriveableAt(m, Shift(t, OFFSETS[k])) ==> points' == points
    requires DriveableAt(m, Shift(t, OFFSETS[k])) ==>
      && |points'[on].neighbors| == |points[on].neighbors| + 1
      && points'[on].neighbors[..|points[on].neighbors|] == points[on].neighbors
      && points'[on].neighbors[|points[on].neighbors|] < |points'|
      && points'[points'[on].neighbors[|points[on].neighbors|]].tile == Shift(t, OFFSETS[k])
    ensures TilesAre(points', points'[on].neighbors, DriveableSteps(m, t, k + 1))
  {
    var steps, steps' := DriveableSteps(m, t, k), DriveableSteps(m, t, k + 1);
    var s, s' := points[on].neighbors, points'[on].neighbors;
    if DriveableAt(m, Shift(t, OFFSETS[k])) {
      assert steps' == steps + [Shift(t, OFFSETS[k])];
      forall i | 0 <= i < |s'| ensures s'[i] < |points'| && points'[s'[i]].tile == steps'[i] {
        if i < |s| {
          assert s'[i] == s'[..|s|][i] == s[i];
        }
      }
    } else {
      assert steps' == steps;
    }
  }

  /** The state at the head of the search loop: `on` is a fresh point the search walks to next. */
  predicate Ready(end: Tile, points: seq<TrailPoint>, nodes: map<Tile, nat>, frontier: seq<nat>, on: nat) {
    on < |points| && points[on].tile !in nodes && points[on].tile != end && points[on].neighbors == []
    && forall i :: 0 <= i < |frontier| && frontier[i] < |points| ==> points[frontier[i]].tile != points[on].tile
  }

  /** Line 58: registering the point walked to keeps the search state. */
  lemma RegisterKeeps(m: GameMap, start: Tile, end: Tile, points: seq<TrailPoint>, nodes: map<Tile, nat>,
                      frontier: seq<nat>, on: nat)
    requires WellFormed(m) && Searching(m, start, end, points, nodes, frontier) && Ready(end, points, nodes, frontier, on)
    ensures var nodes' := nodes[points[on].tile := on];
      Searching(m, start, end, points, nodes', frontier) && Walking(end, points, nodes', on)
  {
  }

  /** Line 104: recalculating distances changes no point without neighbours, so the search state holds. */
  lemma RecalculateKeeps(m: GameMap, start: Tile, end: Tile, points: seq<TrailPoint>, after: seq<TrailPoint>,
                         nodes: map<Tile, nat>, frontier: seq<nat>, on: nat, c: nat)
    requires WellFormed(m) && Searching(m, start, end, points, nodes, frontier) && on < |points|
    requires SameGraph(points, after)
    requires forall k :: 0 <= k < |points| && points[k].neighbors == [] ==> after[k] == points[k]
    ensures Searching(m, start, end, after, nodes, frontier)
    ensures Candidate(points, nodes, frontier, on, c) ==> Candidate(after, nodes, frontier, on, c)
  {
    LinkedSameGraph(points, after);
  }

  /** Every tile a point of the search can be at: the start and the tiles of the map. */
  ghost function Universe(m: GameMap, start: Tile): set<Tile> {
    (set x: int, y: int | 0 <= x < m.width && 0 <= y < m.height :: (x, y)) + {start}
  }

  lemma InUniverse(m: GameMap, start: Tile, p: Tile)
    requires WellFormed(m) && (p == start || DriveableAt(m, p))
    ensures p in Universe(m, start)
  {
    if p != start {
      var x, y := p.0, p.1;
      assert (x, y) in (set x: int, y: int | 0 <= x < m.width && 0 <= y < m.height :: (x, y));
    }
  }

  /** Adding a key from the universe that was not there shrinks what is left of the universe. */
  lemma Shrinks(u: set<Tile>, keys: set<Tile>, t: Tile)
    requires t in u && t !in keys
    ensures |u - (keys + {t})| < |u - keys|
  {
    assert u - (keys + {t}) == (u - keys) - {t};
  }

  // ---------------------------------------------------------------- the search

  /** Lines 58-104: register tpOn, visit its neighbours and recalculate its estimate. */
  method Walk(m: GameMap, start: Tile, end: Tile, points: seq<TrailPoint>, nodes: map<Tile, nat>,
              frontier: seq<nat>, on: nat)
    returns (points': seq<TrailPoint>, nodes': map<Tile, nat>, frontier': seq<nat>, closest: Option<nat>)
    requires WellFormed(m) && Searching(m, start, end, points, nodes, frontier) && Ready(end, points, nodes, frontier, on)
    ensures nodes' == nodes[points[on].tile := on]
    ensures Searching(m, start, end, points', nodes', frontier') && on < |points'| && points'[on].tile == points[on].tile
    ensures TilesAre(points', points'[on].neighbors, DriveableSteps(m, points[on].tile, |OFFSETS|))
    ensures closest.Some? ==> Candidate(points', nodes', frontier', on, closest.value)
    ensures |points| <= |points'| && forall k :: |points| <= k < |points'| ==> Adjacent(points'[k].tile, points[on].tile)
    ensures forall k :: 0 <= k < |points| ==> points'[k].tile == points[k].tile
    ensures QueuedTiles(points, frontier) <= Known(points', frontier', closest)
    ensures forall u :: Adjacent(u, points[on].tile) && DriveableAt(m, u) ==> u in nodes' || u in Known(points', frontier', closest)
  {
    RegisterKeeps(m, start, end, points, nodes, frontier, on);
    nodes' := nodes[points[on].tile := on];
    var expanded;
    expanded, frontier', closest := ExpandNeighbours(m, start, end, points, nodes', frontier, on);
    points' := RecalculateDistance(expanded, on, POINT_OFF_MAP, m.width);
    RecalculateKeeps(m, start, end, expanded, points', nodes', frontier', on, if closest.Some? then closest.value else 0);
    KnownSameTiles(expanded, points', frontier', closest);
  }

  /**
   * Lines 111-120: the point to walk to next is `closest` if there is one, otherwise the first
   * queued point with the smallest estimate, which leaves the queue. None when nothing is queued.
   */
  method Choose(m: GameMap, start: Tile, end: Tile, points: seq<TrailPoint>, nodes: map<Tile, nat>,
                frontier: seq<nat>, on: nat, closest: Option<nat>)
    returns (frontier': seq<nat>, next: Option<nat>)
    requires WellFormed(m) && Searching(m, start, end, points, nodes, frontier) && on < |points|
    requires closest.Some? ==> Candidate(points, nodes, frontier, on, closest.value)
    ensures closest.Some? ==> next == closest && frontier' == frontier
    ensures closest.None? && frontier == [] ==> next == None && frontier' == frontier
    ensures closest.None? && frontier != [] ==>
      && next.Some? && next.value in frontier
      && (forall i :: 0 <= i < |frontier| ==> points[next.value].distance <= points[frontier[i]].distance)
      && frontier' == RemoveTile(points, frontier, points[next.value].tile)
    ensures Searching(m, start, end, points, nodes, frontier')
    ensures next.Some? ==>
      || Ready(end, points, nodes, frontier', next.value)
      || (points[next.value].tile == end && closest == next && Candidate(points, nodes, frontier, on, next.value))
    ensures next.Some? ==> next.value < |points|
    ensures Known(points, frontier, closest) <= Known(points, frontier', next)
  {
    if closest.Some? {
      return frontier, closest;
    }
    if |frontier| == 0 {
      return frontier, None;
    }
    var j := FirstMinimum(points, frontier);
    var c := frontier[j];
    RemoveTileKeeps(points, nodes, frontier, end, points[c].tile);
    RemoveTileTiles(points, frontier, points[c].tile);
    frontier' := RemoveTile(points, frontier, points[c].tile);
    next := Some(c);
  }

  /**
   * Lines 52-129: walk from the start, always to the new neighbour nearer the end if there is one,
   * otherwise to the queued point with the smallest estimate, until the end is reached (it is then
   * registered in `nodes`, linked back to the point it was reached from) or nothing is queued. Every
   * round registers a tile not registered before, and only the start and the tiles of the map can
   * be registered, so the loop ends. `arrived` says which way it ended. When nothing was left queued
   * (lines 111-113), every drivable tile next to a registered tile is registered too.
   */
  method Search(m: GameMap, start: Tile, end: Tile) returns (points: seq<TrailPoint>, nodes: map<Tile, nat>, arrived: bool)
    requires WellFormed(m) && start != end
    ensures Linked(points) && Placed(m, start, end, points) && Registered(points, nodes)
    ensures start in nodes
    ensures arrived <==> end in nodes
    ensures !arrived ==> Closed(m, nodes.Keys, {})
    ensures arrived ==> Reaches(m, start, end)
  {
    points, nodes := [NewTrailPoint(start, end, 0)], map[];
    var frontier: seq<nat> := [];
    var on: nat := 0;
    assert IsRoute(m, start, start, [start]);
    ghost var universe := Universe(m, start);
    while true
      invariant Searching(m, start, end, points, nodes, frontier) && Ready(end, points, nodes, frontier, on)
      invariant nodes.Keys <= universe
      invariant start in nodes || points[on].tile == start
      invariant Closed(m, nodes.Keys, QueuedTiles(points, frontier) + {points[on].tile})
      invariant forall k :: 0 <= k < |points| ==> Reaches(m, start, points[k].tile)
      decreases |universe - nodes.Keys|
    {
      InUniverse(m, start, points[on].tile);
      Shrinks(universe, nodes.Keys, points[on].tile);
      var next;
      points, nodes, frontier, next := Round(m, start, end, points, nodes, frontier, on);
      if next.None? {
        arrived := false;
        break;
      }
      var c := next.value;
      if points[c].tile == end {
        assert Reaches(m, start, end);
        Arrive(m, start, end, points, nodes, frontier, on, c);
        points := points[c := points[c].(neighbors := points[c].neighbors + [on])];
        nodes := nodes[end := c];
        arrived := true;
        break;
      }
      on := c;
    }
  }

  /**
   * Lines 58-120, one round of the search loop: walk from tpOn, then choose the next point. The
   * tiles registered stay closed up to the tiles still queued and the next point's.
   */
  method Round(m: GameMap, start: Tile, end: Tile, points: seq<TrailPoint>, nodes: map<Tile, nat>,
               frontier: seq<nat>, on: nat)
    returns (points': seq<TrailPoint>, nodes': map<Tile, nat>, frontier': seq<nat>, next: Option<nat>)
    requires WellFormed(m) && Searching(m, start, end, points, nodes, frontier) && Ready(end, points, nodes, frontier, on)
    requires Closed(m, nodes.Keys, QueuedTiles(points, frontier) + {points[on].tile})
    requires forall k :: 0 <= k < |points| ==> Reaches(m, start, points[k].tile)
    ensures nodes' == nodes[points[on].tile := on]
    ensures forall k :: 0 <= k < |points'| ==> Reaches(m, start, points'[k].tile)
    ensures Searching(m, start, end, points', nodes', frontier') && on < |points'|
    ensures next.Some? ==> next.value < |points'|
    ensures next.Some? ==>
      || Ready(end, points', nodes', frontier', next.value)
      || (points'[next.value].tile == end && Candidate(points', nodes', frontier', on, next.value))
    ensures next.None? ==> Closed(m, nodes'.Keys, {})
    ensures next.Some? ==> Closed(m, nodes'.Keys, QueuedTiles(points', frontier') + {points'[next.value].tile})
  {
    ghost var t, queued := points[on].tile, QueuedTiles(points, frontier);
    var closest;
    points', nodes', frontier', closest := Walk(m, start, end, points, nodes, frontier, on);
    ReachesGrown(m, start, end, t, points, points');
    ghost var known := Known(points', frontier', closest);
    frontier', next := Choose(m, start, end, points', nodes', frontier', on, closest);
    RoundCloses(m, nodes.Keys, t, queued, known, Known(points', frontier', next));
    assert nodes'.Keys == nodes.Keys + {t};
    if next.None? {
      assert frontier' == [];
      assert Known(points', frontier', next) == {};
    }
  }

  /**
   * Every drivable tile next to a tile of `keys` is in `keys` or in `also`: the registered tiles,
   * together with `also`, are closed under a drive of one step.
   */
  ghost predicate Closed(m: GameMap, keys: set<Tile>, also: set<Tile>)
    requires WellFormed(m)
  {
    forall t, u :: t in keys && Adjacent(u, t) && DriveableAt(m, u) ==> u in keys || u in also
  }

  /** One round keeps the registered tiles closed up to the tiles the search knows of. */
  lemma RoundCloses(m: GameMap, keys: set<Tile>, t: Tile, queued: set<Tile>, known: set<Tile>, known': set<Tile>)
    requires WellFormed(m) && Closed(m, keys, queued + {t})
    requires queued <= known <= known'
    requires forall u :: Adjacent(u, t) && DriveableAt(m, u) ==> u in keys + {t} || u in known
    ensures Closed(m, keys + {t}, known')
  {
  }

  /** A drive from `from` to `to`: one tile at a time, every tile after the first drivable. */
  predicate IsRoute(m: GameMap, from: Tile, to: Tile, route: seq<Tile>)
    requires WellFormed(m)
  {
    && |route| >= 1 && route[0] == from && route[|route| - 1] == to
    && (forall k :: 0 <= k < |route| - 1 ==> Adjacent(route[k], route[k + 1]))
    && (forall k :: 0 < k < |route| ==> DriveableAt(m, route[k]))
  }

  /** Some route leads from `start` to `t`. */
  ghost predicate Reaches(m: GameMap, start: Tile, t: Tile)
    requires WellFormed(m)
  {
    exists route :: IsRoute(m, start, t, route)
  }

  /** The points a walk from a reachable tile adds are reachable, as are the points that were there. */
  lemma ReachesGrown(m: GameMap, start: Tile, end: Tile, t: Tile, points: seq<TrailPoint>, points': seq<TrailPoint>)
    requires WellFormed(m) && Reaches(m, start, t) && Placed(m, start, end, points')
    requires forall k :: 0 <= k < |points| ==> Reaches(m, start, points[k].tile)
    requires |points| <= |points'| && forall k :: 0 <= k < |points| ==> points'[k].tile == points[k].tile
    requires forall k :: |points| <= k < |points'| ==> Adjacent(points'[k].tile, t)
    ensures forall k :: 0 <= k < |points'| ==> Reaches(m, start, points'[k].tile)
  {
    forall k | 0 <= k < |points'| ensures Reaches(m, start, points'[k].tile) {
      if k < |points| {
        assert points'[k].tile == points[k].tile;
      } else if points'[k].tile != start {
        ReachesNext(m, start, t, points'[k].tile);
      } else {
        assert IsRoute(m, start, start, [start]);
      }
    }
  }

  /** One more step to a drivable adjacent tile extends a route. */
  lemma ReachesNext(m: GameMap, start: Tile, t: Tile, u: Tile)
    requires WellFormed(m) && Reaches(m, start, t) && Adjacent(u, t) && DriveableAt(m, u)
    ensures Reaches(m, start, u)
  {
    var route :| IsRoute(m, start, t, route);
    var route' := route + [u];
    assert Adjacent(route'[|route| - 1], route'[|route|]);
    assert IsRoute(m, start, u, route');
  }

  /** A route that starts inside a set of tiles closed under a drive of one step never leaves it. */
  lemma {:induction false} RouteStaysInside(m: GameMap, keys: set<Tile>, from: Tile, to: Tile, route: seq<Tile>)
    requires WellFormed(m) && Closed(m, keys, {}) && from in keys && IsRoute(m, from, to, route)
    ensures to in keys
    decreases |route|
  {
    if |route| > 1 {
      var n := |route| - 1;
      var prefix := route[..n];
      assert IsRoute(m, from, route[n - 1], prefix);
      RouteStaysInside(m, keys, from, route[n - 1], prefix);
      assert Adjacent(route[n - 1], route[n]);
      assert Adjacent(route[n], route[n - 1]);
    }
  }

  /** An exhausted search that registered the start but not the end leaves no route between them. */
  lemma NoRouteWhenClosed(m: GameMap, keys: set<Tile>, start: Tile, end: Tile)
    requires WellFormed(m) && Closed(m, keys, {}) && start in keys && end !in keys
    ensures forall route :: !IsRoute(m, start, end, route)
  {
    forall route | IsRoute(m, start, end, route) ensures false {
      RouteStaysInside(m, keys, start, end, route);
    }
  }

  /** Lines 123-126: the end point, linked back to tpOn and registered, completes a graph to walk back through. */
  lemma Arrive(m: GameMap, start: Tile, end: Tile, points: seq<TrailPoint>, nodes: map<Tile, nat>,
               frontier: seq<nat>, on: nat, c: nat)
    requires WellFormed(m) && Searching(m, start, end, points, nodes, frontier) && on < |points|
    requires Candidate(points, nodes, frontier, on, c) && points[c].tile == end
    ensures var points' := points[c := points[c].(neighbors := points[c].neighbors + [on])];
      Linked(points') && Placed(m, start, end, points') && Registered(points', nodes[end := c])
  {
    var points' := points[c := points[c].(neighbors := points[c].neighbors + [on])];
    LinkedAppend(points, points', c, on);
  }

  /**
   * calculatePath: [start] when start is the end; otherwise search and walk back from the end.
   * A returned path ends at the end, moves one tile at a time and stays on the start and drivable
   * tiles; when it does not begin at the start, the walk back met a point no neighbour of which
   * was cheaper.
   */
  method CalculatePath(m: GameMap, start: Tile, end: Tile) returns (r: Result<seq<Tile>, PathError>)
    requires WellFormed(m)
    ensures start == end ==> r == Success([start])
    ensures r.Success? ==> |r.value| >= 1 && r.value[|r.value| - 1] == end
    ensures r.Success? ==> forall k :: 0 <= k < |r.value| - 1 ==> Adjacent(r.value[k], r.value[k + 1])
    ensures r.Success? ==> forall k :: 0 <= k < |r.value| ==> r.value[k] == start || DriveableAt(m, r.value[k])
    ensures r == Failure(NoRoute) <==> start != end && forall route :: !IsRoute(m, start, end, route)
  {
    if start == end {
      return Success([start]);
    }
    var points, nodes, arrived := Search(m, start, end);
    ghost var trail;
    r, trail := Reconstruct(points, nodes, start, end);
    if !arrived {
      NoRouteWhenClosed(m, nodes.Keys, start, end);
    }
  }
}

=== FILE: tcp_client.dfy ===
/**
 * The framed transport of the client (tcpClient.py): every message travels as a
 * 4-byte length header followed by that many payload bytes.  The header is built
 * the way the source builds it -- the length as eight hexadecimal digits, cut into
 * four two-digit bytes, the bytes reversed -- which puts the least significant byte
 * first.  The socket is abstracted: `recv` and `send` hand back as many bytes as a
 * chunk-size oracle says, so the proofs hold for every way the network splits data.
 */
module TcpClient {
  import opened Wrappers

  type byte = x: int | 0 <= x < 256
  type HexDigit = x: int | 0 <= x < 16

  /** The byte `'>'`, the last character of every XML document the server sends. */
  const CLOSE_TAG: byte := 62
  const MAX_LENGTH: nat := 0x1_0000_0000

  datatype Error =
    | PayloadTooLarge   // the `len(hexlen) == 8` assertion of sendMessage fails
    | ConnectionClosed  // the peer stopped sending in the middle of a frame
    | MalformedFrame    // the `end > 0` assertion of Receiver.run fails

  // ---------------------------------------------------------------- header

  function Pow16(k: nat): nat {
    if k == 0 then 1 else 16 * Pow16(k - 1)
  }

  /** `"{:x}".format(n)`: the hexadecimal digits of `n`, no leading zeros. */
  function HexDigits(n: nat): (r: seq<HexDigit>)
    ensures |r| >= 1
  {
    if n < 16 then [n] else HexDigits(n / 16) + [n % 16]
  }

  /** `"{:0wx}".format(n)`: the digits, padded with zeros on the left to at least `w`. */
  function FormatHex(n: nat, w: nat): (r: seq<HexDigit>)
    ensures |r| >= w
  {
    var d := HexDigits(n);
    if |d| < w then seq(w - |d|, _ => 0) + d else d
  }

  /** `int(s, 16)`. */
  function ParseHex(ds: seq<HexDigit>): nat {
    if ds == [] then 0 else ParseHex(ds[..|ds| - 1]) * 16 + ds[|ds| - 1]
  }

  lemma {:induction false} HexDigitsLength(n: nat, k: nat)
    requires k >= 1
    ensures |HexDigits(n)| <= k <==> n < Pow16(k)
  {
    if n >= 16 {
      if k > 1 {
        HexDigitsLength(n / 16, k - 1);
      } else {
        assert Pow16(1) == 16;
      }
    } else {
      PowAtLeast16(k);
    }
  }

  lemma {:induction false} PowAtLeast16(k: nat)
    requires k >= 1
    ensures Pow16(k) >= 16
  {
    if k > 1 { PowAtLeast16(k - 1); }
  }

  lemma {:induction false} ParseHexDigits(n: nat)
    ensures ParseHex(HexDigits(n)) == n
  {
    if n >= 16 {
      ParseHexDigits(n / 16);
      var d := HexDigits(n);
      assert d[..|d| - 1] == HexDigits(n / 16);
    }
  }

  lemma {:induction false} ParseHexLeadingZeros(k: nat, d: seq<HexDigit>)
    ensures ParseHex(seq(k, _ => 0) + d) == ParseHex(d)
    decreases |d|, k
  {
    var z: seq<HexDigit> := seq(k, _ => 0);
    if d == [] {
      assert z + d == z;
      if k > 0 {
        assert z[..k - 1] == seq(k - 1, _ => 0);
        ParseHexLeadingZeros(k - 1, []);
        assert seq(k - 1, _ => 0) + [] == seq(k - 1, _ => 0);
      }
    } else {
      assert (z + d)[..|z + d| - 1] == z + d[..|d| - 1];
      ParseHexLeadingZeros(k, d[..|d| - 1]);
    }
  }

  /** Reading the zero-padded digits back gives the number. */
  lemma ParseFormatHex(n: nat, w: nat)
    ensures ParseHex(FormatHex(n, w)) == n
  {
    ParseHexDigits(n);
    var d := HexDigits(n);
    if |d| < w { ParseHexLeadingZeros(w - |d|, d); }
  }

  /** Eight-digit hex string read back, unfolded to its positional value. */
  lemma ParseHex8(h: seq<HexDigit>)
    requires |h| == 8
    ensures ParseHex(h) == h[0] as int * 0x1000_0000 + h[1] as int * 0x100_0000 + h[2] as int * 0x10_0000
                          + h[3] as int * 0x1_0000 + h[4] as int * 0x1000 + h[5] as int * 0x100
                          + h[6] as int * 0x10 + h[7] as int
  {
    assert h[..1][..0] == [];
    assert ParseHex(h[..1]) == h[0];
    assert h[..2][..1] == h[..1];
    assert ParseHex(h[..2]) == ParseHex(h[..1]) * 16 + h[1];
    assert h[..3][..2] == h[..2];
    assert ParseHex(h[..3]) == ParseHex(h[..2]) * 16 + h[2];
    assert h[..4][..3] == h[..3];
    assert ParseHex(h[..4]) == ParseHex(h[..3]) * 16 + h[3];
    assert h[..5][..4] == h[..4];
    assert ParseHex(h[..5]) == ParseHex(h[..4]) * 16 + h[4];
    assert h[..6][..5] == h[..5];
    assert ParseHex(h[..6]) == ParseHex(h[..5]) * 16 + h[5];
    assert h[..7][..6] == h[..6];
    assert ParseHex(h[..7]) == ParseHex(h[..6]) * 16 + h[6];
    assert h[..7] == h[..|h| - 1];
    assert ParseHex(h) == ParseHex(h[..7]) * 16 + h[7];
  }

  /** `"{:02x}".format(b)`: a byte as exactly two digits. */
  lemma FormatByte(b: byte)
    ensures FormatHex(b, 2) == [b / 16, b % 16]
  {
    if b >= 16 {
      assert HexDigits(b / 16) == [b / 16];
    }
  }

  /** The four bytes `chr(int(hexlen[i:i+2], 16))` for i = 0, 2, 4, 6. */
  function HexPairs(h: seq<HexDigit>): (r: seq<byte>)
    requires |h| == 8
    ensures |r| == 4
  {
    [h[0] as int * 16 + h[1], h[2] as int * 16 + h[3], h[4] as int * 16 + h[5], h[6] as int * 16 + h[7]]
  }

  /**
   * sendMessage's length header: Failure when the length needs more than eight hex digits,
   * otherwise the digit pairs in reverse order.
   */
  function EncodeHeader(length: nat): (r: Result<seq<byte>, Error>)
    ensures r.Success? <==> length < MAX_LENGTH
    ensures r.Success? ==> |r.value| == 4 && DecodeHeader(r.value) == length
  {
    var hexlen := FormatHex(length, 8);
    HexDigitsLength(length, 8);
    assert Pow16(8) == MAX_LENGTH;
    if |hexlen| != 8 then Failure(PayloadTooLarge)
    else
      var chrstr := HexPairs(hexlen);
      var header := [chrstr[3], chrstr[2], chrstr[1], chrstr[0]];
      HeaderRoundTrip(length, hexlen, header);
      Success(header)
  }

  lemma HeaderRoundTrip(length: nat, hexlen: seq<HexDigit>, header: seq<byte>)
    requires |hexlen| == 8 && hexlen == FormatHex(length, 8)
    requires header == [HexPairs(hexlen)[3], HexPairs(hexlen)[2], HexPairs(hexlen)[1], HexPairs(hexlen)[0]]
    ensures DecodeHeader(header) == length
  {
    ParseFormatHex(length, 8);
    ParseHex8(hexlen);
  }

  /**
   * getData's reading of the header: each byte as two hex digits, the list reversed,
   * joined and parsed -- which is the little-endian value of the four bytes.
   */
  function DecodeHeader(recstr: seq<byte>): (length: nat)
    requires |recstr| == 4
    ensures length == HeaderValue(recstr)
  {
    var lenstr := [FormatHex(recstr[3], 2), FormatHex(recstr[2], 2), FormatHex(recstr[1], 2), FormatHex(recstr[0], 2)];
    var digits := lenstr[0] + lenstr[1] + lenstr[2] + lenstr[3];
    FormatByte(recstr[0]); FormatByte(recstr[1]); FormatByte(recstr[2]); FormatByte(recstr[3]);
    ParseHex8(digits);
    ParseHex(digits)
  }

  /** The value of four bytes read least significant first. */
  function HeaderValue(h: seq<byte>): nat
    requires |h| == 4
  {
    h[0] as int + 0x100 * h[1] as int + 0x1_0000 * h[2] as int + 0x100_0000 * h[3] as int
  }

  /** The header is the length, least significant byte first. */
  function LittleEndian(n: nat): (r: seq<byte>)
    requires n < MAX_LENGTH
  {
    [n % 0x100, n / 0x100 % 0x100, n / 0x100 / 0x100 % 0x100, n / 0x100 / 0x100 / 0x100]
  }

  lemma DivMod256(x: int, q: int, r: int)
    requires 0 <= r < 0x100 && x == q * 0x100 + r
    ensures x / 0x100 == q && x % 0x100 == r
  {
  }

  lemma DecodeLittleEndian(n: nat)
    requires n < MAX_LENGTH
    ensures DecodeHeader(LittleEndian(n)) == n
  {
    var q1, q2, q3 := n / 0x100, n / 0x100 / 0x100, n / 0x100 / 0x100 / 0x100;
    assert n == q1 * 0x100 + n % 0x100;
    assert q1 == q2 * 0x100 + q1 % 0x100;
    assert q2 == q3 * 0x100 + q2 % 0x100;
    assert q3 < 0x100;
  }

  /** Two headers that decode to the same length are the same bytes. */
  lemma HeaderInjective(a: seq<byte>, b: seq<byte>)
    requires |a| == 4 && |b| == 4 && DecodeHeader(a) == DecodeHeader(b)
    ensures a == b
  {
    var x := DecodeHeader(a);
    var qa := a[1] as int + 0x100 * a[2] as int + 0x1_0000 * a[3] as int;
    var qb := b[1] as int + 0x100 * b[2] as int + 0x1_0000 * b[3] as int;
    DivMod256(x, qa, a[0]);
    DivMod256(x, qb, b[0]);
    var ra := a[2] as int + 0x100 * a[3] as int;
    var rb := b[2] as int + 0x100 * b[3] as int;
    DivMod256(qa, ra, a[1]);
    DivMod256(qa, rb, b[1]);
    DivMod256(ra, a[3], a[2]);
    DivMod256(ra, b[3], b[2]);
  }

  lemma EncodeHeaderIsLittleEndian(n: nat)
    requires n < MAX_LENGTH
    ensures EncodeHeader(n) == Success(LittleEndian(n))
  {
    DecodeLittleEndian(n);
    HeaderInjective(EncodeHeader(n).value, LittleEndian(n));
  }

  // ---------------------------------------------------------------- receiving

  function Min(a: nat, b: nat): nat { if a <= b then a else b }

  /**
   * How many bytes the `call`-th `socket.recv(want)` hands back while `available` bytes are
   * still to come: whatever the oracle says, but at least one (the call blocks until data
   * arrives) and at most `want` and `available`; nothing once the peer has closed.
   */
  function RecvCount(chunk: (nat, nat) -> nat, call: nat, want: nat, available: nat): (k: nat)
    ensures k <= want && k <= available
    ensures want > 0 && available > 0 ==> k >= 1
  {
    if want == 0 || available == 0 then 0
    else if chunk(call, want) == 0 then 1
    else Min(Min(chunk(call, want), want), available)
  }

  /** `''.join(buff)`. */
  function Concat(parts: seq<seq<byte>>): seq<byte> {
    if parts == [] then [] else Concat(parts[..|parts| - 1]) + parts[|parts| - 1]
  }

  /** The stream holds a header and at least as many payload bytes as the header announces. */
  predicate FrameComplete(stream: seq<byte>) {
    |stream| >= 4 && |stream| - 4 >= HeaderValue(stream[..4])
  }

  function FrameBody(stream: seq<byte>): seq<byte>
    requires FrameComplete(stream)
  {
    stream[4..4 + HeaderValue(stream[..4])]
  }

  /**
   * getData: receive exactly four header bytes, then exactly the announced number of payload
   * bytes, however the peer's bytes are split into chunks.  `stream` is everything the peer
   * sends; `consumed` is how much of it has been read.
   */
  method GetData(stream: seq<byte>, chunk: (nat, nat) -> nat) returns (r: Result<seq<byte>, Error>, consumed: nat)
    ensures consumed <= |stream|
    ensures r.Success? <==> FrameComplete(stream)
    ensures r.Success? ==> r.value == FrameBody(stream) && consumed == 4 + |r.value|
    ensures r.Failure? ==> r.error == ConnectionClosed && consumed == |stream|
  {
    var recstr, calls;
    recstr, consumed, calls := RecvHeader(stream, chunk);
    if recstr.None? {
      return Failure(ConnectionClosed), consumed;
    }
    var length := DecodeHeader(recstr.value);
    var data, used := RecvPayload(stream[4..], chunk, calls, length);
    consumed := 4 + used;
    if data.None? {
      return Failure(ConnectionClosed), consumed;
    }
    return Success(data.value), consumed;
  }

  /** getData's first loop: `recv` until the four header bytes are in, or the peer has closed. */
  method RecvHeader(stream: seq<byte>, chunk: (nat, nat) -> nat) returns (recstr: Option<seq<byte>>, consumed: nat, calls: nat)
    ensures recstr.Some? <==> |stream| >= 4
    ensures recstr.Some? ==> recstr.value == stream[..4] && consumed == 4
    ensures recstr.None? ==> consumed == |stream|
  {
    var k := RecvCount(chunk, 0, 4, |stream|);
    var got := stream[..k];
    consumed, calls := k, 1;
    while |got| < 4
      invariant consumed <= |stream| && consumed <= 4 && got == stream[..consumed]
    {
      k := RecvCount(chunk, calls, 4 - |got|, |stream| - consumed);
      if k == 0 {
        return None, consumed, calls;
      }
      got := got + stream[consumed..consumed + k];
      consumed, calls := consumed + k, calls + 1;
    }
    return Some(got), consumed, calls;
  }

  /**
   * getData's second loop: `recv` until `length` payload bytes are in, the chunks gathered in
   * `buff` and joined once there was more than one; None when the peer closes first.
   */
  method RecvPayload(stream: seq<byte>, chunk: (nat, nat) -> nat, calls: nat, length: nat)
    returns (r: Option<seq<byte>>, consumed: nat)
    ensures r.Some? <==> length <= |stream|
    ensures r.Some? ==> r.value == stream[..length] && consumed == length
    ensures r.None? ==> consumed == |stream|
  {
    var k := RecvCount(chunk, calls, length, |stream|);
    var data := stream[..k];
    var call: nat := calls + 1;
    consumed := k;
    var received := |data|;
    var buff: seq<seq<byte>> := [];
    while received < length
      invariant consumed <= |stream| && received == consumed <= length
      invariant Concat(buff) + data == stream[..consumed]
    {
      buff := buff + [data];
      k := RecvCount(chunk, call, length - received, |stream| - consumed);
      if k == 0 {
        return None, consumed;
      }
      data := stream[consumed..consumed + k];
      consumed, call := consumed + k, call + 1;
      received := received + |data|;
    }
    if buff != [] {
      buff := buff + [data];
      data := Concat(buff);
    }
    return Some(data), consumed;
  }

  // ---------------------------------------------------------------- trimming

  /** `data.rfind(b)`: the last position of `b`, or -1. */
  function RFind(data: seq<byte>, b: byte): (r: int)
    ensures -1 <= r < |data|
    ensures r >= 0 ==> data[r] == b
    ensures forall i :: r < i < |data| ==> data[i] != b
  {
    if data == [] then -1
    else if data[|data| - 1] == b then |data| - 1
    else RFind(data[..|data| - 1], b)
  }

  /**
   * Receiver.run's clean-up of a frame: keep everything up to and including the last `'>'`,
   * which must not be the first byte; otherwise the assertion fails.
   */
  function TrimFrame(data: seq<byte>): (r: Result<seq<byte>, Error>)
    ensures r.Success? <==> exists i :: 0 < i < |data| && data[i] == CLOSE_TAG
    ensures r.Success? ==> 2 <= |r.value| <= |data| && r.value == data[..|r.value|]
    ensures r.Success? ==> r.value[|r.value| - 1] == CLOSE_TAG && CLOSE_TAG !in data[|r.value|..]
    ensures r.Failure? ==> r.error == MalformedFrame
  {
    var end := RFind(data, CLOSE_TAG);
    if end > 0 then Success(data[..end + 1]) else Failure(MalformedFrame)
  }

  /** Trimming a trimmed frame changes nothing. */
  lemma TrimIdempotent(data: seq<byte>)
    requires TrimFrame(data).Success?
    ensures TrimFrame(TrimFrame(data).value) == TrimFrame(data)
  {
    var t := TrimFrame(data).value;
    assert RFind(t, CLOSE_TAG) == |t| - 1;
    assert t[..|t|] == t;
  }

  /** A document that ends in `'>'` followed by filler without `'>'` is trimmed back to the document. */
  lemma TrimStripsFiller(doc: seq<byte>, filler: seq<byte>)
    requires |doc| >= 2 && doc[|doc| - 1] == CLOSE_TAG && CLOSE_TAG !in filler
    ensures TrimFrame(doc + filler) == Success(doc)
  {
    var data := doc + filler;
    assert data[|doc| - 1] == CLOSE_TAG;
  }

  // ---------------------------------------------------------------- sending

  /** How many bytes the `call`-th `socket.send(data)` of `want` bytes accepts: at least one, at most all. */
  function SendCount(send: (nat, nat) -> nat, call: nat, want: nat): (k: nat)
    ensures k <= want && (want > 0 ==> k >= 1)
  {
    if want == 0 then 0 else if send(call, want) == 0 then 1 else Min(send(call, want), want)
  }

  /** A whole frame: the header, then the payload. */
  function EncodeFrame(message: seq<byte>): seq<byte>
    requires |message| < MAX_LENGTH
  {
    EncodeHeader(|message|).value + message
  }

  /** What sendMessage puts on the wire: the result of the header's single `send` is not checked. */
  function WireAsWritten(message: seq<byte>, send: (nat, nat) -> nat): seq<byte>
    requires |message| < MAX_LENGTH
  {
    EncodeHeader(|message|).value[..SendCount(send, 0, 4)] + message
  }

  /**
   * TcpClient.sendMessage as written: one `send` of the header, then `send` again on the
   * unsent suffix of the payload until all of it has gone.  The result is the bytes written.
   */
  method SendMessage(message: seq<byte>, send: (nat, nat) -> nat) returns (r: Result<seq<byte>, Error>)
    ensures r.Success? <==> |message| < MAX_LENGTH
    ensures r.Success? ==> r.value == WireAsWritten(message, send)
    ensures r.Failure? ==> r.error == PayloadTooLarge
  {
    var length := |message|;
    var header := EncodeHeader(length);
    if header.Failure? {
      return Failure(PayloadTooLarge);
    }
    var retlen := header.value;
    var wire := retlen[..SendCount(send, 0, 4)];
    var calls := 1;
    var ret := SendCount(send, calls, length);
    wire, calls := wire + message[..ret], calls + 1;
    while ret < length
      invariant ret <= length && wire == retlen[..SendCount(send, 0, 4)] + message[..ret]
    {
      var k := SendCount(send, calls, length - ret);
      wire := wire + message[ret..ret + k];
      ret, calls := ret + k, calls + 1;
    }
    return Success(wire);
  }

  /** A send oracle that accepts one byte per call makes sendMessage lose three header bytes. */
  lemma HeaderCutShort()
    ensures WireAsWritten([CLOSE_TAG], (call, want) => 1) != EncodeFrame([CLOSE_TAG])
  {
    assert |EncodeHeader(1).value| == 4;
  }

  /** sendMessage with the header sent by the same loop as the payload: the whole frame goes out. */
  method SendFrame(message: seq<byte>, send: (nat, nat) -> nat) returns (r: Result<seq<byte>, Error>)
    ensures r.Success? <==> |message| < MAX_LENGTH
    ensures r.Success? ==> r.value == EncodeFrame(message)
    ensures r.Failure? ==> r.error == PayloadTooLarge
  {
    var header := EncodeHeader(|message|);
    if header.Failure? {
      return Failure(PayloadTooLarge);
    }
    var frame := header.value + message;
    var wire: seq<byte> := [];
    var calls := 0;
    while |wire| < |frame|
      invariant |wire| <= |frame| && wire == frame[..|wire|]
      decreases |frame| - |wire|
    {
      var k := SendCount(send, calls, |frame| - |wire|);
      wire := wire + frame[|wire|..|wire| + k];
      calls := calls + 1;
    }
    return Success(wire);
  }

  // ---------------------------------------------------------------- threads' state

  /** One step of Receiver.run: a frame read by getData and trimmed; `consumed` bytes of the stream used. */
  function NextMessage(stream: seq<byte>): (r: Result<(seq<byte>, nat), Error>)
    ensures r.Success? ==> 4 <= r.value.1 <= |stream|
    ensures r.Success? ==> 4 + |r.value.0| <= r.value.1 && |r.value.0| >= 2 && r.value.0[|r.value.0| - 1] == CLOSE_TAG
  {
    if !FrameComplete(stream) then Failure(ConnectionClosed)
    else match TrimFrame(FrameBody(stream))
      case Failure(e) => Failure(e)
      case Success(m) => Success((m, 4 + |FrameBody(stream)|))
  }

  /**
   * The messages Receiver.run queues from `stream` before a read or a trim fails: each ends in
   * `'>'`, and each took its 4 header bytes and its own text from the stream.
   */
  function Messages(stream: seq<byte>): (r: seq<seq<byte>>)
    ensures forall i :: 0 <= i < |r| ==> |r[i]| >= 2 && r[i][|r[i]| - 1] == CLOSE_TAG
    ensures 6 * |r| <= |stream|
    decreases |stream|
  {
    match NextMessage(stream)
    case Failure(_) => []
    case Success((m, used)) => [m] + Messages(stream[used..])
  }

  lemma MessagesStop(stream: seq<byte>)
    requires NextMessage(stream).Failure?
    ensures Messages(stream) == []
  {
  }

  lemma MessagesStep(stream: seq<byte>, m: seq<byte>, used: nat)
    requires FrameComplete(stream) && used == 4 + |FrameBody(stream)|
    requires TrimFrame(FrameBody(stream)) == Success(m)
    ensures used <= |stream| && Messages(stream) == [m] + Messages(stream[used..])
  {
  }

  /** The background reader: its `running` flag and the queue of received messages. */
  class Receiver {
    var running: bool
    var input: seq<seq<byte>>

    constructor ()
      ensures running && input == []
    {
      running := true;
      input := [];
    }

    /**
     * Receiver.run: while running, read a frame, trim it and append it to `input`.  The loop
     * stops at the first frame that cannot be completed or that fails the `'>'` check.
     */
    method Run(stream: seq<byte>, chunk: (nat, nat) -> nat) returns (err: Error)
      modifies this`input
      ensures running ==> input == old(input) + Messages(stream)
      ensures !running ==> input == old(input)
    {
      err := ConnectionClosed;
      if !running {
        return;
      }
      var rest := stream;
      ghost var got: seq<seq<byte>> := [];
      while true
        invariant input == old(input) + got
        invariant Messages(stream) == got + Messages(rest)
        decreases |rest|
      {
        var message, used := ReadMessage(rest, chunk);
        if message.Failure? {
          assert got + Messages(rest) == got;
          return message.error;
        }
        MessagesShift(stream, rest, got, message.value, used);
        input, got := input + [message.value], got + [message.value];
        rest := rest[used..];
      }
    }
  }

  /** Moving one message from the unread stream to the messages already read keeps their sum. */
  lemma MessagesShift(stream: seq<byte>, rest: seq<byte>, got: seq<seq<byte>>, message: seq<byte>, used: nat)
    requires used <= |rest| && Messages(stream) == got + Messages(rest)
    requires Messages(rest) == [message] + Messages(rest[used..])
    ensures Messages(stream) == (got + [message]) + Messages(rest[used..])
  {
    var tail := Messages(rest[used..]);
    assert got + ([message] + tail) == (got + [message]) + tail;
  }

  /** One round of Receiver.run: read a frame and trim it; `used` is what the frame took from the stream. */
  method ReadMessage(stream: seq<byte>, chunk: (nat, nat) -> nat) returns (r: Result<seq<byte>, Error>, used: nat)
    ensures r.Failure? ==> Messages(stream) == []
    ensures r.Success? ==> 0 < used <= |stream| && Messages(stream) == [r.value] + Messages(stream[used..])
  {
    var data;
    data, used := GetData(stream, chunk);
    if data.Failure? {
      MessagesStop(stream);
      return Failure(data.error), used;
    }
    r := TrimFrame(data.value);
    if r.Failure? {
      MessagesStop(stream);
      return;
    }
    MessagesStep(stream, r.value, used);
  }

  /** The client side of the connection: its own `running` flag and its Receiver. */
  class Client {
    var running: bool
    const receiver: Receiver

    constructor ()
      ensures running && fresh(receiver) && receiver.running && receiver.input == []
    {
      running := true;
      receiver := new Receiver();
    }

    /** TcpClient.close: both loops are told to stop; nothing else changes. */
    method Close()
      modifies this, receiver
      ensures !running && !receiver.running
      ensures receiver.input == old(receiver.input)
    {
      receiver.running := false;
      running := false;
    }
  }
}

=== FILE: text.dfy ===
/**
 * The handful of Python string operations the client applies to message text:
 * `str.split`, `str.strip`, `str.lower`, `str.index`, `str(int)` and `int(str)`.
 */
module Text {
  import opened Wrappers

  /** The characters Python 2's `str.strip()` removes. */
  predicate IsSpace(c: char) {
    c == ' ' || c == '\t' || c == '\n' || c == '\r' || c == '\U{0B}' || c == '\U{0C}'
  }

  predicate IsDigit(c: char) { '0' <= c <= '9' }

  /** Every character of `s` is white space. */
  predicate AllSpace(s: string) {
    forall k :: 0 <= k < |s| ==> IsSpace(s[k])
  }

  /** Neither starts nor ends with white space. */
  predicate Unpadded(s: string) {
    s == [] || (!IsSpace(s[0]) && !IsSpace(s[|s| - 1]))
  }

  /** `s` is `r` with nothing but white space on either side. */
  predicate PaddedBy(s: string, r: string) {
    exists i, j :: 0 <= i <= j <= |s| && r == s[i..j] && AllSpace(s[..i]) && AllSpace(s[j..])
  }

  function StripRight(s: string): (r: string)
    ensures |r| <= |s| && r == s[..|r|]
    ensures r == [] || !IsSpace(r[|r| - 1])
    ensures AllSpace(s[|r|..])
  {
    if s != [] && IsSpace(s[|s| - 1]) then StripRight(s[..|s| - 1]) else s
  }

  /**
   * `s.strip()`: leading white space goes one character at a time, then StripRight drops the
   * trailing run. The result is `s` less white space on either side and neither starts nor ends
   * with white space; StripUnique shows that this pins the result down.
   */
  function Strip(s: string): (r: string)
    ensures Unpadded(r)
    ensures PaddedBy(s, r)
  {
    if s != [] && IsSpace(s[0]) then
      var r := Strip(s[1..]);
      PaddedByCons(s, r);
      r
    else
      var r := StripRight(s);
      assert r == s[0..|r|] && s[..0] == [];
      r
  }

  /** White space in front of a padded string keeps it padded. */
  lemma PaddedByCons(s: string, r: string)
    requires s != [] && IsSpace(s[0]) && PaddedBy(s[1..], r)
    ensures PaddedBy(s, r)
  {
    var i, j :| 0 <= i <= j <= |s[1..]| && r == s[1..][i..j] && AllSpace(s[1..][..i]) && AllSpace(s[1..][j..]);
    assert r == s[i + 1..j + 1] && s[j + 1..] == s[1..][j..];
    var pre := s[..i + 1];
    forall k | 0 <= k < |pre| ensures IsSpace(pre[k]) {
      if k > 0 { assert pre[k] == s[1..][..i][k - 1]; }
    }
  }

  /** Only one infix of `s` has both properties, so `Strip` removes exactly the outer white space. */
  lemma StripUnique(s: string, a: string, t: string, b: string)
    requires s == a + t + b && AllSpace(a) && AllSpace(b) && Unpadded(t)
    ensures Strip(s) == t
  {
    if t == [] {
      forall k | 0 <= k < |s| ensures IsSpace(s[k]) {
        if k < |a| { assert s[k] == a[k]; } else { assert s[k] == b[k - |a|]; }
      }
      StripAllSpace(s);
    } else {
      var e := |a| + |t|;
      assert s[..|a|] == a && s[e..] == b && s[|a|..e] == t;
      PaddedInfix(s, Strip(s), |a|, e);
    }
  }

  lemma {:induction false} StripAllSpace(s: string)
    requires AllSpace(s)
    ensures Strip(s) == []
  {
    if s != [] {
      assert IsSpace(s[0]);
      assert forall k :: 0 <= k < |s| - 1 ==> s[1..][k] == s[k + 1];
      StripAllSpace(s[1..]);
    }
  }

  /** An unpadded infix between two runs of white space starts and ends where the non-blank text does. */
  lemma PaddedInfix(s: string, r: string, p: nat, q: nat)
    requires Unpadded(r) && PaddedBy(s, r)
    requires p < q <= |s| && AllSpace(s[..p]) && AllSpace(s[q..]) && !IsSpace(s[p]) && !IsSpace(s[q - 1])
    ensures r == s[p..q]
  {
    var i, j :| 0 <= i <= j <= |s| && r == s[i..j] && AllSpace(s[..i]) && AllSpace(s[j..]);
    InfixAt(s, r, i, j, p, q);
  }

  /** PaddedInfix with the infix's bounds `i` and `j` given. */
  lemma InfixAt(s: string, r: string, i: nat, j: nat, p: nat, q: nat)
    requires Unpadded(r) && i <= j <= |s| && r == s[i..j] && AllSpace(s[..i]) && AllSpace(s[j..])
    requires p < q <= |s| && AllSpace(s[..p]) && AllSpace(s[q..]) && !IsSpace(s[p]) && !IsSpace(s[q - 1])
    ensures i == p && j == q
  {
    assert i <= p by { SpaceBound(s, i, p); }
    assert q - 1 < j by { SpaceBound'(s, j, q - 1); }
    assert !IsSpace(s[i]) && !IsSpace(s[j - 1]) by {
      assert |r| == j - i > 0 && r[0] == s[i] && r[|r| - 1] == s[j - 1];
    }
    assert p <= i by { SpaceBound(s, p, i); }
    assert j - 1 < q by { SpaceBound'(s, q, j - 1); }
  }

  /** A character that is not white space lies at or after the end of a white-space prefix. */
  lemma SpaceBound(s: string, i: nat, p: nat)
    requires i <= |s| && AllSpace(s[..i]) && p < |s| && !IsSpace(s[p])
    ensures i <= p
  {
    forall k | 0 <= k < i ensures IsSpace(s[k]) { assert s[..i][k] == s[k]; }
  }

  /** A character that is not white space lies before the start of a white-space suffix. */
  lemma SpaceBound'(s: string, j: nat, p: nat)
    requires j <= |s| && AllSpace(s[j..]) && p < |s| && !IsSpace(s[p])
    ensures p < j
  {
    forall k | j <= k < |s| ensures IsSpace(s[k]) { assert s[j..][k - j] == s[k]; }
  }

  lemma StripUnchanged(s: string)
    requires Unpadded(s)
    ensures Strip(s) == s
  {
    StripUnique(s, [], s, []);
    assert [] + s + [] == s;
  }

  /** `[s.strip() for s in pieces]`. */
  function StripAll(pieces: seq<string>): (r: seq<string>)
    ensures |r| == |pieces| && forall i :: 0 <= i < |r| ==> r[i] == Strip(pieces[i])
  {
    if pieces == [] then [] else [Strip(pieces[0])] + StripAll(pieces[1..])
  }

  /** Stripping a concatenation strips each part. */
  lemma {:induction false} StripAllAppend(a: seq<string>, b: seq<string>)
    ensures StripAll(a + b) == StripAll(a) + StripAll(b)
  {
    if a == [] {
      assert a + b == b;
    } else {
      assert (a + b)[0] == a[0] && (a + b)[1..] == a[1..] + b;
      StripAllAppend(a[1..], b);
    }
  }

  /** Every name of `names` is in `keys`. */
  predicate AllIn(names: seq<string>, keys: set<string>) {
    forall i :: 0 <= i < |names| ==> names[i] in keys
  }

  /** Every stripped piece lies in `keys` exactly when each piece strips into it. */
  lemma StripAllWithin(pieces: seq<string>, keys: set<string>)
    ensures AllIn(StripAll(pieces), keys) <==> (forall p :: p in pieces ==> Strip(p) in keys)
  {
    var names := StripAll(pieces);
    if AllIn(names, keys) {
      forall p | p in pieces ensures Strip(p) in keys {
        var i :| 0 <= i < |pieces| && pieces[i] == p;
        assert names[i] == Strip(p);
      }
    } else {
      var i :| 0 <= i < |names| && names[i] !in keys;
      assert pieces[i] in pieces && Strip(pieces[i]) !in keys;
    }
  }

  /** `c.lower()` on an ASCII letter; any other character is unchanged. */
  function LowerChar(c: char): char {
    if 'A' <= c <= 'Z' then c - 'A' + 'a' else c
  }

  /** `s.lower()` on ASCII letters. */
  function Lower(s: string): (r: string)
    ensures |r| == |s|
    ensures forall i :: 0 <= i < |s| ==> r[i] == LowerChar(s[i])
  {
    if s == [] then [] else [LowerChar(s[0])] + Lower(s[1..])
  }

  /** Only a lower-case letter and its upper-case partner lower to that letter. */
  lemma LowerCharIs(c: char, t: char)
    requires 'a' <= t <= 'z'
    ensures LowerChar(c) == t <==> c == t || c == t - 'a' + 'A'
  {
  }

  /** `s.lower() == w`, for a lower-case word `w`, holds of exactly the spellings of `w` in any mix of cases. */
  lemma LowerEquals(s: string, w: string)
    requires forall i :: 0 <= i < |w| ==> 'a' <= w[i] <= 'z'
    ensures Lower(s) == w <==> |s| == |w| && forall i :: 0 <= i < |s| ==> s[i] == w[i] || s[i] == w[i] - 'a' + 'A'
  {
    if |s| == |w| {
      var l := Lower(s);
      forall i | 0 <= i < |s| ensures l[i] == w[i] <==> s[i] == w[i] || s[i] == w[i] - 'a' + 'A' {
        LowerCharIs(s[i], w[i]);
      }
      assert l == w <==> forall i :: 0 <= i < |s| ==> l[i] == w[i];
    }
  }

  /** `s.split(sep)`: the pieces between the occurrences of `sep`; never empty. */
  function Split(s: string, sep: char): (r: seq<string>)
    ensures |r| >= 1
    ensures forall i :: 0 <= i < |r| ==> sep !in r[i]
  {
    if s == [] then [""]
    else if s[0] == sep then [""] + Split(s[1..], sep)
    else
      var rest := Split(s[1..], sep);
      [[s[0]] + rest[0]] + rest[1..]
  }

  /** `sep.join(parts)`, the inverse of `Split`. */
  function Join(parts: seq<string>, sep: char): string
    requires |parts| >= 1
  {
    if |parts| == 1 then parts[0] else parts[0] + [sep] + Join(parts[1..], sep)
  }

  /** Joining the pieces of a split with the separator gives the text back. */
  lemma {:induction false} SplitJoin(s: string, sep: char)
    ensures Join(Split(s, sep), sep) == s
  {
    if s != [] {
      SplitJoin(s[1..], sep);
      if s[0] != sep {
        var rest := Split(s[1..], sep);
        if |rest| > 1 {
          assert Join(rest, sep) == rest[0] + [sep] + Join(rest[1..], sep);
          assert ([[s[0]] + rest[0]] + rest[1..])[1..] == rest[1..];
        }
      } else {
        assert ([""] + Split(s[1..], sep))[1..] == Split(s[1..], sep);
      }
    }
  }

  /** The concatenation of `item + sep` over `items`, the shape every list the client sends has. */
  function Terminated(items: seq<string>, sep: char): string {
    if items == [] then [] else items[0] + [sep] + Terminated(items[1..], sep)
  }

  lemma {:induction false} SplitAfterPiece(a: string, b: string, sep: char)
    requires sep !in a
    ensures Split(a + [sep] + b, sep) == [a] + Split(b, sep)
  {
    if a == [] {
      assert a + [sep] + b == [sep] + b;
    } else {
      var s := a + [sep] + b;
      assert s[0] == a[0] && s[1..] == a[1..] + [sep] + b;
      SplitAfterPiece(a[1..], b, sep);
      assert [a[0]] + a[1..] == a;
    }
  }

  /** Splitting a terminated list gives the items back, followed by one empty piece. */
  lemma {:induction false} SplitTerminated(items: seq<string>, sep: char)
    requires forall i :: 0 <= i < |items| ==> sep !in items[i]
    ensures Split(Terminated(items, sep), sep) == items + [""]
  {
    if items != [] {
      SplitTerminated(items[1..], sep);
      SplitAfterPiece(items[0], Terminated(items[1..], sep), sep);
    }
  }

  /** `s.index(c)`: the first position of `c`, or None where Python raises ValueError. */
  function IndexOf(s: string, c: char): (r: Option<nat>)
    ensures r.Some? ==> r.value < |s| && s[r.value] == c && c !in s[..r.value]
    ensures r.None? ==> c !in s
  {
    if s == [] then None
    else if s[0] == c then Some(0)
    else match IndexOf(s[1..], c)
      case None => None
      case Some(k) => assert s[..k + 1] == [s[0]] + s[1..][..k]; Some(k + 1)
  }

  function DigitChar(d: nat): char
    requires d < 10
  {
    '0' + d as char
  }

  /** `str(n)` for a natural number: its decimal digits, most significant first. */
  function NatToString(n: nat): (r: string)
    ensures |r| >= 1 && forall i :: 0 <= i < |r| ==> IsDigit(r[i])
    ensures r[0] == '0' ==> n == 0 && r == "0"
  {
    if n < 10 then [DigitChar(n)] else NatToString(n / 10) + [DigitChar(n % 10)]
  }

  /**
   * `str(i)`: a minus sign exactly for negative numbers, then the decimal digits without leading
   * zeros; ParseIntToString reads it back.
   */
  function IntToString(i: int): (r: string)
    ensures r != [] && Unpadded(r)
    ensures r[0] == '-' <==> i < 0
    ensures var digits := if i < 0 then r[1..] else r;
      && digits != [] && (forall k :: 0 <= k < |digits| ==> IsDigit(digits[k]))
      && (digits[0] == '0' ==> i == 0)
  {
    if i < 0 then "-" + NatToString(-i) else NatToString(i)
  }

  function DigitOf(c: char): nat
    requires IsDigit(c)
  {
    (c as int - '0' as int) as nat
  }

  /** Where `int()` is while reading its argument. */
  datatype IntScan = Leading | Signed | Digits | Trailing

  /**
   * Python 2's `int(s)` read one character at a time: white space, an optional sign, white space
   * again (the sign is taken off before the digits' own leading white space is skipped), at least
   * one digit, white space. `acc` is the value of the digits read so far; None where Python raises
   * ValueError.
   */
  function Scan(s: string, at: IntScan, negative: bool, acc: nat): (r: Option<int>)
    ensures r.Some? && (at == Leading || at == Signed) ==> exists k :: 0 <= k < |s| && IsDigit(s[k])
    ensures r.Some? ==> forall k :: 0 <= k < |s| ==> IntChar(s[k])
  {
    if s == [] then
      if at == Digits || at == Trailing then Some(if negative then -(acc as int) else acc as int) else None
    else
      var c := s[0];
      match at
      case Leading =>
        if IsSpace(c) then Scan(s[1..], Leading, false, 0)
        else if c == '-' || c == '+' then Scan(s[1..], Signed, c == '-', 0)
        else if IsDigit(c) then Scan(s[1..], Digits, false, DigitOf(c))
        else None
      case Signed =>
        if IsDigit(c) then Scan(s[1..], Digits, negative, DigitOf(c))
        else if IsSpace(c) then Scan(s[1..], Signed, negative, 0)
        else None
      case Digits =>
        if IsDigit(c) then Scan(s[1..], Digits, negative, acc * 10 + DigitOf(c))
        else if IsSpace(c) then Scan(s[1..], Trailing, negative, acc)
        else None
      case Trailing =>
        if IsSpace(c) then Scan(s[1..], Trailing, negative, acc) else None
  }

  /**
   * `int(s)`: succeeds only on white space, signs and digits with at least one digit, and reads a
   * plain run of digits as its decimal value; ParseIntToString reads back what IntToString writes.
   */
  function ParseInt(s: string): (r: Option<int>)
    ensures r.Some? ==> exists k :: 0 <= k < |s| && IsDigit(s[k])
    ensures r.Some? ==> forall k :: 0 <= k < |s| ==> IntChar(s[k])
    ensures s != [] && (forall k :: 0 <= k < |s| ==> IsDigit(s[k])) ==> r == Some(Horner(0, s))
  {
    if s != [] && forall k :: 0 <= k < |s| ==> IsDigit(s[k]) then
      ScanDigits(s[1..], false, DigitOf(s[0]));
      Scan(s, Leading, false, 0)
    else
      Scan(s, Leading, false, 0)
  }

  /** Every character of `d` is a decimal digit. */
  predicate AllDigits(d: string) {
    forall k :: 0 <= k < |d| ==> IsDigit(d[k])
  }

  /**
   * The form `int()` accepts, cut into its parts: white space, an optional sign, white space,
   * digits, white space.
   */
  predicate IntLiteral(lead: string, sign: string, gap: string, digits: string, trail: string) {
    && AllSpace(lead) && (sign == "" || sign == "-" || sign == "+") && AllSpace(gap)
    && digits != [] && AllDigits(digits) && AllSpace(trail)
  }

  /** The value of a literal with that sign and those digits. */
  function LiteralValue(sign: string, digits: string): int
    requires AllDigits(digits)
  {
    if sign == "-" then -(Horner(0, digits) as int) else Horner(0, digits)
  }

  /** `int(s)` succeeds exactly on the literals of IntLiteral, with their value. */
  lemma ParseIntIff(s: string, v: int)
    ensures ParseInt(s) == Some(v) <==>
      exists lead, sign, gap, digits, trail :: IntLiteral(lead, sign, gap, digits, trail)
        && s == lead + sign + gap + digits + trail && v == LiteralValue(sign, digits)
  {
    if ParseInt(s) == Some(v) {
      var lead, sign, gap, digits, trail := ParseIntParts(s);
      ParseIntAccepts(lead, sign, gap, digits, trail);
      Assoc5(lead, sign, gap, digits, trail);
    }
    if exists lead, sign, gap, digits, trail :: IntLiteral(lead, sign, gap, digits, trail)
        && s == lead + sign + gap + digits + trail && v == LiteralValue(sign, digits) {
      var lead, sign, gap, digits, trail :| IntLiteral(lead, sign, gap, digits, trail)
        && s == lead + sign + gap + digits + trail && v == LiteralValue(sign, digits);
      ParseIntAccepts(lead, sign, gap, digits, trail);
    }
  }

  /** Every literal parses, to its value; `int('- 1') == -1` among them. */
  lemma ParseIntAccepts(lead: string, sign: string, gap: string, digits: string, trail: string)
    requires IntLiteral(lead, sign, gap, digits, trail)
    ensures ParseInt(lead + sign + gap + digits + trail) == Some(LiteralValue(sign, digits))
  {
    var number := digits + trail;
    var negative := sign == "-";
    var at := if sign == "" then Leading else Signed;
    var v: int := Horner(0, digits);
    assert lead + sign + gap + digits + trail == lead + (sign + (gap + number));
    assert number[1..] == digits[1..] + trail;
    calc {
      ParseInt(lead + (sign + (gap + number)));
      Scan(lead + (sign + (gap + number)), Leading, false, 0);
      { ScanSkip(lead, sign + (gap + number), Leading, false); }
      Scan(sign + (gap + number), Leading, false, 0);
      { ScanSign(sign, gap + number); }
      Scan(gap + number, at, negative, 0);
      { ScanSkip(gap, number, at, negative); }
      Scan(number, at, negative, 0);
      { ScanFirstDigit(number, at, negative); }
      Scan(digits[1..] + trail, Digits, negative, DigitOf(digits[0]));
      { ScanNumber(digits[1..], trail, negative, DigitOf(digits[0])); }
      Some(if negative then -v else v);
    }
  }

  lemma ScanSign(sign: string, rest: string)
    requires sign == "" || sign == "-" || sign == "+"
    ensures Scan(sign + rest, Leading, false, 0) == Scan(rest, if sign == "" then Leading else Signed, sign == "-", 0)
  {
    if sign == "" {
      assert sign + rest == rest;
    } else {
      assert (sign + rest)[0] == sign[0] && (sign + rest)[1..] == rest;
    }
  }

  lemma ScanFirstDigit(s: string, at: IntScan, negative: bool)
    requires s != [] && IsDigit(s[0]) && ((at == Leading && !negative) || at == Signed)
    ensures Scan(s, at, negative, 0) == Scan(s[1..], Digits, negative, DigitOf(s[0]))
  {
  }

  /** A parse that succeeds cuts its argument into the parts of a literal. */
  lemma {:induction false} ParseIntParts(s: string) returns (lead: string, sign: string, gap: string, digits: string, trail: string)
    requires Scan(s, Leading, false, 0).Some?
    ensures IntLiteral(lead, sign, gap, digits, trail) && s == lead + (sign + (gap + (digits + trail)))
    decreases |s|
  {
    var c := s[0];
    assert s == [c] + s[1..];
    if IsSpace(c) {
      var lead';
      lead', sign, gap, digits, trail := ParseIntParts(s[1..]);
      lead := [c] + lead';
      SpaceCons(c, lead');
      Assoc([c], lead', sign + (gap + (digits + trail)));
    } else if c == '-' || c == '+' {
      gap, digits, trail := SignedParts(s[1..], c == '-');
      lead, sign := [], [c];
      assert lead + (sign + s[1..]) == s;
    } else {
      var rest;
      rest, trail := DigitsParts(s[1..], false, DigitOf(c));
      lead, sign, gap, digits := [], [], [], [c] + rest;
      DigitCons(c, rest);
      Assoc([c], rest, trail);
      assert lead + (sign + (gap + (digits + trail))) == digits + trail;
    }
  }

  /** After the sign: white space, then the digits and what follows them. */
  lemma {:induction false} SignedParts(s: string, negative: bool) returns (gap: string, digits: string, trail: string)
    requires Scan(s, Signed, negative, 0).Some?
    ensures AllSpace(gap) && digits != [] && AllDigits(digits) && AllSpace(trail) && s == gap + (digits + trail)
    decreases |s|
  {
    var c := s[0];
    assert s == [c] + s[1..];
    if IsDigit(c) {
      var rest;
      rest, trail := DigitsParts(s[1..], negative, DigitOf(c));
      gap, digits := [], [c] + rest;
      DigitCons(c, rest);
      Assoc([c], rest, trail);
      assert gap + (digits + trail) == digits + trail;
    } else {
      var gap';
      gap', digits, trail := SignedParts(s[1..], negative);
      gap := [c] + gap';
      SpaceCons(c, gap');
      Assoc([c], gap', digits + trail);
    }
  }

  /** Among the digits: more digits, then white space only. */
  lemma {:induction false} DigitsParts(s: string, negative: bool, acc: nat) returns (digits: string, trail: string)
    requires Scan(s, Digits, negative, acc).Some?
    ensures AllDigits(digits) && AllSpace(trail) && s == digits + trail
    decreases |s|
  {
    if s == [] {
      digits, trail := [], [];
    } else if IsDigit(s[0]) {
      var rest;
      rest, trail := DigitsParts(s[1..], negative, acc * 10 + DigitOf(s[0]));
      digits := [s[0]] + rest;
      DigitCons(s[0], rest);
      assert s == [s[0]] + s[1..];
      Assoc([s[0]], rest, trail);
    } else {
      TrailingSpace(s[1..], negative, acc);
      digits, trail := [], s;
      SpaceCons(s[0], s[1..]);
      assert s == [s[0]] + s[1..];
    }
  }

  lemma SpaceCons(c: char, w: string)
    requires IsSpace(c) && AllSpace(w)
    ensures AllSpace([c] + w)
  {
  }

  lemma DigitCons(c: char, d: string)
    requires IsDigit(c) && AllDigits(d)
    ensures AllDigits([c] + d)
  {
  }

  lemma Assoc5(a: string, b: string, c: string, d: string, e: string)
    ensures a + (b + (c + (d + e))) == a + b + c + d + e
  {
    Assoc(c, d, e);
    Assoc(b, c + d, e);
    Assoc(b, c, d);
    Assoc(a, b + c + d, e);
    Assoc(a, b + c, d);
    Assoc(a, b, c);
  }

  lemma Assoc(a: string, b: string, c: string)
    ensures a + (b + c) == (a + b) + c
  {
  }

  lemma {:induction false} TrailingSpace(s: string, negative: bool, acc: nat)
    requires Scan(s, Trailing, negative, acc).Some?
    ensures AllSpace(s)
    decreases |s|
  {
    if s != [] {
      TrailingSpace(s[1..], negative, acc);
    }
  }

  /** White space before the sign, or between the sign and the digits, is skipped. */
  lemma {:induction false} ScanSkip(w: string, rest: string, at: IntScan, negative: bool)
    requires AllSpace(w) && ((at == Leading && !negative) || at == Signed)
    ensures Scan(w + rest, at, negative, 0) == Scan(rest, at, negative, 0)
    decreases |w|
  {
    if w != [] {
      var s := w + rest;
      assert s[0] == w[0] && s[1..] == w[1..] + rest;
      assert Scan(s, at, negative, 0) == Scan(s[1..], at, negative, 0);
      ScanSkip(w[1..], rest, at, negative);
    } else {
      assert w + rest == rest;
    }
  }

  /** Digits followed by white space read as the digits' value. */
  lemma {:induction false} ScanNumber(d: string, w: string, negative: bool, acc: nat)
    requires AllDigits(d) && AllSpace(w)
    ensures var v: int := Horner(acc, d); Scan(d + w, Digits, negative, acc) == Some(if negative then -v else v)
    decreases |d|
  {
    if d == [] {
      assert d + w == w;
      if w != [] {
        ScanTrailing(w[1..], negative, acc);
      }
    } else {
      assert (d + w)[1..] == d[1..] + w;
      ScanNumber(d[1..], w, negative, acc * 10 + DigitOf(d[0]));
    }
  }

  lemma {:induction false} ScanTrailing(w: string, negative: bool, acc: nat)
    requires AllSpace(w)
    ensures Scan(w, Trailing, negative, acc) == Some(if negative then -(acc as int) else acc as int)
    decreases |w|
  {
    if w != [] {
      ScanTrailing(w[1..], negative, acc);
    }
  }

  /** The characters `int()` accepts somewhere in its argument. */
  predicate IntChar(c: char) {
    IsSpace(c) || IsDigit(c) || c == '-' || c == '+'
  }

  /** The value of digits read after `acc`, most significant first. */
  function Horner(acc: nat, d: string): nat
    requires forall i :: 0 <= i < |d| ==> IsDigit(d[i])
    decreases |d|
  {
    if d == [] then acc else Horner(acc * 10 + DigitOf(d[0]), d[1..])
  }

  lemma {:induction false} ScanDigits(d: string, negative: bool, acc: nat)
    requires forall i :: 0 <= i < |d| ==> IsDigit(d[i])
    ensures var v: int := Horner(acc, d); Scan(d, Digits, negative, acc) == Some(if negative then -v else v)
    decreases |d|
  {
    if d != [] {
      ScanDigits(d[1..], negative, acc * 10 + DigitOf(d[0]));
    }
  }

  lemma {:induction false} HornerAppend(acc: nat, d: string, c: char)
    requires forall i :: 0 <= i < |d| ==> IsDigit(d[i])
    requires IsDigit(c)
    ensures Horner(acc, d + [c]) == Horner(acc, d) * 10 + DigitOf(c)
    decreases |d|
  {
    if d != [] {
      assert (d + [c])[1..] == d[1..] + [c];
      HornerAppend(acc * 10 + DigitOf(d[0]), d[1..], c);
    }
  }

  lemma {:induction false} NatToStringValue(n: nat)
    ensures Horner(0, NatToString(n)) == n
  {
    if n >= 10 {
      NatToStringValue(n / 10);
      HornerAppend(0, NatToString(n / 10), DigitChar(n % 10));
    }
  }

  /** `int(str(i)) == i` for every integer. */
  lemma ParseIntToString(i: int)
    ensures ParseInt(IntToString(i)) == Some(i)
  {
    var n: nat := if i < 0 then -i else i;
    var d := NatToString(n);
    NatToStringValue(n);
    assert IsDigit(d[0]);
    assert Horner(0, d) == Horner(DigitOf(d[0]), d[1..]);
    ScanDigits(d[1..], i < 0, DigitOf(d[0]));
    var s := IntToString(i);
    if i < 0 {
      assert s == "-" + d && s[0] == '-';
      assert s[1..] == d;
      assert Scan(s, Leading, false, 0) == Scan(d, Signed, true, 0);
    }
  }
}

=== FILE: units.dfy ===
/**
 * Game-state bookkeeping (api/units.py): the players, their limos and the passengers,
 * updated in place from the records of a status message.
 *
 * Python's object references become indices: a limo's passenger, a player's delivered
 * passengers and a company's waiting passengers are indices into the passenger list, a
 * passenger's car is the index of the player owning the limo, and a passenger's lobby,
 * destination and route are indices into the company list.
 */
module Units {
  import opened Wrappers
  import opened GameMap
  import opened PyList

  /** The status strings a status message may carry about a player. */
  const STATUS: seq<string> := [
    "UPDATE", "NO_PATH", "PASSENGER_ABANDONED", "PASSENGER_DELIVERED",
    "PASSENGER_DELIVERED_AND_PICKED_UP", "PASSENGER_REFUSED",
    "PASSENGER_PICKED_UP", "PASSENGER_NO_ACTION"]

  /** A limo: its tile position, its angle, its remaining path and the passenger it carries. */
  datatype Limo = Limo(tilePosition: Tile, angle: int, path: seq<Tile>, passenger: Option<nat>)

  /** A player; `delivered` is passengersDelivered. */
  datatype Player = Player(guid: Option<string>, name: Option<string>, limo: Limo, pickup: seq<nat>, delivered: seq<nat>)

  /** A passenger (a company CEO); `car` is the player whose limo carries them. */
  datatype Passenger = Passenger(
    name: Option<string>, pointsDelivered: int,
    lobby: Option<nat>, destination: Option<nat>, route: seq<nat>, enemies: seq<nat>, car: Option<nat>)

  /** The attributes of a `<player>` element that updatePlayersFromXml reads, already decoded. */
  datatype PlayerElement = PlayerElement(guid: Option<string>, limoX: int, limoY: int, limoAngle: int, passenger: Option<string>)

  /** The attributes of a `<passenger>` element that updatePassengersFromXml reads. */
  datatype PassengerElement = PassengerElement(name: Option<string>, destination: Option<string>, status: Option<string>, lobby: Option<string>)

  /** The exceptions the updates raise: an empty lookup (IndexError) and an unknown status (TypeError). */
  datatype UpdateError =
    | NoSuchPlayer(guid: Option<string>)
    | NoSuchPassenger(name: Option<string>)
    | NoSuchCompany(companyName: Option<string>)
    | InvalidStatus(status: Option<string>)

  function CompanyNames(companies: seq<Company>): (r: seq<string>)
    ensures |r| == |companies| && forall k :: 0 <= k < |r| ==> r[k] == companies[k].name
  {
    seq(|companies|, k requires 0 <= k < |companies| => companies[k].name)
  }

  /** `[c for c in companies if c.name == name][0]`: the first company so named; None is the IndexError. */
  function CompanyNamed(companies: seq<Company>, name: Option<string>): (r: Option<nat>)
    ensures r.Some? ==>
      r.value < |companies| && Some(companies[r.value].name) == name && forall k :: 0 <= k < r.value ==> Some(companies[k].name) != name
    ensures r.None? ==> forall k :: 0 <= k < |companies| ==> Some(companies[k].name) != name
  {
    FirstWhere(CompanyNames(companies), (s: string) => Some(s) == name)
  }

  /** `[p for p in players if p.guid == guid][0]`: the first player with that guid; None is the IndexError. */
  function PlayerWithGuid(players: seq<Player>, guid: Option<string>): (r: Option<nat>)
    ensures r.Some? ==>
      r.value < |players| && players[r.value].guid == guid && forall k :: 0 <= k < r.value ==> players[k].guid != guid
    ensures r.None? ==> forall k :: 0 <= k < |players| ==> players[k].guid != guid
  {
    FirstWhere(players, (p: Player) => p.guid == guid)
  }

  /** `[p for p in passengers if p.name == name][0]`: the first passenger so named; None is the IndexError. */
  function PassengerNamed(passengers: seq<Passenger>, name: Option<string>): (r: Option<nat>)
    ensures r.Some? ==>
      r.value < |passengers| && passengers[r.value].name == name && forall k :: 0 <= k < r.value ==> passengers[k].name != name
    ensures r.None? ==> forall k :: 0 <= k < |passengers| ==> passengers[k].name != name
  {
    FirstWhere(passengers, (p: Passenger) => p.name == name)
  }

  /** The position of the first route entry equal, by Company.__eq__, to a company named `name`. */
  function RouteIndex(route: seq<nat>, companies: seq<Company>, name: string): Option<nat> {
    FirstWhere(route, (d: nat) => d < |companies| && companies[d].name == name)
  }

  /** `route.remove(company)` guarded by `company in route`: the first entry with the company's name goes. */
  function RemoveFromRoute(route: seq<nat>, companies: seq<Company>, name: string): (r: seq<nat>)
    ensures RouteIndex(route, companies, name).None? ==> r == route
    ensures RouteIndex(route, companies, name).Some? ==>
      var k := RouteIndex(route, companies, name).value;
      && |r| == |route| - 1 && r[..k] == route[..k] && r[k..] == route[k + 1..]
      && multiset(r) + multiset{route[k]} == multiset(route)
      && companies[route[k]].name == name
      && forall j :: 0 <= j < k ==> route[j] < |companies| ==> companies[route[j]].name != name
  {
    match RouteIndex(route, companies, name)
    case None => route
    case Some(k) =>
      assert route == route[..k] + [route[k]] + route[k + 1..];
      route[..k] + route[k + 1..]
  }

  predicate NoDuplicates(s: seq<nat>) {
    forall i, j :: 0 <= i < j < |s| ==> s[i] != s[j]
  }

  // ---------------------------------------------------------------- consistency of the references

  predicate PlayerRefsOk(p: Player, passengerCount: nat) {
    && (p.limo.passenger.Some? ==> p.limo.passenger.value < passengerCount)
    && (forall k :: 0 <= k < |p.delivered| ==> p.delivered[k] < passengerCount)
    && (forall k :: 0 <= k < |p.pickup| ==> p.pickup[k] < passengerCount)
  }

  predicate PassengerRefsOk(p: Passenger, playerCount: nat, passengerCount: nat, companyCount: nat) {
    && (p.car.Some? ==> p.car.value < playerCount)
    && (p.lobby.Some? ==> p.lobby.value < companyCount)
    && (p.destination.Some? ==> p.destination.value < companyCount)
    && (forall k :: 0 <= k < |p.route| ==> p.route[k] < companyCount)
    && (forall k :: 0 <= k < |p.enemies| ==> p.enemies[k] < passengerCount)
  }

  predicate CompanyRefsOk(c: Company, passengerCount: nat) {
    forall k :: 0 <= k < |c.passengers| ==> c.passengers[k] < passengerCount
  }

  /** Every reference between the three lists points at an element that exists. */
  predicate Consistent(players: seq<Player>, passengers: seq<Passenger>, companies: seq<Company>) {
    && (forall i :: 0 <= i < |players| ==> PlayerRefsOk(players[i], |passengers|))
    && (forall i :: 0 <= i < |passengers| ==> PassengerRefsOk(passengers[i], |players|, |passengers|, |companies|))
    && (forall i :: 0 <= i < |companies| ==> CompanyRefsOk(companies[i], |passengers|))
  }

  // ---------------------------------------------------------------- updatePlayersFromXml

  /** The rosters after (part of) an update, and the exception that stopped it, if any. */
  datatype Outcome = Outcome(players: seq<Player>, passengers: seq<Passenger>, error: Option<UpdateError>)

  /** Adding the outer element's last-delivered passenger to player i's delivered list, unless already there. */
  function RecordDelivery(players: seq<Player>, passengers: seq<Passenger>, i: nat, last: Option<string>): (r: Outcome)
    requires i < |players|
    ensures r.passengers == passengers && |r.players| == |players|
    ensures r.error.None? <==> (last.Some? ==> PassengerNamed(passengers, last).Some?)
    ensures forall k :: 0 <= k < |players| && k != i ==> r.players[k] == players[k]
    ensures r.players[i].(delivered := players[i].delivered) == players[i]
    ensures r.error.None? && last.Some? ==>
      PassengerNamed(passengers, last).value in r.players[i].delivered
    ensures r.error.Some? || last.None? ==> r.players == players
    ensures r.error.None? && last.Some? ==>
      var q := PassengerNamed(passengers, last).value;
      r.players[i].delivered == players[i].delivered + (if q in players[i].delivered then [] else [q])
    ensures NoDuplicates(players[i].delivered) ==> NoDuplicates(r.players[i].delivered)
  {
    if last.None? then Outcome(players, passengers, None)
    else match PassengerNamed(passengers, last)
      case None => Outcome(players, passengers, Some(NoSuchPassenger(last)))
      case Some(q) =>
        if q in players[i].delivered then Outcome(players, passengers, None)
        else
          var delivered := players[i].delivered + [q];
          assert delivered[..|players[i].delivered|] == players[i].delivered;
          Outcome(players[i := players[i].(delivered := delivered)], passengers, None)
  }

  /** One `<player>` element: move the limo, link its passenger both ways, record the last delivery. */
  function PlayerStep(players: seq<Player>, passengers: seq<Passenger>, e: PlayerElement, last: Option<string>): (r: Outcome)
    ensures |r.players| == |players| && |r.passengers| == |passengers|
    ensures PlayerWithGuid(players, e.guid).None? ==> r == Outcome(players, passengers, Some(NoSuchPlayer(e.guid)))
    ensures r.error.None? <==>
      && PlayerWithGuid(players, e.guid).Some?
      && (e.passenger.Some? ==> PassengerNamed(passengers, e.passenger).Some?)
      && (last.Some? ==> PassengerNamed(passengers, last).Some?)
    ensures PlayerWithGuid(players, e.guid).Some? ==>
      var i := PlayerWithGuid(players, e.guid).value;
      && r.players[i].limo.tilePosition == (e.limoX, e.limoY)
      && r.players[i].limo.angle == e.limoAngle
      && r.players[i].limo.path == players[i].limo.path
      && r.players[i].guid == players[i].guid && r.players[i].name == players[i].name
      && r.players[i].pickup == players[i].pickup
      && (forall k :: 0 <= k < |players| && k != i ==> r.players[k] == players[k])
      && (NoDuplicates(players[i].delivered) ==> NoDuplicates(r.players[i].delivered))
      && (r.error.Some? ==> r.players[i].delivered == players[i].delivered)
    ensures r.error.None? ==>
      var i := PlayerWithGuid(players, e.guid).value;
      && (e.passenger.None? ==> r.players[i].limo.passenger.None? && r.passengers == passengers)
      && (e.passenger.Some? ==>
            var q := PassengerNamed(passengers, e.passenger).value;
            && r.players[i].limo.passenger == Some(q)
            && r.passengers == passengers[q := passengers[q].(car := Some(i))])
      && (last.None? ==> r.players[i].delivered == players[i].delivered)
      && (last.Some? ==>
            var d := PassengerNamed(passengers, last).value;
            r.players[i].delivered == players[i].delivered + (if d in players[i].delivered then [] else [d]))
  {
    match PlayerWithGuid(players, e.guid)
    case None => Outcome(players, passengers, Some(NoSuchPlayer(e.guid)))
    case Some(i) =>
      var moved := players[i].limo.(tilePosition := (e.limoX, e.limoY), angle := e.limoAngle);
      if e.passenger.None? then
        RecordDelivery(players[i := players[i].(limo := moved.(passenger := None))], passengers, i, last)
      else match PassengerNamed(passengers, e.passenger)
        case None => Outcome(players[i := players[i].(limo := moved)], passengers, Some(NoSuchPassenger(e.passenger)))
        case Some(q) =>
          PassengerNamedIgnoresCar(passengers, q, Some(i), last);
          RecordDelivery(players[i := players[i].(limo := moved.(passenger := Some(q)))],
                         passengers[q := passengers[q].(car := Some(i))], i, last)
  }

  /** Linking a passenger to a car does not change which passenger a name finds. */
  lemma PassengerNamedIgnoresCar(passengers: seq<Passenger>, q: nat, car: Option<nat>, name: Option<string>)
    requires q < |passengers|
    ensures PassengerNamed(passengers[q := passengers[q].(car := car)], name) == PassengerNamed(passengers, name)
  {
    FirstWhereAgree(passengers[q := passengers[q].(car := car)], passengers, (p: Passenger) => p.name == name);
  }

  /** updatePlayersFromXml: the player elements in document order, stopping at the first exception. */
  function PlayersAfter(players: seq<Player>, passengers: seq<Passenger>, elements: seq<PlayerElement>, last: Option<string>): (r: Outcome)
    ensures |r.players| == |players| && |r.passengers| == |passengers|
    ensures (forall i :: 0 <= i < |players| ==> NoDuplicates(players[i].delivered)) ==>
      forall i :: 0 <= i < |r.players| ==> NoDuplicates(r.players[i].delivered)
    decreases |elements|
  {
    if elements == [] then Outcome(players, passengers, None)
    else
      var o := PlayerStep(players, passengers, elements[0], last);
      if o.error.Some? then o else PlayersAfter(o.players, o.passengers, elements[1..], last)
  }

  /** Replacing one player by one whose references are in range keeps the rosters consistent. */
  lemma ReplacePlayerKeeps(players: seq<Player>, passengers: seq<Passenger>, companies: seq<Company>, who: nat, p: Player)
    requires Consistent(players, passengers, companies) && who < |players| && PlayerRefsOk(p, |passengers|)
    ensures Consistent(players[who := p], passengers, companies)
  {
  }

  /** Seating a passenger in an existing car keeps the rosters consistent. */
  lemma SetCarKeeps(players: seq<Player>, passengers: seq<Passenger>, companies: seq<Company>, q: nat, i: nat)
    requires Consistent(players, passengers, companies) && q < |passengers| && i < |players|
    ensures Consistent(players, passengers[q := passengers[q].(car := Some(i))], companies)
  {
  }

  /** Recording a delivery keeps the rosters consistent. */
  lemma RecordDeliveryConsistent(players: seq<Player>, passengers: seq<Passenger>, companies: seq<Company>, i: nat, last: Option<string>)
    requires Consistent(players, passengers, companies) && i < |players|
    ensures Consistent(RecordDelivery(players, passengers, i, last).players, passengers, companies)
  {
    var o := RecordDelivery(players, passengers, i, last);
    if o.players != players {
      var q := PassengerNamed(passengers, last).value;
      assert o.players == players[i := players[i].(delivered := players[i].delivered + [q])];
      ReplacePlayerKeeps(players, passengers, companies, i, o.players[i]);
    }
  }

  /** A player step keeps every reference in range. */
  lemma PlayerStepConsistent(players: seq<Player>, passengers: seq<Passenger>, companies: seq<Company>, e: PlayerElement, last: Option<string>)
    requires Consistent(players, passengers, companies)
    ensures var o := PlayerStep(players, passengers, e, last); Consistent(o.players, o.passengers, companies)
  {
    match PlayerWithGuid(players, e.guid)
    case None =>
    case Some(i) =>
      var moved := players[i].limo.(tilePosition := (e.limoX, e.limoY), angle := e.limoAngle);
      if e.passenger.None? {
        var p := players[i].(limo := moved.(passenger := None));
        ReplacePlayerKeeps(players, passengers, companies, i, p);
        RecordDeliveryConsistent(players[i := p], passengers, companies, i, last);
      } else {
        match PassengerNamed(passengers, e.passenger)
        case None =>
          ReplacePlayerKeeps(players, passengers, companies, i, players[i].(limo := moved));
        case Some(q) =>
          var p := players[i].(limo := moved.(passenger := Some(q)));
          ReplacePlayerKeeps(players, passengers, companies, i, p);
          SetCarKeeps(players[i := p], passengers, companies, q, i);
          RecordDeliveryConsistent(players[i := p], passengers[q := passengers[q].(car := Some(i))], companies, i, last);
      }
  }


  // ---------------------------------------------------------------- updatePassengersFromXml

  datatype PassengerOutcome = PassengerOutcome(passengers: seq<Passenger>, error: Option<UpdateError>)

  /** Setting a passenger's destination removes the first route entry with that company's name. */
  function Retarget(p: Passenger, companies: seq<Company>, c: nat): (r: Passenger)
    requires c < |companies|
    ensures r == p.(destination := Some(c), route := RemoveFromRoute(p.route, companies, companies[c].name))
  {
    p.(destination := Some(c), route := RemoveFromRoute(p.route, companies, companies[c].name))
  }

  /** One `<passenger>` element: destination and route first, then the status switch. */
  function PassengerStep(passengers: seq<Passenger>, companies: seq<Company>, e: PassengerElement): (r: PassengerOutcome)
    ensures |r.passengers| == |passengers|
    ensures PassengerNamed(passengers, e.name).None? ==> r == PassengerOutcome(passengers, Some(NoSuchPassenger(e.name)))
    ensures r.error.None? <==>
      && PassengerNamed(passengers, e.name).Some?
      && (e.destination.Some? ==> CompanyNamed(companies, e.destination).Some?)
      && (e.status == Some("lobby") ==> CompanyNamed(companies, e.lobby).Some?)
      && e.status in {Some("lobby"), Some("travelling"), Some("done")}
    ensures PassengerNamed(passengers, e.name).Some? ==>
      var p := PassengerNamed(passengers, e.name).value;
      && (forall k :: 0 <= k < |passengers| && k != p ==> r.passengers[k] == passengers[k])
      && r.passengers[p].name == passengers[p].name
      && r.passengers[p].pointsDelivered == passengers[p].pointsDelivered
      && r.passengers[p].enemies == passengers[p].enemies
    ensures r.error.None? ==>
      var p, q := PassengerNamed(passengers, e.name).value, r.passengers[PassengerNamed(passengers, e.name).value];
      && (e.destination.Some? ==>
            var c := CompanyNamed(companies, e.destination).value;
            q.route == RemoveFromRoute(passengers[p].route, companies, companies[c].name)
            && (e.status != Some("done") ==> q.destination == Some(c)))
      && (e.destination.None? ==> q.route == passengers[p].route)
      && (e.destination.None? && e.status != Some("done") ==> q.destination == passengers[p].destination)
      && (e.status == Some("lobby") ==> q.lobby == CompanyNamed(companies, e.lobby) && q.car.None?)
      && (e.status == Some("travelling") ==> q.lobby.None? && q.car == passengers[p].car)
      && (e.status == Some("done") ==> q.destination.None? && q.lobby.None? && q.car.None?)
    ensures
      && PassengerNamed(passengers, e.name).Some?
      && (e.destination.Some? ==> CompanyNamed(companies, e.destination).Some?)
      && e.status !in {Some("lobby"), Some("travelling"), Some("done")}
      ==> r.error == Some(InvalidStatus(e.status))
    ensures PassengerNamed(passengers, e.name).Some? && e.destination.Some? && CompanyNamed(companies, e.destination).None? ==>
      r == PassengerOutcome(passengers, Some(NoSuchCompany(e.destination)))
    ensures PassengerNamed(passengers, e.name).Some? && (e.destination.Some? ==> CompanyNamed(companies, e.destination).Some?) ==>
      var p := PassengerNamed(passengers, e.name).value;
      var q := if e.destination.None? then passengers[p] else Retarget(passengers[p], companies, CompanyNamed(companies, e.destination).value);
      && (e.status !in {Some("lobby"), Some("travelling"), Some("done")} ==>
            r == PassengerOutcome(passengers[p := q], Some(InvalidStatus(e.status))))
      && (e.status == Some("lobby") && CompanyNamed(companies, e.lobby).None? ==>
            r == PassengerOutcome(passengers[p := q], Some(NoSuchCompany(e.lobby))))
  {
    match PassengerNamed(passengers, e.name)
    case None => PassengerOutcome(passengers, Some(NoSuchPassenger(e.name)))
    case Some(p) =>
      var dest := if e.destination.None? then None else CompanyNamed(companies, e.destination);
      if e.destination.Some? && dest.None? then PassengerOutcome(passengers, Some(NoSuchCompany(e.destination)))
      else
        var q := if dest.None? then passengers[p] else Retarget(passengers[p], companies, dest.value);
        if e.status == Some("lobby") then
          match CompanyNamed(companies, e.lobby)
          case None => PassengerOutcome(passengers[p := q], Some(NoSuchCompany(e.lobby)))
          case Some(l) => PassengerOutcome(passengers[p := q.(lobby := Some(l), car := None)], None)
        else if e.status == Some("travelling") then PassengerOutcome(passengers[p := q.(lobby := None)], None)
        else if e.status == Some("done") then
          PassengerOutcome(passengers[p := q.(destination := None, lobby := None, car := None)], None)
        else PassengerOutcome(passengers[p := q], Some(InvalidStatus(e.status)))
  }

  /** updatePassengersFromXml: the passenger elements in document order, stopping at the first exception. */
  function PassengersAfter(passengers: seq<Passenger>, companies: seq<Company>, elements: seq<PassengerElement>): (r: PassengerOutcome)
    ensures |r.passengers| == |passengers|
    ensures forall k :: 0 <= k < |passengers| ==>
      r.passengers[k].name == passengers[k].name && r.passengers[k].enemies == passengers[k].enemies
    decreases |elements|
  {
    if elements == [] then PassengerOutcome(passengers, None)
    else
      var o := PassengerStep(passengers, companies, elements[0]);
      if o.error.Some? then o else PassengersAfter(o.passengers, companies, elements[1..])
  }

  /** A passenger step keeps every reference in range. */
  lemma PassengerStepConsistent(players: seq<Player>, passengers: seq<Passenger>, companies: seq<Company>, e: PassengerElement)
    requires Consistent(players, passengers, companies)
    ensures Consistent(players, PassengerStep(passengers, companies, e).passengers, companies)
  {
    var o := PassengerStep(passengers, companies, e);
    if PassengerNamed(passengers, e.name).Some? {
      var p := PassengerNamed(passengers, e.name).value;
      assert PassengerRefsOk(o.passengers[p], |players|, |passengers|, |companies|) by {
        if e.destination.Some? && CompanyNamed(companies, e.destination).Some? {
          RouteInRange(passengers[p].route, companies, companies[CompanyNamed(companies, e.destination).value].name);
        }
      }
      forall i | 0 <= i < |passengers|
        ensures PassengerRefsOk(o.passengers[i], |players|, |passengers|, |companies|)
      {
        if i != p {
          assert o.passengers[i] == passengers[i];
        }
      }
    }
  }

  /** Removing an entry from a route keeps the rest of it in range. */
  lemma RouteInRange(route: seq<nat>, companies: seq<Company>, name: string)
    requires forall k :: 0 <= k < |route| ==> route[k] < |companies|
    ensures var r := RemoveFromRoute(route, companies, name); forall k :: 0 <= k < |r| ==> r[k] < |companies|
  {
    var r := RemoveFromRoute(route, companies, name);
    if RouteIndex(route, companies, name).Some? {
      var j := RouteIndex(route, companies, name).value;
      forall k | 0 <= k < |r| ensures r[k] < |companies| {
        if k < j { assert r[k] == r[..j][k]; } else { assert r[k] == r[j..][k - j]; }
      }
    }
  }

  // ---------------------------------------------------------------- passengersFromXml: lobby registration

  /**
   * The lookups by company use Company.__eq__: `destination in route` and `route.remove(destination)`
   * find the first route entry equal to the destination, and the lobby registration finds the first
   * company equal to the passenger's lobby.
   */
  lemma LookupsUseCompanyEquals(route: seq<nat>, companies: seq<Company>, c: nat, p: Passenger)
    requires c < |companies|
    ensures RouteIndex(route, companies, companies[c].name) ==
      FirstWhere(route, (d: nat) => d < |companies| && CompanyEquals(companies[c], Some(companies[d])))
    ensures p.lobby.Some? && p.lobby.value < |companies| ==>
      LobbyCompany(p, companies) == FirstWhere(companies, (x: Company) => CompanyEquals(x, Some(companies[p.lobby.value])))
  {
    FirstWhereAgreeFunctions(route, (d: nat) => d < |companies| && companies[d].name == companies[c].name,
      (d: nat) => d < |companies| && CompanyEquals(companies[c], Some(companies[d])));
    if p.lobby.Some? && p.lobby.value < |companies| {
      var lobby := companies[p.lobby.value];
      var names := CompanyNames(companies);
      var a := FirstWhere(names, (s: string) => Some(s) == Some(lobby.name));
      var b := FirstWhere(companies, (x: Company) => CompanyEquals(x, Some(lobby)));
      assert forall k :: 0 <= k < |companies| ==> (names[k] == lobby.name <==> CompanyEquals(companies[k], Some(lobby)));
    }
  }


  /** The company a passenger's lobby resolves to by Company.__eq__: the first with the lobby's name. */
  function LobbyCompany(p: Passenger, companies: seq<Company>): Option<nat> {
    if p.lobby.Some? && p.lobby.value < |companies| then CompanyNamed(companies, Some(companies[p.lobby.value].name))
    else None
  }

  /** The passengers among the first n, in list order, whose lobby resolves to company c. */
  function LobbyMembers(passengers: seq<Passenger>, companies: seq<Company>, c: nat, n: nat): seq<nat>
    requires n <= |passengers|
  {
    if n == 0 then []
    else if LobbyCompany(passengers[n - 1], companies) == Some(c) then LobbyMembers(passengers, companies, c, n - 1) + [n - 1]
    else LobbyMembers(passengers, companies, c, n - 1)
  }

  /** Company c's new waiting passengers are exactly those among the first n whose lobby it is. */
  lemma {:induction false} LobbyMembersAre(passengers: seq<Passenger>, companies: seq<Company>, c: nat, n: nat)
    requires n <= |passengers|
    ensures forall k: nat :: k in LobbyMembers(passengers, companies, c, n) <==> k < n && LobbyCompany(passengers[k], companies) == Some(c)
  {
    if n > 0 {
      LobbyMembersAre(passengers, companies, c, n - 1);
      var earlier, r := LobbyMembers(passengers, companies, c, n - 1), LobbyMembers(passengers, companies, c, n);
      var joins := LobbyCompany(passengers[n - 1], companies) == Some(c);
      assert r == if joins then earlier + [n - 1] else earlier;
      forall k: nat ensures k in r <==> k < n && LobbyCompany(passengers[k], companies) == Some(c) {
        assert k in r <==> k in earlier || (joins && k == n - 1);
      }
    }
  }

  /** ... and they keep the passenger list's order. */
  lemma {:induction false} LobbyMembersOrdered(passengers: seq<Passenger>, companies: seq<Company>, c: nat, n: nat)
    requires n <= |passengers|
    ensures forall i :: 0 <= i < |LobbyMembers(passengers, companies, c, n)| ==> LobbyMembers(passengers, companies, c, n)[i] < n
    ensures forall i, j :: 0 <= i < j < |LobbyMembers(passengers, companies, c, n)| ==>
      LobbyMembers(passengers, companies, c, n)[i] < LobbyMembers(passengers, companies, c, n)[j]
  {
    if n > 0 {
      LobbyMembersOrdered(passengers, companies, c, n - 1);
      var earlier, r := LobbyMembers(passengers, companies, c, n - 1), LobbyMembers(passengers, companies, c, n);
      if LobbyCompany(passengers[n - 1], companies) == Some(c) {
        assert r == earlier + [n - 1];
        assert forall i :: 0 <= i < |earlier| ==> r[i] == earlier[i];
      } else {
        assert r == earlier;
      }
    }
  }


  /** The companies after the first n passengers have joined the waiting lists of their lobbies. */
  function Registered(passengers: seq<Passenger>, companies: seq<Company>, n: nat): (r: seq<Company>)
    requires n <= |passengers|
    ensures |r| == |companies| && CompanyNames(r) == CompanyNames(companies)
    ensures forall c :: 0 <= c < |r| ==>
      r[c] == companies[c].(passengers := companies[c].passengers + LobbyMembers(passengers, companies, c, n))
  {
    var r := seq(|companies|, c requires 0 <= c < |companies| =>
      companies[c].(passengers := companies[c].passengers + LobbyMembers(passengers, companies, c, n)));
    assert CompanyNames(r) == CompanyNames(companies) by {
      assert forall k :: 0 <= k < |r| ==> CompanyNames(r)[k] == CompanyNames(companies)[k];
    }
    r
  }

  lemma RegisteredNone(passengers: seq<Passenger>, companies: seq<Company>)
    ensures Registered(passengers, companies, 0) == companies
  {
    forall c | 0 <= c < |companies|
      ensures companies[c].passengers + LobbyMembers(passengers, companies, c, 0) == companies[c].passengers
    {
      assert LobbyMembers(passengers, companies, c, 0) == [];
    }
  }

  /** Registering one more passenger appends it to the list of the company its lobby resolves to. */
  lemma RegisteredStep(passengers: seq<Passenger>, companies: seq<Company>, n: nat)
    requires n < |passengers|
    ensures var before, after := Registered(passengers, companies, n), Registered(passengers, companies, n + 1);
      match LobbyCompany(passengers[n], companies)
      case None => after == before
      case Some(c) => after == before[c := before[c].(passengers := before[c].passengers + [n])]
  {
    var before, after := Registered(passengers, companies, n), Registered(passengers, companies, n + 1);
    var lobby := LobbyCompany(passengers[n], companies);
    var joined := if lobby.None? then before else before[lobby.value := before[lobby.value].(passengers := before[lobby.value].passengers + [n])];
    forall k | 0 <= k < |companies| ensures after[k] == joined[k] {
      var waiting, m := companies[k].passengers, LobbyMembers(passengers, companies, k, n);
      LobbyMembersStep(passengers, companies, k, n);
      assert before[k] == companies[k].(passengers := waiting + m);
      if lobby == Some(k) {
        assert after[k] == companies[k].(passengers := waiting + (m + [n]));
        assert waiting + (m + [n]) == (waiting + m) + [n];
      } else {
        assert after[k] == companies[k].(passengers := waiting + m);
      }
    }
    assert after == joined;
  }


  lemma LobbyMembersStep(passengers: seq<Passenger>, companies: seq<Company>, c: nat, n: nat)
    requires n < |passengers|
    ensures LobbyMembers(passengers, companies, c, n + 1)
         == LobbyMembers(passengers, companies, c, n) + (if LobbyCompany(passengers[n], companies) == Some(c) then [n] else [])
  {
  }


  /** Appending a passenger to one company's waiting list keeps every reference in range. */
  lemma JoinKeepsConsistent(players: seq<Player>, passengers: seq<Passenger>, companies: seq<Company>, c: nat, n: nat)
    requires Consistent(players, passengers, companies) && c < |companies| && n < |passengers|
    ensures Consistent(players, passengers, companies[c := companies[c].(passengers := companies[c].passengers + [n])])
  {
    var after := companies[c := companies[c].(passengers := companies[c].passengers + [n])];
    forall i | 0 <= i < |after| ensures CompanyRefsOk(after[i], |passengers|) {
      if i == c {
        assert CompanyRefsOk(companies[c], |passengers|);
      } else {
        assert after[i] == companies[i];
      }
    }
  }

  // ---------------------------------------------------------------- the lists the brain keeps

  /** The players, passengers and companies of the running game, updated in place. */
  class GameState {
    var players: seq<Player>
    var passengers: seq<Passenger>
    var companies: seq<Company>

    predicate Valid()
      reads this
    {
      Consistent(players, passengers, companies)
    }

    constructor(players: seq<Player>, passengers: seq<Passenger>, companies: seq<Company>)
      requires Consistent(players, passengers, companies)
      ensures Valid()
      ensures this.players == players && this.passengers == passengers && this.companies == companies
    {
      this.players := players;
      this.passengers := passengers;
      this.companies := companies;
    }

    /** The body of updatePlayersFromXml's loop, for one player element. */
    method UpdatePlayer(e: PlayerElement, last: Option<string>) returns (err: Option<UpdateError>)
      requires Valid()
      modifies this`players, this`passengers
      ensures Valid()
      ensures Outcome(players, passengers, err) == PlayerStep(old(players), old(passengers), e, last)
    {
      PlayerStepConsistent(players, passengers, companies, e, last);
      var i := PlayerWithGuid(players, e.guid);
      if i.None? {
        return Some(NoSuchPlayer(e.guid));
      }
      var player := players[i.value];
      player := player.(limo := player.limo.(tilePosition := (e.limoX, e.limoY)));
      player := player.(limo := player.limo.(angle := e.limoAngle));
      if e.passenger.Some? {
        var q := PassengerNamed(passengers, e.passenger);
        if q.None? {
          players := players[i.value := player];
          return Some(NoSuchPassenger(e.passenger));
        }
        player := player.(limo := player.limo.(passenger := q));
        PassengerNamedIgnoresCar(passengers, q.value, i, last);
        passengers := passengers[q.value := passengers[q.value].(car := i)];
      } else {
        player := player.(limo := player.limo.(passenger := None));
      }
      players := players[i.value := player];
      err := RecordDelivered(i.value, last);
    }

    /** api/units.py:167-172: the last-delivered passenger joins player i's delivered list unless already on it. */
    method RecordDelivered(i: nat, last: Option<string>) returns (err: Option<UpdateError>)
      requires i < |players|
      modifies this`players
      ensures Outcome(players, passengers, err) == RecordDelivery(old(players), passengers, i, last)
    {
      if last.None? {
        return None;
      }
      var d := PassengerNamed(passengers, last);
      if d.None? {
        return Some(NoSuchPassenger(last));
      }
      if d.value !in players[i].delivered {
        players := players[i := players[i].(delivered := players[i].delivered + [d.value])];
      }
      return None;
    }

    /** updatePlayersFromXml; `last` is the last-delivered attribute of the enclosing element. */
    method UpdatePlayers(elements: seq<PlayerElement>, last: Option<string>) returns (err: Option<UpdateError>)
      requires Valid()
      modifies this`players, this`passengers
      ensures Valid()
      ensures Outcome(players, passengers, err) == PlayersAfter(old(players), old(passengers), elements, last)
    {
      for n := 0 to |elements|
        invariant Valid()
        invariant PlayersAfter(old(players), old(passengers), elements, last) == PlayersAfter(players, passengers, elements[n..], last)
      {
        assert elements[n..][0] == elements[n] && elements[n..][1..] == elements[n + 1..];
        err := UpdatePlayer(elements[n], last);
        if err.Some? {
          return;
        }
      }
      assert elements[|elements|..] == [];
      return None;
    }

    /** The body of updatePassengersFromXml's loop, for one passenger element. */
    method UpdatePassenger(e: PassengerElement) returns (err: Option<UpdateError>)
      requires Valid()
      modifies this`passengers
      ensures Valid()
      ensures PassengerOutcome(passengers, err) == PassengerStep(old(passengers), companies, e)
    {
      PassengerStepConsistent(players, passengers, companies, e);
      var p := PassengerNamed(passengers, e.name);
      if p.None? {
        return Some(NoSuchPassenger(e.name));
      }
      var passenger := passengers[p.value];
      if e.destination.Some? {
        var c := CompanyNamed(companies, e.destination);
        if c.None? {
          return Some(NoSuchCompany(e.destination));
        }
        passenger := Retarget(passenger, companies, c.value);
      }
      if e.status == Some("lobby") {
        var l := CompanyNamed(companies, e.lobby);
        if l.None? {
          passengers := passengers[p.value := passenger];
          return Some(NoSuchCompany(e.lobby));
        }
        passenger := passenger.(lobby := l, car := None);
      } else if e.status == Some("travelling") {
        passenger := passenger.(lobby := None);
      } else if e.status == Some("done") {
        passenger := passenger.(destination := None, lobby := None, car := None);
      } else {
        passengers := passengers[p.value := passenger];
        return Some(InvalidStatus(e.status));
      }
      passengers := passengers[p.value := passenger];
      return None;
    }

    /** updatePassengersFromXml. */
    method UpdatePassengers(elements: seq<PassengerElement>) returns (err: Option<UpdateError>)
      requires Valid()
      modifies this`passengers
      ensures Valid()
      ensures PassengerOutcome(passengers, err) == PassengersAfter(old(passengers), companies, elements)
    {
      for n := 0 to |elements|
        invariant Valid()
        invariant PassengersAfter(old(passengers), companies, elements) == PassengersAfter(passengers, companies, elements[n..])
      {
        assert elements[n..][0] == elements[n] && elements[n..][1..] == elements[n + 1..];
        err := UpdatePassenger(elements[n]);
        if err.Some? {
          return;
        }
      }
      assert elements[|elements|..] == [];
      return None;
    }

    /** The lobby loop of passengersFromXml: each passenger with a lobby joins that company's waiting list. */
    method RegisterLobbies()
      requires Valid()
      modifies this`companies
      ensures Valid()
      ensures companies == Registered(passengers, old(companies), |passengers|)
    {
      ghost var start := companies;
      RegisteredNone(passengers, start);
      for n := 0 to |passengers|
        invariant Valid()
        invariant companies == Registered(passengers, start, n)
      {
        RegisteredStep(passengers, start, n);
        var lobby := passengers[n].lobby;
        if lobby.Some? {
          assert companies[lobby.value].name == CompanyNames(companies)[lobby.value] == CompanyNames(start)[lobby.value];
          var c := CompanyNamed(companies, Some(companies[lobby.value].name));
          assert c == LobbyCompany(passengers[n], start);
          JoinKeepsConsistent(players, passengers, companies, c.value, n);
          var company := companies[c.value];
          companies := companies[c.value := company.(passengers := company.passengers + [n])];
        }
      }
    }
  }
}

=== FILE: wrappers.dfy ===
/** Failure-compatible return types shared by every module of the model. */
module Wrappers {

  datatype Option<+T> = None | Some(value: T)

  /** The outcome of an operation that the source can abandon by raising an exception. */
  datatype Result<+T, +E> = Success(value: T) | Failure(error: E) {
    predicate IsFailure() { Failure? }

    function PropagateFailure<U>(): Result<U, E>
      requires Failure?
    {
      Failure(error)
    }

    function Extract(): T
      requires Success?
    {
      value
    }
  }
}
